=== FILE: README.md ===
# School administration client: a Dafny model

This project models the client side of the Mark Finley Adventist Preparatory
School records system. The client is a React front end. The back end (the
record stores, audit trail, import and export) is known only through its type
signatures in `src/frontend/src/backend.d.ts`. So the model covers what the
front end itself decides:

- the record shapes and closed enumerations of the back-end interface;
- the records the form dialogs build: exam marks and grade, financial records,
  students, staff and user profiles, with their id prefixes and
  millisecond-to-nanosecond timestamps;
- the choice each dialog makes between create and update, and when it closes and resets;
- the role gate in front of restricted pages, the sidebar menu each role
  sees, and the proof that the two agree;
- the dashboard figures, the revenue/expense split and the profit/loss report;
- the per-subject exam analytics and the report-card average;
- grouping students by class and by parent phone, the search filters of the
  class, parent, admissions and staff lists, and their CSV export rows;
- the SMS templates with their placeholder substitution, and the individual and bulk
  send handlers;
- the weekly backup reminder banner.

## Layout

| file | module | contents |
|---|---|---|
| wrappers.dfy | Wrappers | `Option` |
| seqs.dfy | Seqs | `Filter`, `Map`, `SumOf`, `Find`, `Distinct` and their lemmas |
| text.dfy | Text | ASCII lowercasing, substring search, first-occurrence replace, `join` |
| decimal.dfy | Decimal | `Number.prototype.toString` on naturals, and `parseInt` |
| grouping.dfy | Grouping | the `reduce`-into-an-object grouping, proved to be a partition |
| domain.dfy | Domain | enumerations, records, ids, timestamps |
| dialogs.dfy | Dialogs | dialog state and toasts |
| grading.dfy | Grading | `calculateGrade` and the marks dialog |
| finance.dfy | Finance | the financial record dialog, the finance page and the reports page |
| dashboard.dfy | Dashboard | `useDashboardStats` |
| access.dfy | Access | `RequireRole`, the per-page role lists, `SidebarNav` |
| classes.dfy | Classes | the classes page and the class detail page |
| parents.dfy | Parents | the parents page |
| directory.dfy | Directory | the admissions and staff searches |
| analytics.dfy | Analytics | the per-subject analytics chart |
| reportcard.dfy | ReportCard | the student report card |
| templates.dfy | Templates | `SMS_TEMPLATES` and `insertTemplate` |
| sms.dfy | Sms | the SMS page |
| recordforms.dfy | RecordForms | the student and staff dialogs |
| users.dfy | Users | the add-user dialog |
| backup.dfy | Backup | the backup reminder banner |

Clock readings (`Date.now()`), the number `parseFloat` reads from an amount or
marks field, the result of `Principal.fromText`, the text stored in browser
storage and whether a back-end call succeeded (`saved`) are all parameters.

## Model

All paths are under `src/frontend/src/`; the table gives them in full.

| member | source | states |
|---|---|---|
| Domain.ParseAppRole | src/frontend/src/backend.d.ts:79-83 | a role string parses to the role of that name, and fails exactly when no role has that name; the three roles are the whole enumeration |
| Domain.AppRoleNameRoundTrip | src/frontend/src/backend.d.ts:79-83 | every role's string value parses back to that role |
| Domain.ParseFinancialType | src/frontend/src/backend.d.ts:84-87 | a record type string is "revenue" or "expense" and nothing else |
| Domain.StaffToAdmission | src/frontend/src/backend.d.ts:73-92 | each staff status is the admission status with the same string, and never `promoted` |
| Domain.AdmissionToStaff | src/frontend/src/backend.d.ts:73-92 | an admission status has a staff counterpart with the same string exactly when it is not `promoted` |
| Domain.StaffStatusesAreAdmissionStatusesWithoutPromoted | src/frontend/src/backend.d.ts:73-92 | the two conversions are inverse on staff statuses and on non-promoted admission statuses, so staff statuses are the admission statuses minus `promoted` |
| Domain.MillisToNanos | src/frontend/src/components/exams/MarksEntryFormDialog.tsx:46 | the stored timestamp is a whole multiple of 1,000,000 whose quotient is the clock reading |
| Domain.NanosToMillisRoundTrip | src/frontend/src/pages/finance/FinancePage.tsx:95 | dividing a stored timestamp by 1,000,000, as the list view does, gives back the creation milliseconds |
| Domain.MakeId | src/frontend/src/components/exams/MarksEntryFormDialog.tsx:39 | an id is the prefix followed by the decimal clock reading |
| Domain.MakeIdInjective | src/frontend/src/components/exams/MarksEntryFormDialog.tsx:39 | two ids with the same prefix are equal only if they were made at the same millisecond |
| Grading.CalculateGrade | src/frontend/src/components/exams/MarksEntryFormDialog.tsx:25-31 | A iff marks ≥ 80, B iff 70 ≤ marks < 80, C iff 60 ≤ marks < 70, D iff 50 ≤ marks < 60, F iff marks < 50; it is total, with no range check |
| Grading.GradeMonotone | src/frontend/src/components/exams/MarksEntryFormDialog.tsx:25-31 | higher marks never give a worse grade |
| Grading.GradeBoundaries | src/frontend/src/components/exams/MarksEntryFormDialog.tsx:25-31 | each threshold is inclusive on its lower side: 80 is A, 79.9 is B, 50 is D, 49.9 is F |
| Grading.BuildExamRecord | src/frontend/src/components/exams/MarksEntryFormDialog.tsx:37-47 | the record carries the parsed marks and the grade of those same marks, the form's student, subject and remarks, position 1, an "EXM" id and a timestamp equal to the clock |
| Grading.SubmitMarks | src/frontend/src/components/exams/MarksEntryFormDialog.tsx:33-56 | the built record is sent; on success the dialog closes and all four fields are cleared; on failure the dialog is unchanged and an error toast is shown |
| Finance.DialogTitle | src/frontend/src/components/finance/FinancialRecordFormDialog.tsx:49 | the title reads "Add Revenue" iff the type is revenue and "Add Expense" iff it is expense |
| Finance.BuildFinancialRecord | src/frontend/src/components/finance/FinancialRecordFormDialog.tsx:28-34 | the record's type is the dialog's type, the amount is the parsed number unchanged (no lower bound), the id is "FIN" and the clock, and the timestamp divides back to the clock |
| Finance.SubmitFinancialRecord | src/frontend/src/components/finance/FinancialRecordFormDialog.tsx:24-43 | the form is cleared and the dialog closed only after a successful add; a failure leaves both as they were |
| Finance.AddRecord | src/frontend/src/pages/finance/FinancePage.tsx:33-36 | each add button opens the dialog with its own record type |
| Finance.RowActions | src/frontend/src/pages/finance/FinancePage.tsx:97-169 | every row can be deleted; a row links to a receipt iff it is revenue |
| Finance.RevenuesExpensesPartition | src/frontend/src/pages/finance/FinancePage.tsx:19-20 | the two lists keep input order, hold only their own type, and together hold every record exactly once (as a multiset) |
| Finance.TotalRevenue | src/frontend/src/pages/finance/ReportsPage.tsx:16 | with only expense records the total revenue is 0; with only revenue records it is the sum of all amounts |
| Finance.TotalExpenses | src/frontend/src/pages/finance/ReportsPage.tsx:17 | with only revenue records the total expenses are 0; with only expense records they are the sum of all amounts |
| Finance.TotalsSplitSum | src/frontend/src/pages/finance/ReportsPage.tsx:13-17 | total revenue plus total expenses is the sum of all amounts |
| Finance.Report | src/frontend/src/pages/finance/ReportsPage.tsx:13-18 | the totals are the revenue and expense sums (`Finance.TotalRevenue`, `Finance.TotalExpenses`) and add up to the sum of all amounts, profit is revenue minus expenses, it is shown green iff it is ≥ 0, and an empty list gives 0 for all three |
| Finance.OnlyRevenue | src/frontend/src/pages/finance/ReportsPage.tsx:13-18 | with revenue records only, expenses are 0 and the profit is the whole sum |
| Finance.OnlyExpenses | src/frontend/src/pages/finance/ReportsPage.tsx:13-18 | with expense records only, revenue is 0 and the loss is the whole sum |
| Finance.ExpenseLeavesRevenueUnchanged | src/frontend/src/pages/finance/ReportsPage.tsx:13-16 | inserting an expense record anywhere leaves the revenue total unchanged |
| Dashboard.ClassNames | src/frontend/src/hooks/useDashboardStats.ts:18 | the class set is exactly the class names the students carry |
| Dashboard.ClassCountBounds | src/frontend/src/hooks/useDashboardStats.ts:18-19 | there are never more classes than students, and no classes exactly when there are no students |
| Dashboard.ComputeStats | src/frontend/src/hooks/useDashboardStats.ts:14-25 | the active-student figure is the number of positions holding an active student, so it is ≤ the student count with equality iff all are active; likewise for staff; classes = distinct class names; fees collected = the reports page's revenue total; outstanding fees = 0 |
| Dashboard.ClassCountIgnoresStatus | src/frontend/src/hooks/useDashboardStats.ts:18-19 | a student's status does not affect the class count |
| Dashboard.AdmissionCounts | src/frontend/src/hooks/useDashboardStats.ts:15 | admitting a student raises the dashboard's active-student figure by one exactly when the student is active, and leaves it unchanged otherwise |
| Dashboard.HiringCounts | src/frontend/src/hooks/useDashboardStats.ts:16 | hiring a staff member raises the dashboard's active-staff figure by one exactly when the member is active, and leaves it unchanged otherwise |
| Dashboard.ExpenseLeavesFeesUnchanged | src/frontend/src/hooks/useDashboardStats.ts:21-23 | adding an expense record anywhere never changes the fees collected |
| Dashboard.ExpenseRemovalLeavesFeesUnchanged | src/frontend/src/hooks/useDashboardStats.ts:21-23 | removing an expense record never changes the fees collected |
| Access.RequireRole | src/frontend/src/components/auth/RequireRole.tsx:15-37 | a spinner iff loading; the page iff not loading and a profile with an allowed role exists; the denial otherwise |
| Access.EmptyRolesDenyEveryone | src/frontend/src/components/auth/RequireRole.tsx:23 | an empty role list admits nobody |
| Access.RequireRoleMonotone | src/frontend/src/components/auth/RequireRole.tsx:23 | allowing more roles never turns a grant into a denial |
| Access.RequireRoleDependsOnlyOnAppRole | src/frontend/src/components/auth/RequireRole.tsx:23 | the decision ignores `active`, the system role and every other profile field |
| Access.PageGrants | src/frontend/src/pages/finance/FinancePage.tsx:39 | finance admits exactly headmaster and accountant, exams exactly headmaster and exams coordinator, and admissions, staff, users, backup and audit only the headmaster |
| Access.RoleOf | src/frontend/src/components/layout/SidebarNav.tsx:22-24 | the menu's role is the profile's application role, and there is none without a profile |
| Access.NavItems | src/frontend/src/components/layout/SidebarNav.tsx:26-39 | the menu declares twelve entries, and for the headmaster every one of them is shown |
| Access.VisibleNavItems | src/frontend/src/components/layout/SidebarNav.tsx:44 | every rendered entry has its `show` flag set, and the rendered entries are a subsequence of the declared list |
| Access.VisibleKeepsOrder | src/frontend/src/components/layout/SidebarNav.tsx:44 | the rendered entries keep declaration order |
| Access.EveryoneSeesDashboardSmsAndPassword | src/frontend/src/components/layout/SidebarNav.tsx:27-35 | for every role, and without a profile, Dashboard comes first and SMS and Change Password are shown |
| Access.NoProfileMenu | src/frontend/src/components/layout/SidebarNav.tsx:22-44 | without a profile the menu is exactly Dashboard, SMS and Change Password |
| Access.HeadmasterOnlyHidden | src/frontend/src/components/layout/SidebarNav.tsx:28-38 | for anyone but the headmaster, Admissions, Classes, Parents, Staff, User Management, Backup and Audit are hidden |
| Access.HeadmasterSeesEverything | src/frontend/src/components/layout/SidebarNav.tsx:26-44 | the headmaster's menu is all twelve entries |
| Access.NavItemCount | src/frontend/src/components/layout/SidebarNav.tsx:26-39 | the menu declares twelve entries |
| Access.AccountantVisible | src/frontend/src/components/layout/SidebarNav.tsx:22-44 | an accountant's menu is Dashboard, Finance, SMS and Change Password, as entries |
| Access.AccountantMenu | src/frontend/src/components/layout/SidebarNav.tsx:22-44 | an accountant's labels are exactly Dashboard, Finance, SMS and Change Password |
| Access.ExamsCoordinatorVisible | src/frontend/src/components/layout/SidebarNav.tsx:22-44 | an exams coordinator's menu is Dashboard, Exams, SMS and Change Password, as entries |
| Access.ExamsCoordinatorMenu | src/frontend/src/components/layout/SidebarNav.tsx:22-44 | an exams coordinator's labels are exactly Dashboard, Exams, SMS and Change Password |
| Access.NavPathsDistinct | src/frontend/src/components/layout/SidebarNav.tsx:27-38 | no two entries share a target path |
| Access.AtMostOneActive | src/frontend/src/components/layout/SidebarNav.tsx:44-46 | at most one rendered entry is highlighted for any current path |
| Access.MenuAgreesWithGates | src/frontend/src/components/layout/SidebarNav.tsx:28-38 | for each of the seven gated pages, the entry is shown iff the page's gate would grant the profile; /classes and /parents have no gate and are shown iff the profile is a headmaster |
| Grouping.GroupIndex | src/frontend/src/pages/classes/ClassesPage.tsx:16 | the lookup `acc[key]` finds the group filed under the key, or reports it absent exactly when no group has that key |
| Grouping.AddToGroups | src/frontend/src/pages/classes/ClassesPage.tsx:16-20 | one reduce step opens a new group at the end for an unseen key, or appends to that key's group |
| Grouping.GroupBy | src/frontend/src/pages/classes/ClassesPage.tsx:15-21 | there are no more groups than elements, and no groups exactly when there are no elements |
| Grouping.GroupByIsGrouping | src/frontend/src/pages/classes/ClassesPage.tsx:15-21 | the reduce yields distinct keys and non-empty groups, each holding exactly its key's elements in input order, and the group sizes add up to the number of elements |
| Grouping.GroupKeysDistinct | src/frontend/src/pages/classes/ClassesPage.tsx:15-21 | no two groups share a key |
| Grouping.GroupMembersHaveKey | src/frontend/src/pages/classes/ClassesPage.tsx:15-21 | every group is non-empty, and each member is an input element whose key is the group's key |
| Grouping.GroupKeysAreElementKeys | src/frontend/src/pages/classes/ClassesPage.tsx:15-21 | the group keys are exactly the keys the elements carry |
| Grouping.GroupCount | src/frontend/src/pages/classes/ClassesPage.tsx:15-21 | there is one group per distinct key |
| Classes.ClassGroups | src/frontend/src/pages/classes/ClassesPage.tsx:15-21 | there are no more classes than students, every class group is non-empty, and each member is a student whose class is the group's class |
| Classes.ClassGroupsPartitionStudents | src/frontend/src/pages/classes/ClassesPage.tsx:15-21 | every student lands in exactly the group of its class, in input order; groups are distinct, cover every class, and their sizes sum to the student count |
| Classes.ClassListAgreesWithDashboard | src/frontend/src/pages/classes/ClassesPage.tsx:15-21 | the class list has as many rows as the dashboard's class count |
| Classes.FilteredClasses | src/frontend/src/pages/classes/ClassesPage.tsx:23-25 | every listed class name contains the term, ignoring case, and the listed classes are a subsequence of the class list |
| Classes.FilteredClassesMatch | src/frontend/src/pages/classes/ClassesPage.tsx:23-25 | a class is listed iff it exists and its lowercased name contains the lowercased term, in class-list order |
| Classes.EmptySearchListsAllClasses | src/frontend/src/pages/classes/ClassesPage.tsx:23-25 | an empty search term keeps every class |
| Classes.ClassRowOf | src/frontend/src/pages/classes/ClassesPage.tsx:92-98 | a row shows the class, its size and its active count, which is the number of members whose status is active; active ≤ total, with equality iff every member is active |
| Classes.ClassRows | src/frontend/src/pages/classes/ClassesPage.tsx:27-32 | export rows correspond one-to-one, in order, to the filtered classes |
| Classes.UnfilteredRowsCountEveryStudent | src/frontend/src/pages/classes/ClassesPage.tsx:27-32 | with no search term the row totals add up to the number of students |
| Classes.NoClassesExactlyWithoutStudents | src/frontend/src/pages/classes/ClassesPage.tsx:85-90 | with no search term, "No classes found" shows exactly when there are no students |
| Classes.ClassStudents | src/frontend/src/pages/classes/ClassDetailPage.tsx:14 | every listed student has the requested class |
| Classes.ClassStudentsComplete | src/frontend/src/pages/classes/ClassDetailPage.tsx:14 | a student is listed iff it is in the list and its class equals the requested name exactly |
| Classes.RosterMatchesClassList | src/frontend/src/pages/classes/ClassDetailPage.tsx:13-14 | opening a class from the class list shows exactly that class's group, which is never empty |
| Classes.EmptyRosterIffUnknownClass | src/frontend/src/pages/classes/ClassDetailPage.tsx:14 | the roster is empty iff no student has that class |
| Classes.ClassDetailOf | src/frontend/src/pages/classes/ClassDetailPage.tsx:43-72 | the title is the class name; the total is the number of rows, which is the roster length; "No students in this class" shows iff there are no rows, iff no student has the class; each row shows the student's full name |
| Parents.ParentsList | src/frontend/src/pages/classes/ParentsPage.tsx:14-26 | one entry per phone group, with distinct phones and a non-empty student list |
| Parents.ParentLinksStudentsByPhone | src/frontend/src/pages/classes/ParentsPage.tsx:22 | an entry's students are the "first last" names of the students with its phone, in input order |
| Parents.ParentPhonesAreStudentPhones | src/frontend/src/pages/classes/ParentsPage.tsx:14-26 | the parent phones are exactly the phones the students carry |
| Parents.ParentNameFromFirstStudent | src/frontend/src/pages/classes/ParentsPage.tsx:15-20 | an entry's name is the parent name of the first student with that phone |
| Parents.LaterStudentKeepsParentName | src/frontend/src/pages/classes/ParentsPage.tsx:15-20 | a later student with the same phone never changes the entry's name |
| Parents.EveryStudentLinkedOnce | src/frontend/src/pages/classes/ParentsPage.tsx:22 | the linked-student lists together have one name per student |
| Parents.FilteredParents | src/frontend/src/pages/classes/ParentsPage.tsx:28-31 | every listed parent's name contains the term ignoring case, or its phone contains the raw term; the listed parents are a subsequence of the parent list |
| Parents.FilteredParentsMatch | src/frontend/src/pages/classes/ParentsPage.tsx:28-31 | a parent is listed iff its lowercased name contains the lowercased term or its phone contains the raw term, in list order |
| Parents.NameSearchIgnoresCase | src/frontend/src/pages/classes/ParentsPage.tsx:29 | a name match also holds when the term is lowercased first |
| Parents.PhoneSearchIsCaseSensitive | src/frontend/src/pages/classes/ParentsPage.tsx:30 | the phone is matched against the raw term: "0A" finds phone "0A" but "0a" does not |
| Parents.EmptySearchListsAllParents | src/frontend/src/pages/classes/ParentsPage.tsx:28-31 | an empty term keeps every parent |
| Parents.ParentRowOf | src/frontend/src/pages/classes/ParentsPage.tsx:34-39 | the row carries the parent's name and phone, the child count is the length of the linked list, and a single child is listed alone |
| Parents.LinkedStudentsGrow | src/frontend/src/pages/classes/ParentsPage.tsx:37-38 | linking one more child appends ", " and the child's name to the exported names and adds one to the count |
| Parents.ParentRows | src/frontend/src/pages/classes/ParentsPage.tsx:33-39 | export rows correspond one-to-one, in order, to the filtered parents |
| Parents.ExportedChildrenCount | src/frontend/src/pages/classes/ParentsPage.tsx:37-38 | "Number of Children" is the number of students with that phone |
| Directory.StudentMatches | src/frontend/src/pages/admissions/AdmissionsPage.tsx:20-23 | the empty term matches every student, and a term equal to a student's id matches that student |
| Directory.FilteredStudents | src/frontend/src/pages/admissions/AdmissionsPage.tsx:20-23 | no more students than before, each matching on "first last" or id, ignoring case |
| Directory.FilteredStudentsMatch | src/frontend/src/pages/admissions/AdmissionsPage.tsx:20-23 | a student is kept iff its lowercased full name or id contains the lowercased term, in input order |
| Directory.EmptySearchListsAllStudents | src/frontend/src/pages/admissions/AdmissionsPage.tsx:20-23 | an empty term returns every student |
| Directory.StudentSearchIdempotent | src/frontend/src/pages/admissions/AdmissionsPage.tsx:20-23 | searching the result again with the same term changes nothing |
| Directory.StudentFoundById | src/frontend/src/pages/admissions/AdmissionsPage.tsx:22 | searching for a student's id finds that student |
| Directory.StaffMatches | src/frontend/src/pages/staff/StaffDirectoryPage.tsx:20-23 | the empty term matches every member, and whether a member matches does not depend on its `systemId` |
| Directory.FilteredStaff | src/frontend/src/pages/staff/StaffDirectoryPage.tsx:20-23 | no more staff than before, each matching on name or position, ignoring case |
| Directory.FilteredStaffMatch | src/frontend/src/pages/staff/StaffDirectoryPage.tsx:20-23 | a member is kept iff the lowercased name or position contains the lowercased term, in input order |
| Directory.EmptySearchListsAllStaff | src/frontend/src/pages/staff/StaffDirectoryPage.tsx:20-23 | an empty term returns all staff |
| Directory.StaffSearchIdempotent | src/frontend/src/pages/staff/StaffDirectoryPage.tsx:20-23 | searching the result again with the same term changes nothing |
| Directory.StaffSearchIgnoresId | src/frontend/src/pages/staff/StaffDirectoryPage.tsx:21-22 | the staff id is not searched: changing it never changes a match |
| Analytics.StatsIndex | src/frontend/src/pages/exams/AnalyticsPage.tsx:13 | the lookup `acc[subject]` finds the entry for the subject, or reports none exactly when no entry has it |
| Analytics.SubjectPerformance | src/frontend/src/pages/exams/AnalyticsPage.tsx:12-19 | there is at most one entry per record, and no entries exactly when there are no records |
| Analytics.SubjectPerformanceGroups | src/frontend/src/pages/exams/AnalyticsPage.tsx:12-19 | the reduce builds one entry per subject group holding that group's total and size |
| Analytics.SubjectEntries | src/frontend/src/pages/exams/AnalyticsPage.tsx:12-19 | each entry's count is ≥ 1 and equals the number of records with its subject, and its total is the sum of their marks |
| Analytics.SubjectsDistinct | src/frontend/src/pages/exams/AnalyticsPage.tsx:12-19 | no two entries have the same subject |
| Analytics.SubjectsCovered | src/frontend/src/pages/exams/AnalyticsPage.tsx:12-19 | the entries' subjects are exactly the records' subjects |
| Analytics.CountsAddUp | src/frontend/src/pages/exams/AnalyticsPage.tsx:17 | the counts add up to the number of records |
| Analytics.CountsPositive | src/frontend/src/pages/exams/AnalyticsPage.tsx:17-23 | every count is positive, so the average never divides by zero |
| Analytics.MeanBounds | src/frontend/src/pages/exams/AnalyticsPage.tsx:23 | a total of n values in [lo, hi], divided by n, lies in [lo, hi] |
| Analytics.ChartData | src/frontend/src/pages/exams/AnalyticsPage.tsx:21-24 | one bar per entry, in entry order, with the entry's subject |
| Analytics.ChartShowsSubjectMean | src/frontend/src/pages/exams/AnalyticsPage.tsx:21-24 | each bar's height is the mean mark of the records with its subject |
| Analytics.ChartEmptyIffNoRecords | src/frontend/src/pages/exams/AnalyticsPage.tsx:46 | "No exam data available" (an empty chart) shows iff there are no records |
| Analytics.AveragesWithinScale | src/frontend/src/pages/exams/AnalyticsPage.tsx:53 | with all marks in [0, 100], every bar lies in the chart's [0, 100] axis |
| ReportCard.AverageMarks | src/frontend/src/pages/exams/StudentReportCardPage.tsx:30-32 | 0 without records; otherwise average × count = the sum of the marks |
| ReportCard.MinMarks | src/frontend/src/pages/exams/StudentReportCardPage.tsx:30-31 | the lowest mark: no mark is below it and some record has it |
| ReportCard.MaxMarks | src/frontend/src/pages/exams/StudentReportCardPage.tsx:30-31 | the highest mark: no mark is above it and some record has it |
| ReportCard.AverageBetweenMinAndMax | src/frontend/src/pages/exams/StudentReportCardPage.tsx:30-31 | with records, the average lies between the lowest and the highest mark |
| ReportCard.AverageWithin | src/frontend/src/pages/exams/StudentReportCardPage.tsx:30-31 | marks all in [lo, hi] average to a value in [lo, hi] |
| ReportCard.AverageIgnoresOrder | src/frontend/src/pages/exams/StudentReportCardPage.tsx:30-31 | any reordering of the records gives the same average |
| ReportCard.DisplayName | src/frontend/src/pages/exams/StudentReportCardPage.tsx:63 | the full name when the student was found, the route's id otherwise |
| ReportCard.DisplayClass | src/frontend/src/pages/exams/StudentReportCardPage.tsx:72 | never empty: the class name, or "N/A" when the student is absent or the class name is empty |
| ReportCard.ReportCardOf | src/frontend/src/pages/exams/StudentReportCardPage.tsx:22-97 | a spinner iff either query is loading; otherwise the rows are the records, "No exam records found" shows iff there are none (and then the average is 0), and the id and a non-empty class are shown; the card's name, class and average are the student's display name, display class and the mean of the records' marks |
| Text.IndexOf | src/frontend/src/components/sms/SMSTemplates.ts:11 | the first position at which the pattern occurs, or none exactly when it does not occur |
| Text.ReplaceFirst | src/frontend/src/components/sms/SMSTemplates.ts:11 | `String.prototype.replace` with a string pattern: unchanged when the pattern is absent, otherwise only its first occurrence is replaced by the value |
| Text.ReplaceFirstAfterFreePrefix | src/frontend/src/components/sms/SMSTemplates.ts:11 | when the text before a placeholder cannot contain it, the replacement lands exactly there |
| Templates.TemplateText | src/frontend/src/components/sms/SMSTemplates.ts:1-6 | every template starts with "Dear Parent, " and ends with " - Mark Finley APS" |
| Templates.InsertTemplate | src/frontend/src/components/sms/SMSTemplates.ts:8-14 | with no replacements the template comes back unchanged |
| Templates.InsertTemplateSequential | src/frontend/src/components/sms/SMSTemplates.ts:10-12 | replacements apply in entry order: a list split in two gives the result of applying the second half to the first half's output |
| Templates.InsertOne | src/frontend/src/components/sms/SMSTemplates.ts:11 | one replacement is the first-occurrence replace of "[KEY]" |
| Templates.AbsentKeyChangesNothing | src/frontend/src/components/sms/SMSTemplates.ts:11 | a key whose "[KEY]" does not occur leaves the text unchanged |
| Templates.OneKeyReplacesFirstOccurrence | src/frontend/src/components/sms/SMSTemplates.ts:11 | a key replaces only the first occurrence of "[KEY]", leaving the text on either side unchanged |
| Templates.FeePaymentFilled | src/frontend/src/components/sms/SMSTemplates.ts:2 | filling the fee-payment template with bracket-free amount and name gives the sentence with both inserted, and no "[" is left |
| Sms.SmsLogAt | src/frontend/src/pages/sms/SMSPage.tsx:33-39 | a log carries its receiver, message and status, an "SMS" id and a timestamp that divides back to the clock |
| Sms.SendIndividual | src/frontend/src/pages/sms/SMSPage.tsx:23-48 | an error and no log without a student or a message; a log exactly when the selected id is in the list, going to the first such student's parent phone with status "Simulated - Sent"; message and student are cleared only when logging succeeded |
| Sms.UnknownStudentSendsNothing | src/frontend/src/pages/sms/SMSPage.tsx:29-30 | a selected id that is not in the list logs nothing, raises no toast and changes nothing |
| Sms.SendBulk | src/frontend/src/pages/sms/SMSPage.tsx:50-72 | a log iff a group and a message are set, addressed "Group: " + group with status "Simulated - Sent to Group"; message and group are cleared only when logging succeeded |
| Sms.SendPathsDistinguishable | src/frontend/src/pages/sms/SMSPage.tsx:38-62 | an individual log and a bulk log are never the same log |
| Sms.SelectTemplate | src/frontend/src/pages/sms/SMSPage.tsx:74-77 | choosing a template copies its raw text into the message and records its name, leaving the selections alone |
| Sms.PickedTemplateSentRaw | src/frontend/src/pages/sms/SMSPage.tsx:74-77 | a bulk send right after picking a template sends the raw template with its placeholders |
| Sms.GroupOptions | src/frontend/src/pages/sms/SMSPage.tsx:159-165 | the options start with "All Parents" and "Outstanding Fees" |
| Sms.ClassOptionInjective | src/frontend/src/pages/sms/SMSPage.tsx:162 | different classes get different "Class: " options |
| Sms.GroupOptionsCount | src/frontend/src/pages/sms/SMSPage.tsx:159-165 | there are two options plus one per distinct class name |
| Sms.GroupOptionsCoverClasses | src/frontend/src/pages/sms/SMSPage.tsx:161-165 | every student's class has an option, and every option after the first two is some student's class |
| Sms.GroupOptionsDistinct | src/frontend/src/pages/sms/SMSPage.tsx:159-165 | no option appears twice |
| Seqs.DistinctKeepsFirstOccurrenceOrder | src/frontend/src/pages/sms/SMSPage.tsx:161 | `Array.from(new Set(xs))` lists each element at the position of its first occurrence: an earlier entry first occurs earlier in `xs` |
| Sms.ClassOptionsInFirstAppearanceOrder | src/frontend/src/pages/sms/SMSPage.tsx:161-165 | the class options come in order of first appearance: an earlier option's class belongs to a student listed before every student of a later option's class |
| RecordForms.MountRecordDialog | src/frontend/src/components/admissions/StudentFormDialog.tsx:22-32 | the form starts as an exact copy of the given record, or as the blank record when none is given |
| RecordForms.SubmitRecord | src/frontend/src/components/admissions/StudentFormDialog.tsx:34-49 | update iff a record was given, create otherwise, sending the form as it stands; the dialog closes only on success; the form is kept either way |
| RecordForms.SecondCreateResendsFirstRecord | src/frontend/src/components/admissions/StudentFormDialog.tsx:34-49 | reopening after a successful create and submitting again sends the same create |
| RecordForms.SubmitRecordResetting | src/frontend/src/components/admissions/StudentFormDialog.tsx:34-49 | the corrected submit: the same call and dialog outcome, but after a successful create the form becomes a fresh blank record |
| RecordForms.ResettingAgreesExceptAfterCreate | src/frontend/src/components/admissions/StudentFormDialog.tsx:34-49 | the corrected submit behaves as written except after a successful create |
| RecordForms.NewStudent | src/frontend/src/components/admissions/StudentFormDialog.tsx:23-31 | a new admission is active, has an "STU" id from the mount clock, empty text fields and no photo |
| RecordForms.StudentDialogTitle | src/frontend/src/components/admissions/StudentFormDialog.tsx:55 | "Edit Student" iff a student was given, "New Admission" otherwise |
| RecordForms.EditStudent | src/frontend/src/components/admissions/StudentFormDialog.tsx:64-113 | each input changes exactly its own field; the id and the status are never touched |
| RecordForms.EditsKeepIdAndStatus | src/frontend/src/components/admissions/StudentFormDialog.tsx:64-113 | no sequence of edits changes the id or the status |
| RecordForms.StudentEditsCommute | src/frontend/src/components/admissions/StudentFormDialog.tsx:64-113 | edits to different inputs commute |
| RecordForms.LaterStudentEditWins | src/frontend/src/components/admissions/StudentFormDialog.tsx:64-113 | a later edit to the same input overrides the earlier one |
| RecordForms.UntouchedEditResendsStudent | src/frontend/src/components/admissions/StudentFormDialog.tsx:22-39 | submitting an untouched edit dialog sends an update of the very record given |
| RecordForms.SecondAdmissionReusesId | src/frontend/src/components/admissions/StudentFormDialog.tsx:22-45 | as written: a second admission in the same page visit, whatever is typed into either form, is created with the first one's id |
| RecordForms.ResetAdmissionGetsFreshId | src/frontend/src/components/admissions/StudentFormDialog.tsx:22-45 | corrected: with a reset after create at a later clock, the second admission gets a different id, whatever is typed into either form |
| RecordForms.NewStaff | src/frontend/src/components/staff/StaffFormDialog.tsx:21-26 | new staff are active, have an "STF" id from the mount clock, empty name and position, and no photo |
| RecordForms.StaffDialogTitle | src/frontend/src/components/staff/StaffFormDialog.tsx:50 | "Edit Staff" iff a staff record was given, "Add Staff" otherwise |
| RecordForms.EditStaff | src/frontend/src/components/staff/StaffFormDialog.tsx:58-77 | each input changes exactly its own field; the id and the status are never touched |
| RecordForms.StaffEditsKeepIdAndStatus | src/frontend/src/components/staff/StaffFormDialog.tsx:58-77 | no sequence of edits changes the id or the status |
| RecordForms.SecondStaffCreateReusesId | src/frontend/src/components/staff/StaffFormDialog.tsx:20-40 | as written: a second staff member added in the same page visit, whatever is typed into either form, is created with the first one's id |
| RecordForms.ResetStaffGetsFreshId | src/frontend/src/components/staff/StaffFormDialog.tsx:20-40 | corrected: with a reset after create, the second staff member gets a different id, whatever is typed into either form |
| Users.EditUser | src/frontend/src/components/admin/UserFormDialog.tsx:60-80 | each input changes exactly its own field |
| Users.BuildProfile | src/frontend/src/components/admin/UserFormDialog.tsx:30-37 | the profile's id is the entered principal text; it keeps the name and selected role, has system role `user`, is active and has no photo, and its timestamp divides back to the clock |
| Users.SubmitUser | src/frontend/src/components/admin/UserFormDialog.tsx:25-46 | a profile is sent iff the principal parsed; a parse failure sends nothing and shows an error; after success the dialog closes and the form resets to empty with role accountant |
| Users.CreatedUsersAreActiveUsers | src/frontend/src/components/admin/UserFormDialog.tsx:33-35 | a created profile is never an admin and is always active |
| Users.CreateResetsForNextUser | src/frontend/src/components/admin/UserFormDialog.tsx:42 | after a create the next user defaults to role accountant |
| Decimal.NatToString | src/frontend/src/components/admin/BackupReminderBanner.tsx:23 | the text is non-empty, all decimal digits, and has no leading zero unless it is "0" |
| Decimal.ParseInt | src/frontend/src/components/admin/BackupReminderBanner.tsx:17 | the result is `NaN` (None) exactly when no digit follows the optional sign; a non-empty all-digit text parses to its decimal value |
| Decimal.ParseIntOfNatToString | src/frontend/src/components/admin/BackupReminderBanner.tsx:17-23 | `parseInt` reads back the number `toString` wrote |
| Decimal.NatToStringInjective | src/frontend/src/components/admin/BackupReminderBanner.tsx:23 | different clock readings are stored as different texts |
| Backup.ShouldShow | src/frontend/src/components/admin/BackupReminderBanner.tsx:17 | shown when nothing or "" is stored; never when the stored text does not parse; otherwise iff now − stored > 604,800,000 |
| Backup.Mount | src/frontend/src/components/admin/BackupReminderBanner.tsx:11 | the banner is hidden until the check runs |
| Backup.Check | src/frontend/src/components/admin/BackupReminderBanner.tsx:13-20 | the check can only switch the banner on, and does so iff the show predicate holds |
| Backup.Dismiss | src/frontend/src/components/admin/BackupReminderBanner.tsx:22-25 | dismissing hides the banner and stores text that parses back to the clock |
| Backup.FirstVisitShows | src/frontend/src/components/admin/BackupReminderBanner.tsx:14-18 | with nothing stored the banner appears |
| Backup.ReappearsAfterSevenDays | src/frontend/src/components/admin/BackupReminderBanner.tsx:17-23 | after a dismissal, the next mount shows the banner iff more than the interval has passed |
| Backup.SevenDayBoundary | src/frontend/src/components/admin/BackupReminderBanner.tsx:8-17 | at exactly 7 days after a dismissal the banner stays hidden; one millisecond later it shows |
| Backup.DismissedStaysHidden | src/frontend/src/components/admin/BackupReminderBanner.tsx:17-25 | a re-check at the moment of dismissal keeps the banner hidden |
| Backup.UnreadableStoredValueNeverShows | src/frontend/src/components/admin/BackupReminderBanner.tsx:17 | stored text that does not read as a number never brings the banner up, because comparing with NaN is false |

## Left out

- Back-end semantics are not modelled. The back end's store operations are known only by signature, so the model has no duplicate or missing keys, no server-side role checks, no audit entries and no import. A back-end call is modelled only by whether it succeeded (`saved`).
- `src/frontend/src/hooks/useQueries.ts` (query and mutation wrappers, cache invalidation) is not part of this model. Query results are parameters.
- Rendering, routing, icons, toasts' texts, CSV file writing, printing and photo upload are not modelled, and neither are the pages that only display data: App.tsx, AppLayout, Header, Footer, LoginPage, DashboardPage, StudentDetailPage, StaffDetailPage, ReceiptPage, SMSHistoryPage, AuditTrailPage (beyond its role gate) and ExamsPage (beyond its role gate). A page is reduced to the values it shows or exports.
- Clocks: `Date.now()` is a parameter. The handlers call it twice, once for the id and once for the timestamp. The model uses one reading `nowMs` for both, so a millisecond tick between the two calls is not represented.
- Numbers: marks and amounts are Dafny `real`s. Floating-point rounding, `NaN` from an unparsable field and `toFixed(2)` are not modelled. The number `parseFloat` produced is a parameter.
- Timestamps: `Date.now() * 1000000` is a double product that rounds above 2^53. The model multiplies exactly.
- `Decimal.ParseInt`: reads an optional sign and a maximal prefix of decimal digits. It does not model the leading-whitespace skip or the `0x` prefix of `parseInt`, which stored clock readings never contain.
- `Text.Lower`: lowercases ASCII letters only. The full Unicode case mapping of `toLowerCase` is not modelled.
- `Templates.InsertTemplate`, `Text.ReplaceFirst` and `Text.ReplaceFirstAfterFreePrefix` require `$`-free replacement values, because `String.prototype.replace` expands `$` patterns in them. Such values are not modelled.
- `Principal.fromText` is a parameter (`Some` principal or `None` for a parse failure).
- `encodeURIComponent`/`decodeURIComponent` are assumed to invert each other. The class detail page is modelled on the decoded class name.
- The `reduce`-into-object groupings (classes, parents, analytics) are modelled as lists in order of first appearance. This has two consequences:
  - JavaScript orders integer-like keys (a class named "7", say) before other keys in `Object.entries`/`Object.values`. That ordering is not modelled. The same holds for `Templates.InsertTemplate`: its replacement list stands for `Object.entries(replacements)` with distinct keys, and putting it in that order is left to the caller.
  - Keys that collide with `Object.prototype` members such as "constructor" are not modelled.
- The `as keyof`/`as FinancialType` casts of select values are modelled by closed Dafny datatypes. Values outside the enumerations cannot arise in the model.
- The gate lists of the seven restricted pages are all stated in one lemma, whose row cites the finance page only. The other lists come from ExamsPage.tsx:29, AdmissionsPage.tsx:37, StaffDirectoryPage.tsx:37, UserManagementPage.tsx:30, BackupRestorePage.tsx:51 and AuditTrailPage.tsx:10.
- Browser storage (`localStorage`) is a parameter: the stored text goes in and the text to store comes out.
- The client imposes no lower bound on amounts (FinancialRecordFormDialog.tsx:30) and no range on marks (MarksEntryFormDialog.tsx:37). The model keeps both unchecked, so negative amounts and marks above 100 pass through as the client lets them.
- The dashboard query is cached under a key built only from the three list lengths (useDashboardStats.ts:13). A status change that keeps all three lengths can leave stale figures on screen. `Dashboard.ComputeStats` models the `queryFn` alone, so this caching is not modelled.

## Findings

| source | as written | input that shows it | evidently intended | confidence | as-written member | corrected member |
|---|---|---|---|---|---|---|
| src/frontend/src/components/admissions/StudentFormDialog.tsx:22-45 | The form state, including the `STU` id stamped at mount, is seeded once by `useState`. The admissions page mounts the dialog once (AdmissionsPage.tsx:119) and only toggles `open`, and `handleSubmit` never resets the form after a create. | Open "New Admission", fill it in, save, then open it again and save: the second `createStudent` carries the first student's id and data. | Each new admission starts from a fresh blank record with a fresh id. | not executed | RecordForms.SecondAdmissionReusesId | RecordForms.ResetAdmissionGetsFreshId |
| src/frontend/src/components/staff/StaffFormDialog.tsx:20-40 | The same pattern for staff: the `STF` id is stamped at mount, the staff page mounts the dialog once (StaffDirectoryPage.tsx:117), and nothing resets the form after a create. | Add a staff member, then add another in the same visit: the second `createStaff` reuses the first id. | Each new staff member gets a fresh blank record with a fresh id. | not executed | RecordForms.SecondStaffCreateReusesId | RecordForms.ResetStaffGetsFreshId |

=== FILE: access.dfy ===
/**
 * Role-based access: the page gate (src/frontend/src/components/auth/RequireRole.tsx),
 * the sidebar menu (src/frontend/src/components/layout/SidebarNav.tsx) and the
 * `allowedRoles` list each gated page passes to the gate.
 */
module Access {
  import opened Wrappers
  import opened Domain
  import opened Seqs

  // ----- the page gate -----

  /** What the gate renders. */
  datatype GateView = Spinner | AccessDenied | Children

  /** A profile is present and its application role is one of the allowed ones. */
  predicate Granted(profile: Option<UserProfile>, allowedRoles: seq<AppRole>) {
    profile.Some? && profile.value.appRole in allowedRoles
  }

  /**
   * `RequireRole`: a spinner while the profile loads, then the page itself
   * exactly when access is granted, and the denial otherwise.
   */
  function RequireRole(isLoading: bool, profile: Option<UserProfile>, allowedRoles: seq<AppRole>): (v: GateView)
    ensures v == Spinner <==> isLoading
    ensures v == Children <==> !isLoading && profile.Some? && profile.value.appRole in allowedRoles
    ensures v == AccessDenied <==> !isLoading && (profile.None? || profile.value.appRole !in allowedRoles)
  {
    if isLoading then Spinner
    else if profile.None? || profile.value.appRole !in allowedRoles then AccessDenied
    else Children
  }

  /** Nobody passes a gate with an empty role list. */
  lemma EmptyRolesDenyEveryone(isLoading: bool, profile: Option<UserProfile>)
    ensures RequireRole(isLoading, profile, []) != Children
  {
  }

  /** Allowing more roles never turns a grant into a denial. */
  lemma RequireRoleMonotone(isLoading: bool, profile: Option<UserProfile>, fewer: seq<AppRole>, more: seq<AppRole>)
    requires forall i :: 0 <= i < |fewer| ==> fewer[i] in more
    requires RequireRole(isLoading, profile, fewer) == Children
    ensures RequireRole(isLoading, profile, more) == Children
  {
    var k :| 0 <= k < |fewer| && fewer[k] == profile.value.appRole;
  }

  /**
   * The decision looks only at the application role: the `active` flag, the
   * system role and every other field of the profile are ignored.
   */
  lemma RequireRoleDependsOnlyOnAppRole(isLoading: bool, p: UserProfile, q: UserProfile, allowedRoles: seq<AppRole>)
    requires p.appRole == q.appRole
    ensures RequireRole(isLoading, Some(p), allowedRoles) == RequireRole(isLoading, Some(q), allowedRoles)
  {
  }

  // ----- the roles each gated page allows -----

  const FinancePageRoles: seq<AppRole> := [Headmaster, Accountant]
  const ExamsPageRoles: seq<AppRole> := [Headmaster, ExamsCoordinator]
  const AdmissionsPageRoles: seq<AppRole> := [Headmaster]
  const StaffPageRoles: seq<AppRole> := [Headmaster]
  const UserManagementPageRoles: seq<AppRole> := [Headmaster]
  const BackupPageRoles: seq<AppRole> := [Headmaster]
  const AuditPageRoles: seq<AppRole> := [Headmaster]

  /** The role list of the page behind a sidebar path, or `None` for a page without a gate. */
  function PageRoles(path: string): Option<seq<AppRole>> {
    if path == "/finance" then Some(FinancePageRoles)
    else if path == "/exams" then Some(ExamsPageRoles)
    else if path == "/admissions" then Some(AdmissionsPageRoles)
    else if path == "/staff" then Some(StaffPageRoles)
    else if path == "/admin/users" then Some(UserManagementPageRoles)
    else if path == "/admin/backup" then Some(BackupPageRoles)
    else if path == "/admin/audit" then Some(AuditPageRoles)
    else None
  }

  /**
   * Once the profile has loaded, the finance page admits the headmaster and the
   * accountant, the exams page the headmaster and the exams coordinator, and
   * the other five gated pages the headmaster alone.
   */
  lemma PageGrants(profile: Option<UserProfile>)
    ensures RequireRole(false, profile, FinancePageRoles) == Children <==>
              RoleOf(profile) == Some(Headmaster) || RoleOf(profile) == Some(Accountant)
    ensures RequireRole(false, profile, ExamsPageRoles) == Children <==>
              RoleOf(profile) == Some(Headmaster) || RoleOf(profile) == Some(ExamsCoordinator)
    ensures forall roles :: roles in [AdmissionsPageRoles, StaffPageRoles, UserManagementPageRoles, BackupPageRoles, AuditPageRoles] ==>
              (RequireRole(false, profile, roles) == Children <==> RoleOf(profile) == Some(Headmaster))
  {
  }

  // ----- the sidebar -----

  datatype NavItem = NavItem(to: string, text: string, show: bool)

  /** `userProfile?.appRole`: the role the menu is built for, if a profile is loaded. */
  function RoleOf(profile: Option<UserProfile>): (role: Option<AppRole>)
    ensures role.Some? <==> profile.Some?
    ensures role.Some? ==> role.value == profile.value.appRole
  {
    match profile
    case None => None
    case Some(p) => Some(p.appRole)
  }

  /**
   * `navItems`: the twelve entries in declaration order, each with its
   * visibility flag. The literal is written as five consecutive runs (home,
   * school records, the two shared modules, the entries everyone has,
   * administration) so that proofs can treat one run at a time.
   */
  function NavItems(role: Option<AppRole>): (items: seq<NavItem>)
    ensures |items| == 12
    ensures role == Some(Headmaster) ==> forall i :: 0 <= i < |items| ==> items[i].show
  {
    HomeEntries() + RecordEntries(role) + ModuleEntries(role) + CommonEntries() + AdminEntries(role)
  }

  function HomeEntries(): seq<NavItem> {
    [NavItem("/", "Dashboard", true)]
  }

  function RecordEntries(role: Option<AppRole>): seq<NavItem> {
    var isHeadmaster := role == Some(Headmaster);
    [ NavItem("/admissions", "Admissions", isHeadmaster),
      NavItem("/classes", "Classes", isHeadmaster),
      NavItem("/parents", "Parents", isHeadmaster),
      NavItem("/staff", "Staff", isHeadmaster) ]
  }

  function ModuleEntries(role: Option<AppRole>): seq<NavItem> {
    var isHeadmaster := role == Some(Headmaster);
    var isAccountant := role == Some(Accountant);
    var isExamsCoordinator := role == Some(ExamsCoordinator);
    [ NavItem("/finance", "Finance", isHeadmaster || isAccountant),
      NavItem("/exams", "Exams", isHeadmaster || isExamsCoordinator) ]
  }

  function CommonEntries(): seq<NavItem> {
    [ NavItem("/sms", "SMS", true),
      NavItem("/change-password", "Change Password", true) ]
  }

  function AdminEntries(role: Option<AppRole>): seq<NavItem> {
    var isHeadmaster := role == Some(Headmaster);
    [ NavItem("/admin/users", "User Management", isHeadmaster),
      NavItem("/admin/backup", "Backup & Restore", isHeadmaster),
      NavItem("/admin/audit", "Audit Trail", isHeadmaster) ]
  }

  predicate Shown(item: NavItem) {
    item.show
  }

  function Path(item: NavItem): string {
    item.to
  }

  /** `navItems.filter(item => item.show)`: the entries the menu renders. */
  function VisibleNavItems(role: Option<AppRole>): (visible: seq<NavItem>)
    ensures forall i :: 0 <= i < |visible| ==> visible[i].show
    ensures IsSubsequence(visible, NavItems(role))
  {
    FilterSubsequence(NavItems(role), Shown);
    Filter(NavItems(role), Shown)
  }

  /** The menu filter taken run by run. */
  lemma VisibleByRuns(role: Option<AppRole>)
    ensures VisibleNavItems(role) ==
      Filter(HomeEntries(), Shown) + Filter(RecordEntries(role), Shown) + Filter(ModuleEntries(role), Shown) +
      Filter(CommonEntries(), Shown) + Filter(AdminEntries(role), Shown)
  {
    var home, records, modules, common := HomeEntries(), RecordEntries(role), ModuleEntries(role), CommonEntries();
    FilterConcat(home + records + modules + common, AdminEntries(role), Shown);
    FilterConcat(home + records + modules, common, Shown);
    FilterConcat(home + records, modules, Shown);
    FilterConcat(home, records, Shown);
  }

  /** An entry is highlighted when the current path equals its target exactly. */
  predicate IsActive(pathname: string, item: NavItem) {
    pathname == item.to
  }

  /** The menu keeps the declaration order. */
  lemma VisibleKeepsOrder(role: Option<AppRole>)
    ensures IsSubsequence(VisibleNavItems(role), NavItems(role))
  {
    FilterSubsequence(NavItems(role), Shown);
  }

  /** Dashboard heads every menu, and SMS and Change Password are in every menu, even without a profile. */
  lemma EveryoneSeesDashboardSmsAndPassword(role: Option<AppRole>)
    ensures |VisibleNavItems(role)| > 0 && VisibleNavItems(role)[0] == NavItem("/", "Dashboard", true)
    ensures NavItem("/sms", "SMS", true) in VisibleNavItems(role)
    ensures NavItem("/change-password", "Change Password", true) in VisibleNavItems(role)
  {
    VisibleByRuns(role);
    AlwaysShownRuns();
    var before := Filter(HomeEntries(), Shown) + Filter(RecordEntries(role), Shown) + Filter(ModuleEntries(role), Shown);
    var v := VisibleNavItems(role);
    assert v == before + CommonEntries() + Filter(AdminEntries(role), Shown);
    assert v[|before|] == NavItem("/sms", "SMS", true);
    assert v[|before| + 1] == NavItem("/change-password", "Change Password", true);
  }

  /** Without a profile the menu is exactly Dashboard, SMS and Change Password. */
  lemma NoProfileMenu()
    ensures VisibleNavItems(None) == HomeEntries() + CommonEntries()
  {
    VisibleByRuns(None);
    AlwaysShownRuns();
    NoProfileHidesRestricted();
  }

  lemma NoProfileHidesRestricted()
    ensures Filter(RecordEntries(None), Shown) == []
    ensures Filter(ModuleEntries(None), Shown) == []
    ensures Filter(AdminEntries(None), Shown) == []
  {
    FilterDropsAll(RecordEntries(None), Shown);
    FilterDropsAll(ModuleEntries(None), Shown);
    FilterDropsAll(AdminEntries(None), Shown);
  }

  /** A headmaster's menu holds all twelve entries. */
  lemma HeadmasterSeesEverything()
    ensures VisibleNavItems(Some(Headmaster)) == NavItems(Some(Headmaster))
    ensures |VisibleNavItems(Some(Headmaster))| == 12
  {
    var role := Some(Headmaster);
    VisibleByRuns(role);
    AlwaysShownRuns();
    HeadmasterKeepsRestricted();
    NavItemCount(role);
  }

  /** The menu declares twelve entries whatever the role. */
  lemma NavItemCount(role: Option<AppRole>)
    ensures |NavItems(role)| == 12
  {
  }

  lemma AlwaysShownRuns()
    ensures Filter(HomeEntries(), Shown) == HomeEntries()
    ensures Filter(CommonEntries(), Shown) == CommonEntries()
  {
    FilterKeepsAll(HomeEntries(), Shown);
    FilterKeepsAll(CommonEntries(), Shown);
  }

  lemma HeadmasterKeepsRestricted()
    ensures Filter(RecordEntries(Some(Headmaster)), Shown) == RecordEntries(Some(Headmaster))
    ensures Filter(ModuleEntries(Some(Headmaster)), Shown) == ModuleEntries(Some(Headmaster))
    ensures Filter(AdminEntries(Some(Headmaster)), Shown) == AdminEntries(Some(Headmaster))
  {
    FilterKeepsAll(RecordEntries(Some(Headmaster)), Shown);
    FilterKeepsAll(ModuleEntries(Some(Headmaster)), Shown);
    FilterKeepsAll(AdminEntries(Some(Headmaster)), Shown);
  }

  /** The labels of a list of entries, in order. */
  function Labels(items: seq<NavItem>): (labels: seq<string>)
    ensures |labels| == |items|
    ensures forall i :: 0 <= i < |items| ==> labels[i] == items[i].text
  {
    Map(items, (item: NavItem) => item.text)
  }

  /** The entries an accountant's menu holds. */
  lemma AccountantVisible()
    ensures VisibleNavItems(Some(Accountant)) == HomeEntries() + [ModuleEntries(Some(Accountant))[0]] + CommonEntries()
  {
    var role := Some(Accountant);
    VisibleByRuns(role);
    AlwaysShownRuns();
    HeadmasterOnlyHidden(role);
    ShownFirstOfPair(ModuleEntries(role));
  }

  /** An accountant sees exactly Dashboard, Finance, SMS and Change Password. */
  lemma AccountantMenu()
    ensures Labels(VisibleNavItems(Some(Accountant))) == ["Dashboard", "Finance", "SMS", "Change Password"]
  {
    AccountantVisible();
  }

  /** The entries an exams coordinator's menu holds. */
  lemma ExamsCoordinatorVisible()
    ensures VisibleNavItems(Some(ExamsCoordinator)) == HomeEntries() + [ModuleEntries(Some(ExamsCoordinator))[1]] + CommonEntries()
  {
    var role := Some(ExamsCoordinator);
    VisibleByRuns(role);
    AlwaysShownRuns();
    HeadmasterOnlyHidden(role);
    ShownSecondOfPair(ModuleEntries(role));
  }

  /** For anyone but the headmaster the school-record and administration entries are all hidden. */
  lemma HeadmasterOnlyHidden(role: Option<AppRole>)
    requires role != Some(Headmaster)
    ensures Filter(RecordEntries(role), Shown) == []
    ensures Filter(AdminEntries(role), Shown) == []
  {
    FilterDropsAll(RecordEntries(role), Shown);
    FilterDropsAll(AdminEntries(role), Shown);
  }

  /** An exams coordinator sees exactly Dashboard, Exams, SMS and Change Password. */
  lemma ExamsCoordinatorMenu()
    ensures Labels(VisibleNavItems(Some(ExamsCoordinator))) == ["Dashboard", "Exams", "SMS", "Change Password"]
  {
    ExamsCoordinatorVisible();
  }

  lemma ShownFirstOfPair(pair: seq<NavItem>)
    requires |pair| == 2 && pair[0].show && !pair[1].show
    ensures Filter(pair, Shown) == [pair[0]]
  {
    assert pair[1..][1..] == [];
  }

  lemma ShownSecondOfPair(pair: seq<NavItem>)
    requires |pair| == 2 && !pair[0].show && pair[1].show
    ensures Filter(pair, Shown) == [pair[1]]
  {
    assert pair[1..][1..] == [];
  }

  /** No two menu entries share a target path. */
  lemma NavPathsDistinct(role: Option<AppRole>)
    ensures DistinctBy(NavItems(role), Path)
  {
    var items := NavItems(role);
    forall i, j | 0 <= i < j < |items|
      ensures Path(items[i]) != Path(items[j])
    {
      PathsDiffer(role, i, j);
    }
  }

  lemma PathsDiffer(role: Option<AppRole>, i: int, j: int)
    requires 0 <= i < j < |NavItems(role)|
    ensures NavItems(role)[i].to != NavItems(role)[j].to
  {
  }

  /** At most one rendered entry is highlighted, whatever the current path. */
  lemma AtMostOneActive(role: Option<AppRole>, pathname: string, i: int, j: int)
    requires 0 <= i < |VisibleNavItems(role)| && 0 <= j < |VisibleNavItems(role)|
    requires IsActive(pathname, VisibleNavItems(role)[i]) && IsActive(pathname, VisibleNavItems(role)[j])
    ensures i == j
  {
    NavPathsDistinct(role);
    FilterKeepsDistinctBy(NavItems(role), Shown, Path);
  }

  /**
   * For each of the seven gated pages the menu shows the entry exactly when
   * the page's gate grants access; Classes and Parents have no gate of their
   * own and are kept to the headmaster by the menu alone.
   */
  lemma MenuAgreesWithGates(profile: Option<UserProfile>, k: int)
    requires 0 <= k < 12
    ensures PageRoles(NavItems(RoleOf(profile))[k].to).Some? ==>
              (NavItems(RoleOf(profile))[k].show <==> Granted(profile, PageRoles(NavItems(RoleOf(profile))[k].to).value))
    ensures NavItems(RoleOf(profile))[k].to in {"/classes", "/parents"} ==>
              && PageRoles(NavItems(RoleOf(profile))[k].to).None?
              && (NavItems(RoleOf(profile))[k].show <==> Granted(profile, [Headmaster]))
  {
  }
}

=== FILE: analytics.dfy ===
/**
 * The exam analytics page (pages/exams/AnalyticsPage.tsx): exam records are
 * tallied per subject with a `reduce`, then each subject's average is charted.
 */
module Analytics {
  import opened Domain
  import opened Seqs
  import opened Grouping

  /** An entry of `subjectPerformance`. */
  datatype SubjectStats = SubjectStats(subject: string, totalMarks: real, count: nat)

  function SubjectOf(r: ExamRecord): string {
    r.subject
  }

  function Marks(r: ExamRecord): real {
    r.marks
  }

  /** The position of a subject's entry, or -1 when `acc[subject]` is undefined. */
  function StatsIndex(acc: seq<SubjectStats>, subject: string): (j: int)
    ensures -1 <= j < |acc|
    ensures j >= 0 ==> acc[j].subject == subject
    ensures j < 0 ==> forall i :: 0 <= i < |acc| ==> acc[i].subject != subject
    decreases |acc|
  {
    if |acc| == 0 then -1
    else if acc[|acc| - 1].subject == subject then |acc| - 1
    else StatsIndex(acc[..|acc| - 1], subject)
  }

  /**
   * One step of the reduce: a missing subject gets an entry with zero total and
   * count, then the record's marks are added and the count goes up by one.
   */
  function Tally(acc: seq<SubjectStats>, r: ExamRecord): seq<SubjectStats> {
    var j := StatsIndex(acc, r.subject);
    if j < 0 then acc + [AddMarks(SubjectStats(r.subject, 0.0, 0), r)]
    else acc[j := AddMarks(acc[j], r)]
  }

  /** `acc[subject].totalMarks += record.marks; acc[subject].count += 1`. */
  function AddMarks(st: SubjectStats, r: ExamRecord): SubjectStats {
    SubjectStats(st.subject, st.totalMarks + r.marks, st.count + 1)
  }

  /** `Object.values(subjectPerformance)`: the records tallied in order. */
  function SubjectPerformance(records: seq<ExamRecord>): (acc: seq<SubjectStats>)
    ensures |acc| <= |records|
    ensures |acc| == 0 <==> |records| == 0
    decreases |records|
  {
    if |records| == 0 then []
    else Tally(SubjectPerformance(records[..|records| - 1]), records[|records| - 1])
  }

  /** The entry a group of records with one subject should produce. */
  function StatsOf(g: Group<string, ExamRecord>): SubjectStats {
    SubjectStats(g.key, SumOf(g.members, Marks), |g.members|)
  }

  lemma {:induction false} StatsIndexOfGroups(gs: seq<Group<string, ExamRecord>>, k: string)
    ensures StatsIndex(Map(gs, StatsOf), k) == GroupIndex(gs, k)
    decreases |gs|
  {
    if |gs| > 0 {
      StatsIndexOfGroups(gs[..|gs| - 1], k);
      assert Map(gs, StatsOf)[..|gs| - 1] == Map(gs[..|gs| - 1], StatsOf);
    }
  }

  lemma SumOfAppend(xs: seq<ExamRecord>, x: ExamRecord)
    ensures SumOf(xs + [x], Marks) == SumOf(xs, Marks) + x.marks
  {
    SumOfConcat(xs, [x], Marks);
    assert [x][1..] == [];
  }

  /** A tally step for a subject with no entry yet opens that subject's entry at the end. */
  lemma TallyNewSubject(gs: seq<Group<string, ExamRecord>>, r: ExamRecord)
    requires GroupIndex(gs, r.subject) < 0
    ensures Tally(Map(gs, StatsOf), r) == Map(AddToGroups(gs, r, SubjectOf), StatsOf)
  {
    StatsIndexOfGroups(gs, r.subject);
    var g := Group(r.subject, [r]);
    assert StatsOf(g) == SubjectStats(r.subject, r.marks, 1) by {
      SumOfAppend([], r);
      assert [] + [r] == [r];
    }
    MapAppend(gs, g, StatsOf);
  }

  /** A tally step for a subject with an entry adds the record to that entry alone. */
  lemma TallyKnownSubject(gs: seq<Group<string, ExamRecord>>, r: ExamRecord)
    requires GroupIndex(gs, r.subject) >= 0
    ensures Tally(Map(gs, StatsOf), r) == Map(AddToGroups(gs, r, SubjectOf), StatsOf)
  {
    var j := GroupIndex(gs, r.subject);
    var acc := Map(gs, StatsOf);
    var g := Group(gs[j].key, gs[j].members + [r]);
    AddMarksStats(gs[j], r);
    assert Tally(acc, r) == acc[j := StatsOf(g)] by {
      StatsIndexOfGroups(gs, r.subject);
    }
    assert AddToGroups(gs, r, SubjectOf) == gs[j := g];
    MapUpdate(gs, j, g, StatsOf);
  }

  /** Filing one more record in a group adds its marks to the group's entry. */
  lemma AddMarksStats(grp: Group<string, ExamRecord>, r: ExamRecord)
    ensures AddMarks(StatsOf(grp), r) == StatsOf(Group(grp.key, grp.members + [r]))
  {
    SumOfAppend(grp.members, r);
  }

  /** A tally step on the entries of a grouping is the entries of the grouping with the record filed. */
  lemma TallyFilesRecord(gs: seq<Group<string, ExamRecord>>, r: ExamRecord)
    ensures Tally(Map(gs, StatsOf), r) == Map(AddToGroups(gs, r, SubjectOf), StatsOf)
  {
    if GroupIndex(gs, r.subject) < 0 {
      TallyNewSubject(gs, r);
    } else {
      TallyKnownSubject(gs, r);
    }
  }

  /** The reduce builds exactly one entry per subject group, holding that group's total and size. */
  lemma {:induction false} SubjectPerformanceGroups(records: seq<ExamRecord>)
    ensures SubjectPerformance(records) == Map(GroupBy(records, SubjectOf), StatsOf)
    decreases |records|
  {
    if |records| > 0 {
      var init := records[..|records| - 1];
      SubjectPerformanceGroups(init);
      TallyFilesRecord(GroupBy(init, SubjectOf), records[|records| - 1]);
    }
  }

  /**
   * Each entry's count is at least one and is the number of records with its
   * subject, and its total is the sum of their marks.
   */
  lemma SubjectEntries(records: seq<ExamRecord>, i: int)
    requires 0 <= i < |SubjectPerformance(records)|
    ensures SubjectPerformance(records)[i].count >= 1
    ensures SubjectPerformance(records)[i].count
              == |Filter(records, HasKey(SubjectOf, SubjectPerformance(records)[i].subject))|
    ensures SubjectPerformance(records)[i].totalMarks
              == SumOf(Filter(records, HasKey(SubjectOf, SubjectPerformance(records)[i].subject)), Marks)
  {
    var gs := GroupBy(records, SubjectOf);
    SubjectPerformanceGroups(records);
    assert SubjectPerformance(records)[i] == StatsOf(gs[i]);
    GroupMembersByKey(records, SubjectOf, i);
  }

  /** No subject has two entries. */
  lemma SubjectsDistinct(records: seq<ExamRecord>)
    ensures forall i, j :: 0 <= i < j < |SubjectPerformance(records)| ==>
              SubjectPerformance(records)[i].subject != SubjectPerformance(records)[j].subject
  {
    var gs := GroupBy(records, SubjectOf);
    var sp := SubjectPerformance(records);
    SubjectPerformanceGroups(records);
    GroupKeysDistinct(records, SubjectOf);
    assert forall j :: 0 <= j < |gs| ==> sp[j].subject == gs[j].key;
  }

  /** The subjects with an entry are exactly the subjects of the records. */
  lemma SubjectsCovered(records: seq<ExamRecord>)
    ensures (set i | 0 <= i < |SubjectPerformance(records)| :: SubjectPerformance(records)[i].subject)
         == (set m | 0 <= m < |records| :: records[m].subject)
  {
    SubjectPerformanceGroups(records);
    GroupKeysAreElementKeys(records, SubjectOf);
    var ps := SubjectPerformance(records);
    assert (set i | 0 <= i < |ps| :: ps[i].subject) == KeySet(GroupBy(records, SubjectOf));
  }

  /** The counts over all entries. */
  function CountTotal(ps: seq<SubjectStats>): nat
    decreases |ps|
  {
    if |ps| == 0 then 0 else CountTotal(ps[..|ps| - 1]) + ps[|ps| - 1].count
  }

  lemma {:induction false} CountTotalIsMemberCount(gs: seq<Group<string, ExamRecord>>)
    ensures CountTotal(Map(gs, StatsOf)) == MemberCount(gs)
    decreases |gs|
  {
    if |gs| > 0 {
      CountTotalIsMemberCount(gs[..|gs| - 1]);
      assert Map(gs, StatsOf)[..|gs| - 1] == Map(gs[..|gs| - 1], StatsOf);
    }
  }

  /** Every record is counted exactly once. */
  lemma CountsAddUp(records: seq<ExamRecord>)
    ensures CountTotal(SubjectPerformance(records)) == |records|
  {
    SubjectPerformanceGroups(records);
    CountTotalIsMemberCount(GroupBy(records, SubjectOf));
    GroupByIsGrouping(records, SubjectOf);
  }

  /** A bar of the chart. */
  datatype ChartPoint = ChartPoint(subject: string, average: real)

  /** `total / count`. */
  function Mean(total: real, count: nat): real
    requires count > 0
  {
    total / count as real
  }

  /** A mean of terms in [lo, hi] lies in [lo, hi]. */
  lemma MeanBounds(total: real, count: nat, lo: real, hi: real)
    requires count > 0
    requires lo * count as real <= total <= hi * count as real
    ensures lo <= Mean(total, count) <= hi
  {
    var n := count as real;
    assert Mean(total, count) * n == total;
  }

  /** `chartData`: one bar per entry, in entry order. */
  function ChartData(records: seq<ExamRecord>): (chart: seq<ChartPoint>)
    ensures |chart| == |SubjectPerformance(records)|
    ensures forall i :: 0 <= i < |chart| ==> chart[i].subject == SubjectPerformance(records)[i].subject
  {
    var ps := SubjectPerformance(records);
    CountsPositive(records);
    seq(|ps|, i requires 0 <= i < |ps| => ChartPoint(ps[i].subject, Mean(ps[i].totalMarks, ps[i].count)))
  }

  /** No entry has a zero count, so no average divides by zero. */
  lemma CountsPositive(records: seq<ExamRecord>)
    ensures forall i :: 0 <= i < |SubjectPerformance(records)| ==> SubjectPerformance(records)[i].count > 0
  {
    forall i | 0 <= i < |SubjectPerformance(records)|
      ensures SubjectPerformance(records)[i].count > 0
    {
      SubjectEntries(records, i);
    }
  }

  /** Each bar is the mean mark of its subject's records. */
  lemma ChartShowsSubjectMean(records: seq<ExamRecord>, i: int)
    requires 0 <= i < |ChartData(records)|
    ensures var members := Filter(records, HasKey(SubjectOf, ChartData(records)[i].subject));
            |members| > 0 && ChartData(records)[i].average == Mean(SumOf(members, Marks), |members|)
  {
    SubjectEntries(records, i);
  }

  /** "No exam data available" shows exactly when there are no records. */
  lemma ChartEmptyIffNoRecords(records: seq<ExamRecord>)
    ensures |ChartData(records)| == 0 <==> |records| == 0
  {
    SubjectsCovered(records);
    if |records| > 0 {
      assert records[0].subject in (set m | 0 <= m < |records| :: records[m].subject);
    }
  }

  /** When all marks lie in [0, 100], so does every average, matching the chart's axis. */
  lemma AveragesWithinScale(records: seq<ExamRecord>, i: int)
    requires forall m :: 0 <= m < |records| ==> 0.0 <= records[m].marks <= 100.0
    requires 0 <= i < |ChartData(records)|
    ensures 0.0 <= ChartData(records)[i].average <= 100.0
  {
    ChartShowsSubjectMean(records, i);
    var p := HasKey(SubjectOf, ChartData(records)[i].subject);
    var members := Filter(records, p);
    forall k | 0 <= k < |members|
      ensures 0.0 <= Marks(members[k]) <= 100.0
    {
      FilterMember(records, p, members[k]);
    }
    SumOfBounds(members, Marks, 0.0, 100.0);
    MeanBounds(SumOf(members, Marks), |members|, 0.0, 100.0);
  }
}

=== FILE: backup.dfy ===
/**
 * The backup reminder banner (components/admin/BackupReminderBanner.tsx). The
 * time of the last dismissal is kept as text under `lastBackupReminder` in
 * browser storage; storage reads and writes and the clock are parameters here.
 */
module Backup {
  import opened Wrappers
  import Decimal

  /** `REMINDER_INTERVAL`: seven days in milliseconds. */
  const ReminderIntervalMs: nat := 7 * 24 * 60 * 60 * 1000

  /**
   * The mount-time check: show when nothing (or the empty string) is stored,
   * or when more than the interval has passed since the stored time. A value
   * `parseInt` cannot read gives `NaN`, and a comparison with `NaN` is false.
   */
  function ShouldShow(stored: Option<string>, nowMs: nat): (show: bool)
    ensures stored.None? || stored == Some("") ==> show
    ensures stored.Some? && stored.value != "" && Decimal.ParseInt(stored.value).None? ==> !show
    ensures stored.Some? && stored.value != "" && Decimal.ParseInt(stored.value).Some? ==>
              (show <==> nowMs - Decimal.ParseInt(stored.value).value > ReminderIntervalMs)
  {
    match stored
    case None => true
    case Some(text) =>
      if text == "" then true
      else match Decimal.ParseInt(text)
        case None => false
        case Some(last) => nowMs - last > ReminderIntervalMs
  }

  /** The banner: `showReminder` and the stored text. */
  datatype Banner = Banner(showReminder: bool, stored: Option<string>)

  /** Mounting: hidden until the check has run. */
  function Mount(stored: Option<string>): (b: Banner)
    ensures !b.showReminder && b.stored == stored
  {
    Banner(false, stored)
  }

  /** The effect: it can only switch the banner on. */
  function Check(b: Banner, nowMs: nat): (c: Banner)
    ensures c.stored == b.stored
    ensures c.showReminder <==> b.showReminder || ShouldShow(b.stored, nowMs)
  {
    if ShouldShow(b.stored, nowMs) then b.(showReminder := true) else b
  }

  /** `handleDismiss`: store the clock as text and hide the banner. */
  function Dismiss(b: Banner, nowMs: nat): (d: Banner)
    ensures !d.showReminder
    ensures d.stored.Some? && Decimal.ParseInt(d.stored.value) == Some(nowMs)
  {
    Decimal.ParseIntOfNatToString(nowMs);
    Banner(false, Some(Decimal.NatToString(nowMs)))
  }

  /** On first use, with nothing stored, the banner appears. */
  lemma FirstVisitShows(nowMs: nat)
    ensures Check(Mount(None), nowMs).showReminder
  {
  }

  /**
   * After a dismissal at `dismissedMs`, the next mount shows the banner exactly
   * when more than seven days have passed; at exactly seven days it stays hidden.
   */
  lemma ReappearsAfterSevenDays(b: Banner, dismissedMs: nat, laterMs: nat)
    ensures (Check(Mount(Dismiss(b, dismissedMs).stored), laterMs).showReminder
             <==> laterMs - dismissedMs > ReminderIntervalMs)
  {
    Decimal.ParseIntOfNatToString(dismissedMs);
    assert Decimal.NatToString(dismissedMs) != "";
  }

  /** The boundary: exactly 604,800,000 ms after a dismissal the banner stays hidden, one millisecond later it shows. */
  lemma SevenDayBoundary(b: Banner, dismissedMs: nat)
    ensures !Check(Mount(Dismiss(b, dismissedMs).stored), dismissedMs + 604_800_000).showReminder
    ensures Check(Mount(Dismiss(b, dismissedMs).stored), dismissedMs + 604_800_001).showReminder
  {
    ReappearsAfterSevenDays(b, dismissedMs, dismissedMs + 604_800_000);
    ReappearsAfterSevenDays(b, dismissedMs, dismissedMs + 604_800_001);
  }

  /** A re-check at the moment of dismissal keeps the banner hidden. */
  lemma DismissedStaysHidden(b: Banner, nowMs: nat)
    ensures !Check(Dismiss(b, nowMs), nowMs).showReminder
  {
    ReappearsAfterSevenDays(b, nowMs, nowMs);
  }

  /** Text that does not start with a number never brings the banner up, however much time passes. */
  lemma UnreadableStoredValueNeverShows(text: string, nowMs: nat)
    requires text != "" && Decimal.ParseInt(text).None?
    ensures !Check(Mount(Some(text)), nowMs).showReminder
  {
  }
}

=== FILE: classes.dfy ===
/**
 * The class pages: the class list grouped from the student list with its
 * search box and export rows (pages/classes/ClassesPage.tsx), and one class's
 * roster (pages/classes/ClassDetailPage.tsx).
 */
module Classes {
  import opened Domain
  import opened Seqs
  import opened Grouping
  import opened Text
  import Dashboard

  type ClassGroup = Group<string, Student>

  // ----- the class list -----

  /** The `classes` object: the students filed under their class name, classes in order of first appearance. */
  function ClassGroups(students: seq<Student>): (gs: seq<ClassGroup>)
    ensures |gs| <= |students|
    ensures forall i :: 0 <= i < |gs| ==> |gs[i].members| > 0
    ensures forall i, s :: 0 <= i < |gs| && s in gs[i].members ==> s in students && s.className == gs[i].key
  {
    GroupMembersHaveKey(students, Dashboard.ClassOf);
    GroupBy(students, Dashboard.ClassOf)
  }

  /**
   * Every class appears once, holds exactly its students in list order, and
   * the class sizes add up to the number of students.
   */
  lemma ClassGroupsPartitionStudents(students: seq<Student>)
    ensures forall i, j :: 0 <= i < j < |ClassGroups(students)| ==> ClassGroups(students)[i].key != ClassGroups(students)[j].key
    ensures forall i :: 0 <= i < |ClassGroups(students)| ==>
              ClassGroups(students)[i].members == Filter(students, HasKey(Dashboard.ClassOf, ClassGroups(students)[i].key))
    ensures KeySet(ClassGroups(students)) == set m | 0 <= m < |students| :: students[m].className
    ensures MemberCount(ClassGroups(students)) == |students|
  {
    GroupByIsGrouping(students, Dashboard.ClassOf);
    GroupKeysAreElementKeys(students, Dashboard.ClassOf);
  }

  /** The class list has as many rows as the dashboard counts classes. */
  lemma ClassListAgreesWithDashboard(students: seq<Student>, staff: seq<Staff>, records: seq<FinancialRecord>)
    ensures |ClassGroups(students)| == Dashboard.ComputeStats(students, staff, records).totalClasses
  {
    GroupCount(students, Dashboard.ClassOf);
    ClassGroupsPartitionStudents(students);
  }

  /** The search box: the lowercased class name contains the lowercased term. */
  function ClassMatches(term: string): ClassGroup -> bool {
    (g: ClassGroup) => Contains(Lower(g.key), Lower(term))
  }

  /** `filteredClasses`. */
  function FilteredClasses(students: seq<Student>, term: string): (r: seq<ClassGroup>)
    ensures forall i :: 0 <= i < |r| ==> Contains(Lower(r[i].key), Lower(term))
    ensures IsSubsequence(r, ClassGroups(students))
  {
    var r := Filter(ClassGroups(students), ClassMatches(term));
    assert forall i :: 0 <= i < |r| ==> ClassMatches(term)(r[i]);
    FilterSubsequence(ClassGroups(students), ClassMatches(term));
    r
  }

  /** A class is listed exactly when it has students and its name matches the search, in list order. */
  lemma FilteredClassesMatch(students: seq<Student>, term: string)
    ensures forall g :: g in FilteredClasses(students, term) <==>
              g in ClassGroups(students) && Contains(Lower(g.key), Lower(term))
    ensures IsSubsequence(FilteredClasses(students, term), ClassGroups(students))
  {
    FilterMembers(ClassGroups(students), ClassMatches(term));
    FilterSubsequence(ClassGroups(students), ClassMatches(term));
  }

  /** An empty search box lists every class. */
  lemma EmptySearchListsAllClasses(students: seq<Student>)
    ensures FilteredClasses(students, "") == ClassGroups(students)
  {
    var gs := ClassGroups(students);
    forall i | 0 <= i < |gs|
      ensures ClassMatches("")(gs[i])
    {
      assert Lower("") == "";
      ContainsEmpty(Lower(gs[i].key));
    }
    FilterKeepsAll(gs, ClassMatches(""));
  }

  /** A table and export row: class name, total students, active students. */
  datatype ClassRow = ClassRow(className: string, totalStudents: nat, activeStudents: nat)

  function ClassRowOf(g: ClassGroup): (row: ClassRow)
    ensures row.className == g.key
    ensures row.totalStudents == |g.members|
    ensures row.activeStudents == |set i | 0 <= i < |g.members| && g.members[i].status == AdmissionStatus.Active|
    ensures row.activeStudents <= row.totalStudents
    ensures row.activeStudents == row.totalStudents <==>
              forall i :: 0 <= i < |g.members| ==> g.members[i].status == AdmissionStatus.Active
  {
    FilterFullLength(g.members, Dashboard.IsActiveStudent);
    FilterLengthCountsPositions(g.members, Dashboard.IsActiveStudent);
    assert PassingPositions(g.members, Dashboard.IsActiveStudent)
        == set i | 0 <= i < |g.members| && g.members[i].status == AdmissionStatus.Active;
    ClassRow(g.key, |g.members|, |Filter(g.members, Dashboard.IsActiveStudent)|)
  }

  /** The rows of the table and of `handleExport`: one per listed class. */
  function ClassRows(students: seq<Student>, term: string): (rows: seq<ClassRow>)
    ensures |rows| == |FilteredClasses(students, term)|
    ensures forall i :: 0 <= i < |rows| ==> rows[i] == ClassRowOf(FilteredClasses(students, term)[i])
  {
    Map(FilteredClasses(students, term), ClassRowOf)
  }

  /** Whether the table shows "No classes found". */
  predicate NoClassesFound(students: seq<Student>, term: string) {
    |FilteredClasses(students, term)| == 0
  }

  /** The total-students column adds up over the rows. */
  function RowsTotal(rows: seq<ClassRow>): nat
    decreases |rows|
  {
    if |rows| == 0 then 0 else RowsTotal(rows[..|rows| - 1]) + rows[|rows| - 1].totalStudents
  }

  lemma {:induction false} RowsTotalIsMemberCount(gs: seq<ClassGroup>)
    ensures RowsTotal(Map(gs, ClassRowOf)) == MemberCount(gs)
    decreases |gs|
  {
    if |gs| > 0 {
      var init := gs[..|gs| - 1];
      RowsTotalIsMemberCount(init);
      assert Map(gs, ClassRowOf)[..|gs| - 1] == Map(init, ClassRowOf);
    }
  }

  /** With an empty search, the total-students column adds up to the number of students. */
  lemma UnfilteredRowsCountEveryStudent(students: seq<Student>)
    ensures RowsTotal(ClassRows(students, "")) == |students|
  {
    EmptySearchListsAllClasses(students);
    RowsTotalIsMemberCount(ClassGroups(students));
    GroupByIsGrouping(students, Dashboard.ClassOf);
  }

  /** With an empty search, "No classes found" shows exactly when there are no students. */
  lemma NoClassesExactlyWithoutStudents(students: seq<Student>)
    ensures NoClassesFound(students, "") <==> |students| == 0
  {
    EmptySearchListsAllClasses(students);
    GroupByIsGrouping(students, Dashboard.ClassOf);
    if |students| > 0 {
      assert students[0].className in KeySet(ClassGroups(students));
    }
  }

  // ----- one class -----

  /** `students.filter(s => s.className === className)`, for the class name decoded from the route. */
  function ClassStudents(students: seq<Student>, className: string): (r: seq<Student>)
    ensures forall i :: 0 <= i < |r| ==> r[i].className == className
  {
    var r := Filter(students, HasKey(Dashboard.ClassOf, className));
    assert forall i :: 0 <= i < |r| ==> HasKey(Dashboard.ClassOf, className)(r[i]);
    assert forall i :: 0 <= i < |r| ==> Dashboard.ClassOf(r[i]) == className;
    r
  }

  /** The roster holds every student of the class and nobody else. */
  lemma ClassStudentsComplete(students: seq<Student>, className: string)
    ensures forall s :: s in ClassStudents(students, className) <==> s in students && s.className == className
  {
    FilterMembers(students, HasKey(Dashboard.ClassOf, className));
  }

  /** Following a class list row opens a roster with the same students, in the same order. */
  lemma RosterMatchesClassList(students: seq<Student>, i: int)
    requires 0 <= i < |ClassGroups(students)|
    ensures ClassStudents(students, ClassGroups(students)[i].key) == ClassGroups(students)[i].members
    ensures |ClassStudents(students, ClassGroups(students)[i].key)| > 0
  {
    GroupMembersByKey(students, Dashboard.ClassOf, i);
  }

  /** A roster is empty exactly when no student is in that class. */
  lemma EmptyRosterIffUnknownClass(students: seq<Student>, className: string)
    ensures |ClassStudents(students, className)| == 0 <==>
              forall m :: 0 <= m < |students| ==> students[m].className != className
  {
    ClassStudentsComplete(students, className);
    if forall m :: 0 <= m < |students| ==> students[m].className != className {
      FilterDropsAll(students, HasKey(Dashboard.ClassOf, className));
    } else {
      var m :| 0 <= m < |students| && students[m].className == className;
      assert students[m] in ClassStudents(students, className);
    }
  }

  /** A roster row. */
  datatype RosterRow = RosterRow(systemId: string, name: string, parentName: string, parentPhone: string, status: string)

  function RosterRowOf(s: Student): RosterRow {
    RosterRow(s.systemId, FullName(s), s.parentName, s.parentPhone, AdmissionStatusName(s.status))
  }

  /** The detail card: heading, "Total Students" figure, the rows, and whether the empty message shows. */
  datatype ClassDetail = ClassDetail(title: string, totalStudents: nat, rows: seq<RosterRow>, showsEmptyMessage: bool)

  function ClassDetailOf(students: seq<Student>, className: string): (d: ClassDetail)
    ensures d.title == className
    ensures d.totalStudents == |d.rows| == |ClassStudents(students, className)|
    ensures d.showsEmptyMessage <==> |d.rows| == 0
    ensures d.showsEmptyMessage <==> forall m :: 0 <= m < |students| ==> students[m].className != className
    ensures forall i :: 0 <= i < |d.rows| ==> d.rows[i].name == FullName(ClassStudents(students, className)[i])
  {
    var roster := ClassStudents(students, className);
    EmptyRosterIffUnknownClass(students, className);
    var rows := Map(roster, RosterRowOf);
    ClassDetail(className, |rows|, rows, |rows| == 0)
  }
}

=== FILE: dashboard.dfy ===
/**
 * The dashboard figures (src/frontend/src/hooks/useDashboardStats.ts): active
 * students and staff, distinct classes and the fees collected.
 */
module Dashboard {
  import opened Domain
  import opened Seqs
  import Finance

  datatype DashboardStats = DashboardStats(
    totalStudents: nat,
    totalStaff: nat,
    totalClasses: nat,
    feesCollected: real,
    outstandingFees: real)

  predicate IsActiveStudent(s: Student) {
    s.status == AdmissionStatus.Active
  }

  predicate IsActiveStaff(s: Staff) {
    s.status == StaffStatus.Active
  }

  function ClassOf(s: Student): string {
    s.className
  }

  /** `new Set(students.map(s => s.className))`. */
  function ClassNames(students: seq<Student>): (names: set<string>)
    ensures names == set i | 0 <= i < |students| :: students[i].className
  {
    var mapped := Map(students, ClassOf);
    assert forall c :: c in mapped <==> exists i :: 0 <= i < |students| && students[i].className == c by {
      forall c
        ensures c in mapped <==> exists i :: 0 <= i < |students| && students[i].className == c
      {
        if c in mapped {
          var i :| 0 <= i < |mapped| && mapped[i] == c;
          assert students[i].className == c;
        }
      }
    }
    ToSet(mapped)
  }

  /** Distinct class names never outnumber the students, and there are none exactly when there are no students. */
  lemma ClassCountBounds(students: seq<Student>)
    ensures |ClassNames(students)| <= |students|
    ensures |ClassNames(students)| == 0 <==> |students| == 0
  {
    ToSetCardinality(Map(students, ClassOf));
    if |students| > 0 {
      assert students[0].className in ClassNames(students);
    }
  }

  /** `queryFn`: the five figures the dashboard shows. */
  function ComputeStats(students: seq<Student>, staff: seq<Staff>, records: seq<FinancialRecord>): (st: DashboardStats)
    ensures st.totalStudents == |set i | 0 <= i < |students| && students[i].status == AdmissionStatus.Active|
    ensures st.totalStudents <= |students|
    ensures st.totalStudents == |students| <==> forall i :: 0 <= i < |students| ==> students[i].status == AdmissionStatus.Active
    ensures st.totalStaff == |set i | 0 <= i < |staff| && staff[i].status == StaffStatus.Active|
    ensures st.totalStaff <= |staff|
    ensures st.totalStaff == |staff| <==> forall i :: 0 <= i < |staff| ==> staff[i].status == StaffStatus.Active
    ensures st.totalClasses == |set i | 0 <= i < |students| :: students[i].className|
    ensures st.totalClasses <= |students|
    ensures st.feesCollected == Finance.Report(records).totalRevenue
    ensures st.outstandingFees == 0.0
  {
    FilterFullLength(students, IsActiveStudent);
    FilterFullLength(staff, IsActiveStaff);
    FilterLengthCountsPositions(students, IsActiveStudent);
    FilterLengthCountsPositions(staff, IsActiveStaff);
    assert PassingPositions(students, IsActiveStudent) == set i | 0 <= i < |students| && students[i].status == AdmissionStatus.Active;
    assert PassingPositions(staff, IsActiveStaff) == set i | 0 <= i < |staff| && staff[i].status == StaffStatus.Active;
    ClassCountBounds(students);
    DashboardStats(
      |Filter(students, IsActiveStudent)|,
      |Filter(staff, IsActiveStaff)|,
      |ClassNames(students)|,
      Finance.SumAmounts(Filter(records, Finance.IsRevenue)),
      0.0)
  }

  /** The class count covers every student, whatever the status: a dismissed student's class still counts. */
  lemma ClassCountIgnoresStatus(students: seq<Student>, i: int, status: AdmissionStatus)
    requires 0 <= i < |students|
    ensures ClassNames(students[i := students[i].(status := status)]) == ClassNames(students)
  {
    var changed := students[i := students[i].(status := status)];
    assert forall k :: 0 <= k < |students| ==> changed[k].className == students[k].className;
  }

  /** Admitting an active student raises the active-student figure by one; any other status leaves it alone. */
  lemma AdmissionCounts(students: seq<Student>, staff: seq<Staff>, records: seq<FinancialRecord>, s: Student)
    ensures ComputeStats(students + [s], staff, records).totalStudents
              == ComputeStats(students, staff, records).totalStudents + (if s.status == AdmissionStatus.Active then 1 else 0)
  {
    FilterConcat(students, [s], IsActiveStudent);
    assert [s][1..] == [];
  }

  /** Hiring an active staff member raises the active-staff figure by one; any other status leaves it alone. */
  lemma HiringCounts(students: seq<Student>, staff: seq<Staff>, records: seq<FinancialRecord>, m: Staff)
    ensures ComputeStats(students, staff + [m], records).totalStaff
              == ComputeStats(students, staff, records).totalStaff + (if m.status == StaffStatus.Active then 1 else 0)
  {
    FilterConcat(staff, [m], IsActiveStaff);
    assert [m][1..] == [];
  }

  /** Recording an expense anywhere in the list leaves the fees collected unchanged. */
  lemma ExpenseLeavesFeesUnchanged(students: seq<Student>, staff: seq<Staff>, records: seq<FinancialRecord>, i: nat, e: FinancialRecord)
    requires i <= |records|
    requires e.recordType == Expense
    ensures ComputeStats(students, staff, records[..i] + [e] + records[i..]).feesCollected
              == ComputeStats(students, staff, records).feesCollected
  {
    Finance.ExpenseLeavesRevenueUnchanged(records, i, e);
  }

  /** Removing an expense record leaves the fees collected unchanged. */
  lemma ExpenseRemovalLeavesFeesUnchanged(students: seq<Student>, staff: seq<Staff>, records: seq<FinancialRecord>, i: nat)
    requires i < |records|
    requires records[i].recordType == Expense
    ensures ComputeStats(students, staff, records[..i] + records[i + 1..]).feesCollected
              == ComputeStats(students, staff, records).feesCollected
  {
    var rest := records[..i] + records[i + 1..];
    assert rest[..i] + [records[i]] + rest[i..] == records;
    Finance.ExpenseLeavesRevenueUnchanged(rest, i, records[i]);
  }
}

=== FILE: decimal.dfy ===
/**
 * Decimal text for the millisecond clock: `Date.now().toString()` (ids such as
 * "STU1700000000000" and the stored backup-reminder time) and `parseInt` of that
 * text when it is read back.
 */
module Decimal {
  import opened Wrappers

  predicate IsDigit(c: char) {
    '0' <= c <= '9'
  }

  predicate AllDigits(s: string) {
    forall i :: 0 <= i < |s| ==> IsDigit(s[i])
  }

  function DigitValue(c: char): (d: nat)
    requires IsDigit(c)
    ensures d < 10
  {
    (c as int) - ('0' as int)
  }

  function DigitChar(d: nat): (c: char)
    requires d < 10
    ensures IsDigit(c) && DigitValue(c) == d
  {
    ((('0' as int) + d) as char)
  }

  /** The decimal rendering of an integer-valued number, most significant digit first, no leading zeros. */
  function NatToString(n: nat): (s: string)
    ensures 1 <= |s|
    ensures AllDigits(s)
    ensures |s| > 1 ==> s[0] != '0'
    decreases n
  {
    if n < 10 then [DigitChar(n)] else NatToString(n / 10) + [DigitChar(n % 10)]
  }

  /** The number a string of decimal digits denotes. */
  function DigitsValue(s: string): nat
    requires AllDigits(s)
  {
    if |s| == 0 then 0 else DigitsValue(s[..|s| - 1]) * 10 + DigitValue(s[|s| - 1])
  }

  /** The longest prefix of `s` made of decimal digits. */
  function DigitPrefix(s: string): (p: string)
    ensures p <= s
    ensures AllDigits(p)
    ensures |p| < |s| ==> !IsDigit(s[|p|])
  {
    if |s| > 0 && IsDigit(s[0]) then [s[0]] + DigitPrefix(s[1..]) else []
  }

  /**
   * `parseInt(s)` for decimal text: an optional sign followed by the longest run
   * of digits; `None` plays the part of `NaN` when no digit follows the sign.
   */
  function ParseInt(s: string): (r: Option<int>)
    ensures r.None? <==> |DigitPrefix(if |s| > 0 && (s[0] == '-' || s[0] == '+') then s[1..] else s)| == 0
    ensures |s| > 0 && AllDigits(s) ==> r == Some(DigitsValue(s))
  {
    var negative := |s| > 0 && s[0] == '-';
    var unsigned := if |s| > 0 && (s[0] == '-' || s[0] == '+') then s[1..] else s;
    var digits := DigitPrefix(unsigned);
    if |digits| == 0 then None
    else
      assert AllDigits(s) ==> digits == s by {
        if AllDigits(s) {
          DigitPrefixOfDigits(s);
        }
      }
      var magnitude: int := DigitsValue(digits);
      Some(if negative then -magnitude else magnitude)
  }

  lemma {:induction false} DigitPrefixOfDigits(s: string)
    requires AllDigits(s)
    ensures DigitPrefix(s) == s
    decreases |s|
  {
    if |s| > 0 {
      DigitPrefixOfDigits(s[1..]);
      assert [s[0]] + s[1..] == s;
    }
  }

  lemma {:induction false} DigitsValueOfNatToString(n: nat)
    ensures DigitsValue(NatToString(n)) == n
    decreases n
  {
    if n >= 10 {
      var s := NatToString(n);
      assert s[..|s| - 1] == NatToString(n / 10);
      DigitsValueOfNatToString(n / 10);
    }
  }

  /** Reading back what was written: `parseInt(n.toString()) == n`. */
  lemma ParseIntOfNatToString(n: nat)
    ensures ParseInt(NatToString(n)) == Some(n)
  {
    DigitsValueOfNatToString(n);
  }

  /** Distinct clock readings render as distinct texts. */
  lemma NatToStringInjective(a: nat, b: nat)
    requires NatToString(a) == NatToString(b)
    ensures a == b
  {
    ParseIntOfNatToString(a);
    ParseIntOfNatToString(b);
  }
}

=== FILE: dialogs.dfy ===
/** State shared by the form dialogs: whether the dialog is open and what its form holds. */
module Dialogs {

  datatype Dialog<F> = Dialog(open: bool, form: F)

  /** The toast a handler raises. */
  datatype Notice = Quiet | ErrorToast | SuccessToast
}

=== FILE: directory.dfy ===
/**
 * The search boxes of the admissions list (pages/admissions/AdmissionsPage.tsx)
 * and the staff directory (pages/staff/StaffDirectoryPage.tsx). Both pages
 * are gated by `RequireRole` with the headmaster alone.
 */
module Directory {
  import opened Domain
  import opened Seqs
  import opened Text

  /** `text.toLowerCase().includes(term.toLowerCase())`. */
  predicate MatchesIgnoringCase(text: string, term: string) {
    Contains(Lower(text), Lower(term))
  }

  /** Every text matches the empty term. */
  lemma EmptyTermMatchesAll(text: string)
    ensures MatchesIgnoringCase(text, "")
  {
    assert Lower("") == "";
    ContainsEmpty(Lower(text));
  }

  // ----- admissions -----

  /** A student matches on "first last" or on the system id. */
  function StudentMatches(term: string): (matches: Student -> bool)
    ensures term == "" ==> forall s :: matches(s)
    ensures forall s: Student :: s.systemId == term ==> matches(s)
  {
    var matches := (s: Student) => MatchesIgnoringCase(FullName(s), term) || MatchesIgnoringCase(s.systemId, term);
    assert forall s: Student :: s.systemId == term ==> matches(s) by {
      assert OccursAt(Lower(term), Lower(term), 0);
    }
    assert term == "" ==> forall s :: matches(s) by {
      if term == "" {
        forall s: Student
          ensures matches(s)
        {
          EmptyTermMatchesAll(FullName(s));
        }
      }
    }
    matches
  }

  /** `filteredStudents`. */
  function FilteredStudents(students: seq<Student>, term: string): (r: seq<Student>)
    ensures |r| <= |students|
    ensures forall i :: 0 <= i < |r| ==> MatchesIgnoringCase(FullName(r[i]), term) || MatchesIgnoringCase(r[i].systemId, term)
  {
    Filter(students, StudentMatches(term))
  }

  /** A student is listed exactly when its name or id matches, and the list keeps input order. */
  lemma FilteredStudentsMatch(students: seq<Student>, term: string)
    ensures forall s :: s in FilteredStudents(students, term) <==>
              s in students && (MatchesIgnoringCase(FullName(s), term) || MatchesIgnoringCase(s.systemId, term))
    ensures IsSubsequence(FilteredStudents(students, term), students)
  {
    FilterMembers(students, StudentMatches(term));
    FilterSubsequence(students, StudentMatches(term));
  }

  /** An empty search box lists every student. */
  lemma EmptySearchListsAllStudents(students: seq<Student>)
    ensures FilteredStudents(students, "") == students
  {
    forall i | 0 <= i < |students|
      ensures StudentMatches("")(students[i])
    {
      EmptyTermMatchesAll(FullName(students[i]));
    }
    FilterKeepsAll(students, StudentMatches(""));
  }

  /** Searching the result again with the same term changes nothing. */
  lemma StudentSearchIdempotent(students: seq<Student>, term: string)
    ensures FilteredStudents(FilteredStudents(students, term), term) == FilteredStudents(students, term)
  {
    FilterIdempotent(students, StudentMatches(term));
  }

  // ----- staff -----

  /** A staff member matches on name or position; the system id is not searched. */
  function StaffMatches(term: string): (matches: Staff -> bool)
    ensures term == "" ==> forall m :: matches(m)
    ensures forall m: Staff, id :: matches(m.(systemId := id)) == matches(m)
  {
    var matches := (m: Staff) => MatchesIgnoringCase(m.name, term) || MatchesIgnoringCase(m.position, term);
    assert term == "" ==> forall m :: matches(m) by {
      if term == "" {
        forall m: Staff
          ensures matches(m)
        {
          EmptyTermMatchesAll(m.name);
        }
      }
    }
    matches
  }

  /** `filteredStaff`. */
  function FilteredStaff(staff: seq<Staff>, term: string): (r: seq<Staff>)
    ensures |r| <= |staff|
    ensures forall i :: 0 <= i < |r| ==> MatchesIgnoringCase(r[i].name, term) || MatchesIgnoringCase(r[i].position, term)
  {
    Filter(staff, StaffMatches(term))
  }

  /** A member is listed exactly when the name or position matches, and the list keeps input order. */
  lemma FilteredStaffMatch(staff: seq<Staff>, term: string)
    ensures forall m :: m in FilteredStaff(staff, term) <==>
              m in staff && (MatchesIgnoringCase(m.name, term) || MatchesIgnoringCase(m.position, term))
    ensures IsSubsequence(FilteredStaff(staff, term), staff)
  {
    FilterMembers(staff, StaffMatches(term));
    FilterSubsequence(staff, StaffMatches(term));
  }

  /** An empty search box lists every member. */
  lemma EmptySearchListsAllStaff(staff: seq<Staff>)
    ensures FilteredStaff(staff, "") == staff
  {
    forall i | 0 <= i < |staff|
      ensures StaffMatches("")(staff[i])
    {
      EmptyTermMatchesAll(staff[i].name);
    }
    FilterKeepsAll(staff, StaffMatches(""));
  }

  lemma StaffSearchIdempotent(staff: seq<Staff>, term: string)
    ensures FilteredStaff(FilteredStaff(staff, term), term) == FilteredStaff(staff, term)
  {
    FilterIdempotent(staff, StaffMatches(term));
  }

  /** The staff search ignores the system id: changing it never changes whether a member is listed. */
  lemma StaffSearchIgnoresId(m: Staff, id: string, term: string)
    ensures StaffMatches(term)(m.(systemId := id)) == StaffMatches(term)(m)
  {
  }

  /** Unlike the staff search, the admissions search does find a student by id alone. */
  lemma StudentFoundById(s: Student)
    ensures StudentMatches(s.systemId)(s)
  {
    assert OccursAt(Lower(s.systemId), Lower(s.systemId), 0);
  }
}

=== FILE: domain.dfy ===
/**
 * The records and closed enumerations the client exchanges with the school
 * back end (src/frontend/src/backend.d.ts), the id and timestamp conventions
 * every form dialog uses, and the string values of the enumerations.
 */
module Domain {
  import opened Wrappers
  import Decimal

  /** Application role: the business permission tier. */
  datatype AppRole = Headmaster | Accountant | ExamsCoordinator

  /** System role of the identity layer, independent of the application role. */
  datatype UserRole = Admin | User | Guest

  datatype AdmissionStatus = Active | Transferred | Dismissed | Promoted

  datatype StaffStatus = Active | Transferred | Dismissed

  datatype FinancialType = Revenue | Expense

  /** Opaque handle on an externally stored photo (an `ExternalBlob`). */
  datatype PhotoRef = PhotoRef(url: string)

  /** Opaque caller identity. */
  datatype Principal = Principal(text: string)

  datatype UserProfile = UserProfile(
    systemId: string,
    fullName: string,
    role: UserRole,
    appRole: AppRole,
    active: bool,
    lastUpdated: int,
    photo: Option<PhotoRef>)

  datatype Student = Student(
    systemId: string,
    firstName: string,
    lastName: string,
    className: string,
    parentName: string,
    parentPhone: string,
    status: AdmissionStatus,
    photo: Option<PhotoRef>)

  /** The name the pages show for a student: `${firstName} ${lastName}`. */
  function FullName(s: Student): string {
    s.firstName + " " + s.lastName
  }

  datatype Staff = Staff(
    systemId: string,
    name: string,
    position: string,
    status: StaffStatus,
    photo: Option<PhotoRef>)

  datatype FinancialRecord = FinancialRecord(
    systemId: string,
    amount: real,
    description: string,
    recordType: FinancialType,
    timestamp: int)

  datatype ExamRecord = ExamRecord(
    systemId: string,
    studentId: string,
    subject: string,
    marks: real,
    grade: string,
    position: int,
    remarks: string,
    timestamp: int)

  datatype SmsLog = SmsLog(
    systemId: string,
    receiver: string,
    message: string,
    timestamp: int,
    deliveryStatus: string)

  datatype AuditLog = AuditLog(
    user: Principal,
    action: string,
    details: string,
    timestamp: int)

  // ----- string values of the enumerations -----

  function AppRoleName(r: AppRole): string {
    match r
    case Headmaster => "headmaster"
    case Accountant => "accountant"
    case ExamsCoordinator => "examsCoordinator"
  }

  /** The role a string names, if any: exactly three strings are roles. */
  function ParseAppRole(s: string): (r: Option<AppRole>)
    ensures r.Some? ==> AppRoleName(r.value) == s
    ensures r.None? ==> forall role: AppRole :: AppRoleName(role) != s
  {
    if s == "headmaster" then Some(Headmaster)
    else if s == "accountant" then Some(Accountant)
    else if s == "examsCoordinator" then Some(ExamsCoordinator)
    else None
  }

  lemma AppRoleNameRoundTrip(r: AppRole)
    ensures ParseAppRole(AppRoleName(r)) == Some(r)
  {
  }

  function FinancialTypeName(t: FinancialType): string {
    match t
    case Revenue => "revenue"
    case Expense => "expense"
  }

  /** The type a string names, if any: only "revenue" and "expense" are types. */
  function ParseFinancialType(s: string): (r: Option<FinancialType>)
    ensures r.Some? ==> FinancialTypeName(r.value) == s
    ensures r.None? ==> forall t: FinancialType :: FinancialTypeName(t) != s
  {
    if s == "revenue" then Some(Revenue)
    else if s == "expense" then Some(Expense)
    else None
  }

  function UserRoleName(r: UserRole): string {
    match r
    case Admin => "admin"
    case User => "user"
    case Guest => "guest"
  }

  function AdmissionStatusName(s: AdmissionStatus): string {
    match s
    case Active => "active"
    case Transferred => "transferred"
    case Dismissed => "dismissed"
    case Promoted => "promoted"
  }

  function StaffStatusName(s: StaffStatus): string {
    match s
    case Active => "active"
    case Transferred => "transferred"
    case Dismissed => "dismissed"
  }

  /** The admission status with the same string value as a staff status. */
  function StaffToAdmission(s: StaffStatus): (a: AdmissionStatus)
    ensures AdmissionStatusName(a) == StaffStatusName(s)
    ensures a != AdmissionStatus.Promoted
  {
    match s
    case Active => AdmissionStatus.Active
    case Transferred => AdmissionStatus.Transferred
    case Dismissed => AdmissionStatus.Dismissed
  }

  /** The staff status with the same string value as an admission status; only `promoted` has none. */
  function AdmissionToStaff(a: AdmissionStatus): (s: Option<StaffStatus>)
    ensures s.None? <==> a == AdmissionStatus.Promoted
    ensures s.Some? ==> StaffStatusName(s.value) == AdmissionStatusName(a)
  {
    match a
    case Active => Some(StaffStatus.Active)
    case Transferred => Some(StaffStatus.Transferred)
    case Dismissed => Some(StaffStatus.Dismissed)
    case Promoted => None
  }

  /** The staff statuses are the admission statuses minus `promoted`, value for value. */
  lemma StaffStatusesAreAdmissionStatusesWithoutPromoted(s: StaffStatus, a: AdmissionStatus)
    ensures AdmissionToStaff(StaffToAdmission(s)) == Some(s)
    ensures a != AdmissionStatus.Promoted ==> StaffToAdmission(AdmissionToStaff(a).value) == a
    ensures StaffStatusName(s) != "promoted"
  {
  }

  // ----- ids and timestamps -----

  const NanosPerMilli: nat := 1_000_000

  /** `BigInt(Date.now() * 1000000)`: the back end stores nanoseconds. */
  function MillisToNanos(ms: nat): (ns: nat)
    ensures ns % NanosPerMilli == 0
    ensures ns / NanosPerMilli == ms
  {
    ms * NanosPerMilli
  }

  /** `Number(timestamp) / 1000000`: the list views turn nanoseconds back into milliseconds. */
  function NanosToMillis(ns: int): real {
    ns as real / NanosPerMilli as real
  }

  /** Displaying a stored timestamp recovers the creation time exactly. */
  lemma NanosToMillisRoundTrip(ms: nat)
    ensures NanosToMillis(MillisToNanos(ms)) == ms as real
  {
  }

  /** `id` is the kind prefix followed by text that parses back to the clock reading `ms`. */
  predicate IsIdFor(id: string, prefix: string, ms: nat) {
    && |prefix| < |id|
    && id[..|prefix|] == prefix
    && Decimal.ParseInt(id[|prefix|..]) == Some(ms)
  }

  /** `${prefix}${Date.now()}`: a record id made of a kind prefix and the creation clock. */
  function MakeId(prefix: string, ms: nat): (id: string)
    ensures IsIdFor(id, prefix, ms)
  {
    Decimal.ParseIntOfNatToString(ms);
    assert (prefix + Decimal.NatToString(ms))[|prefix|..] == Decimal.NatToString(ms);
    prefix + Decimal.NatToString(ms)
  }

  /** Two ids of one kind are equal only when they were made at the same millisecond. */
  lemma MakeIdInjective(prefix: string, a: nat, b: nat)
    requires MakeId(prefix, a) == MakeId(prefix, b)
    ensures a == b
  {
  }

  const StudentIdPrefix := "STU"
  const StaffIdPrefix := "STF"
  const ExamIdPrefix := "EXM"
  const FinanceIdPrefix := "FIN"
  const SmsIdPrefix := "SMS"
}

=== FILE: finance.dfy ===
/**
 * Financial records: the record the add dialog builds
 * (components/finance/FinancialRecordFormDialog.tsx), the revenue/expense
 * split of the finance page (pages/finance/FinancePage.tsx) and the totals of
 * the reports page (pages/finance/ReportsPage.tsx).
 */
module Finance {
  import opened Domain
  import opened Dialogs
  import opened Seqs

  // ----- the add-record dialog -----

  datatype FinanceForm = FinanceForm(amount: string, description: string)

  const EmptyFinanceForm := FinanceForm("", "")

  /** The dialog heading. */
  function DialogTitle(t: FinancialType): (title: string)
    ensures title == "Add Revenue" <==> t == Revenue
    ensures title == "Add Expense" <==> t == Expense
  {
    assert "Add Revenue"[4] != "Add Expense"[4];
    match t
    case Revenue => "Add Revenue"
    case Expense => "Add Expense"
  }

  /**
   * The record `handleSubmit` sends: the dialog's `recordType`, the number the
   * amount field parsed to (no lower bound is imposed), the clock `nowMs`.
   */
  function BuildFinancialRecord(recordType: FinancialType, form: FinanceForm, amount: real, nowMs: nat)
    : (r: FinancialRecord)
    ensures r.recordType == recordType
    ensures r.amount == amount
    ensures r.description == form.description
    ensures IsIdFor(r.systemId, FinanceIdPrefix, nowMs)
    ensures NanosToMillis(r.timestamp) == nowMs as real
  {
    NanosToMillisRoundTrip(nowMs);
    FinancialRecord(MakeId(FinanceIdPrefix, nowMs), amount, form.description, recordType, MillisToNanos(nowMs))
  }

  datatype FinanceSubmission = FinanceSubmission(dialog: Dialog<FinanceForm>, sent: FinancialRecord, notice: Notice)

  /** `handleSubmit`: the form is cleared and the dialog closed only after a successful add. */
  function SubmitFinancialRecord(d: Dialog<FinanceForm>, recordType: FinancialType, amount: real, nowMs: nat, saved: bool)
    : (s: FinanceSubmission)
    ensures s.sent == BuildFinancialRecord(recordType, d.form, amount, nowMs)
    ensures saved ==> !s.dialog.open && s.dialog.form == EmptyFinanceForm && s.notice == SuccessToast
    ensures !saved ==> s.dialog == d && s.notice == ErrorToast
  {
    var record := BuildFinancialRecord(recordType, d.form, amount, nowMs);
    if saved then FinanceSubmission(Dialog(false, EmptyFinanceForm), record, SuccessToast)
    else FinanceSubmission(d, record, ErrorToast)
  }

  // ----- the finance page -----

  /** Which dialog the page shows: the `isDialogOpen` and `recordType` state. */
  datatype FinancePage = FinancePage(dialogOpen: bool, recordType: FinancialType)

  const InitialFinancePage := FinancePage(false, Revenue)

  /** `handleAddRecord`: the "Add Revenue" and "Add Expense" buttons open the dialog for their type. */
  function AddRecord(page: FinancePage, t: FinancialType): (p: FinancePage)
    ensures p.dialogOpen
    ensures p.recordType == t
  {
    FinancePage(true, t)
  }

  /** The actions a list row offers. */
  datatype RowAction = ViewReceipt | Delete

  /** Revenue rows link to a receipt and can be deleted; expense rows can only be deleted. */
  function RowActions(r: FinancialRecord): (actions: set<RowAction>)
    ensures Delete in actions
    ensures ViewReceipt in actions <==> r.recordType == Revenue
  {
    if r.recordType == Revenue then {ViewReceipt, Delete} else {Delete}
  }

  predicate IsRevenue(r: FinancialRecord) {
    r.recordType == Revenue
  }

  predicate IsExpense(r: FinancialRecord) {
    r.recordType == Expense
  }

  function Amount(r: FinancialRecord): real {
    r.amount
  }

  /** `records.filter(r => r.recordType === 'revenue')`. */
  function Revenues(records: seq<FinancialRecord>): seq<FinancialRecord> {
    Filter(records, IsRevenue)
  }

  /** `records.filter(r => r.recordType === 'expense')`. */
  function Expenses(records: seq<FinancialRecord>): seq<FinancialRecord> {
    Filter(records, IsExpense)
  }

  /**
   * The two tabs partition the records: each keeps input order, each holds only
   * its own type, and together they hold every record exactly once.
   */
  lemma RevenuesExpensesPartition(records: seq<FinancialRecord>)
    ensures IsSubsequence(Revenues(records), records) && IsSubsequence(Expenses(records), records)
    ensures forall i :: 0 <= i < |Revenues(records)| ==> Revenues(records)[i].recordType == Revenue
    ensures forall i :: 0 <= i < |Expenses(records)| ==> Expenses(records)[i].recordType == Expense
    ensures |Revenues(records)| + |Expenses(records)| == |records|
    ensures multiset(Revenues(records)) + multiset(Expenses(records)) == multiset(records)
  {
    FilterPartition(records, IsRevenue, IsExpense);
    FilterSubsequence(records, IsRevenue);
    FilterSubsequence(records, IsExpense);
  }

  // ----- totals -----

  /** `records.reduce((sum, r) => sum + r.amount, 0)`. */
  function SumAmounts(records: seq<FinancialRecord>): real {
    SumOf(records, Amount)
  }

  /** `totalRevenue`: the amounts of the revenue records added up. */
  function TotalRevenue(records: seq<FinancialRecord>): (total: real)
    ensures (forall i :: 0 <= i < |records| ==> records[i].recordType == Expense) ==> total == 0.0
    ensures (forall i :: 0 <= i < |records| ==> records[i].recordType == Revenue) ==> total == SumAmounts(records)
  {
    var total := SumAmounts(Revenues(records));
    assert (forall i :: 0 <= i < |records| ==> records[i].recordType == Expense) ==> total == 0.0 by {
      if forall i :: 0 <= i < |records| ==> records[i].recordType == Expense {
        FilterDropsAll(records, IsRevenue);
      }
    }
    assert (forall i :: 0 <= i < |records| ==> records[i].recordType == Revenue) ==> total == SumAmounts(records) by {
      if forall i :: 0 <= i < |records| ==> records[i].recordType == Revenue {
        FilterKeepsAll(records, IsRevenue);
      }
    }
    total
  }

  /** `totalExpenses`: the amounts of the expense records added up. */
  function TotalExpenses(records: seq<FinancialRecord>): (total: real)
    ensures (forall i :: 0 <= i < |records| ==> records[i].recordType == Revenue) ==> total == 0.0
    ensures (forall i :: 0 <= i < |records| ==> records[i].recordType == Expense) ==> total == SumAmounts(records)
  {
    var total := SumAmounts(Expenses(records));
    assert (forall i :: 0 <= i < |records| ==> records[i].recordType == Revenue) ==> total == 0.0 by {
      if forall i :: 0 <= i < |records| ==> records[i].recordType == Revenue {
        FilterDropsAll(records, IsExpense);
      }
    }
    assert (forall i :: 0 <= i < |records| ==> records[i].recordType == Expense) ==> total == SumAmounts(records) by {
      if forall i :: 0 <= i < |records| ==> records[i].recordType == Expense {
        FilterKeepsAll(records, IsExpense);
      }
    }
    total
  }

  /** The revenue and expense totals add up to the sum of all amounts. */
  lemma {:induction false} TotalsSplitSum(records: seq<FinancialRecord>)
    ensures TotalRevenue(records) + TotalExpenses(records) == SumAmounts(records)
    decreases |records|
  {
    if |records| > 0 {
      TotalsSplitSum(records[1..]);
      var r := records[0];
      var head := [r];
      assert records == head + records[1..];
      FilterConcat(head, records[1..], IsRevenue);
      FilterConcat(head, records[1..], IsExpense);
      SumOfConcat(Revenues(head), Revenues(records[1..]), Amount);
      SumOfConcat(Expenses(head), Expenses(records[1..]), Amount);
      assert SumAmounts(Revenues(head)) + SumAmounts(Expenses(head)) == r.amount by {
        assert head[1..] == [];
        if r.recordType == Revenue {
          assert Revenues(head) == head && Expenses(head) == [];
        } else {
          assert Revenues(head) == [] && Expenses(head) == head;
        }
      }
    }
  }

  /** The figures of the reports page. */
  datatype FinancialReport = FinancialReport(
    totalRevenue: real,
    totalExpenses: real,
    profitLoss: real,
    profitShownGreen: bool)

  /** The reports page: two totals, their difference, and its colour. */
  function Report(records: seq<FinancialRecord>): (rep: FinancialReport)
    ensures rep.totalRevenue == TotalRevenue(records) && rep.totalExpenses == TotalExpenses(records)
    ensures rep.totalRevenue + rep.totalExpenses == SumAmounts(records)
    ensures rep.profitLoss == rep.totalRevenue - rep.totalExpenses
    ensures rep.profitShownGreen <==> rep.profitLoss >= 0.0
    ensures |records| == 0 ==> rep.totalRevenue == 0.0 && rep.totalExpenses == 0.0 && rep.profitLoss == 0.0
  {
    TotalsSplitSum(records);
    var revenue := TotalRevenue(records);
    var expenses := TotalExpenses(records);
    var profit := revenue - expenses;
    FinancialReport(revenue, expenses, profit, profit >= 0.0)
  }

  /** With revenue records only, the expense total is zero and the profit is the whole sum. */
  lemma OnlyRevenue(records: seq<FinancialRecord>)
    requires forall i :: 0 <= i < |records| ==> records[i].recordType == Revenue
    ensures Report(records).totalExpenses == 0.0
    ensures Report(records).profitLoss == SumAmounts(records)
  {
    FilterDropsAll(records, IsExpense);
  }

  /** With expense records only, the revenue total is zero and the loss is the whole sum. */
  lemma OnlyExpenses(records: seq<FinancialRecord>)
    requires forall i :: 0 <= i < |records| ==> records[i].recordType == Expense
    ensures Report(records).totalRevenue == 0.0
    ensures Report(records).profitLoss == -SumAmounts(records)
  {
    FilterDropsAll(records, IsRevenue);
  }

  /** Inserting an expense record anywhere leaves the revenue total unchanged. */
  lemma ExpenseLeavesRevenueUnchanged(records: seq<FinancialRecord>, i: nat, e: FinancialRecord)
    requires i <= |records|
    requires e.recordType == Expense
    ensures TotalRevenue(records[..i] + [e] + records[i..]) == TotalRevenue(records)
  {
    FilterInsertRejected(records, i, e, IsRevenue);
  }
}

=== FILE: grading.dfy ===
/**
 * Exam grading and the exam record the marks-entry dialog builds
 * (src/frontend/src/components/exams/MarksEntryFormDialog.tsx).
 */
module Grading {
  import opened Wrappers
  import opened Domain
  import opened Dialogs

  datatype Grade = A | B | C | D | F

  /** `calculateGrade`: fixed thresholds, each inclusive on its lower side; no range check. */
  function CalculateGrade(marks: real): (g: Grade)
    ensures g == A <==> 80.0 <= marks
    ensures g == B <==> 70.0 <= marks < 80.0
    ensures g == C <==> 60.0 <= marks < 70.0
    ensures g == D <==> 50.0 <= marks < 60.0
    ensures g == F <==> marks < 50.0
  {
    if marks >= 80.0 then A
    else if marks >= 70.0 then B
    else if marks >= 60.0 then C
    else if marks >= 50.0 then D
    else F
  }

  /** The grade as stored in `ExamRecord.grade`. */
  function GradeLetter(g: Grade): string {
    match g
    case A => "A"
    case B => "B"
    case C => "C"
    case D => "D"
    case F => "F"
  }

  /** Higher is better. */
  function GradeLevel(g: Grade): nat {
    match g
    case A => 4
    case B => 3
    case C => 2
    case D => 1
    case F => 0
  }

  /** More marks never give a worse grade. */
  lemma GradeMonotone(lo: real, hi: real)
    requires lo <= hi
    ensures GradeLevel(CalculateGrade(lo)) <= GradeLevel(CalculateGrade(hi))
  {
  }

  /** The boundary cases: 80 is an A, 79.9 a B, 50 a D, 49.9 an F. */
  lemma GradeBoundaries()
    ensures CalculateGrade(80.0) == A && CalculateGrade(79.9) == B
    ensures CalculateGrade(50.0) == D && CalculateGrade(49.9) == F
  {
  }

  /** The four text fields of the marks-entry form. */
  datatype MarksForm = MarksForm(studentId: string, subject: string, marks: string, remarks: string)

  const EmptyMarksForm := MarksForm("", "", "", "")

  /**
   * The record `handleSubmit` sends, given the number the marks field parsed to
   * and the clock reading `nowMs`.
   */
  function BuildExamRecord(form: MarksForm, marks: real, nowMs: nat): (r: ExamRecord)
    ensures r.grade == GradeLetter(CalculateGrade(r.marks))
    ensures r.marks == marks
    ensures r.studentId == form.studentId && r.subject == form.subject && r.remarks == form.remarks
    ensures r.position == 1
    ensures IsIdFor(r.systemId, ExamIdPrefix, nowMs)
    ensures NanosToMillis(r.timestamp) == nowMs as real
  {
    NanosToMillisRoundTrip(nowMs);
    ExamRecord(
      MakeId(ExamIdPrefix, nowMs),
      form.studentId,
      form.subject,
      marks,
      GradeLetter(CalculateGrade(marks)),
      1,
      form.remarks,
      MillisToNanos(nowMs))
  }

  /** What a submit sends and the dialog state after it. */
  datatype MarksSubmission = MarksSubmission(dialog: Dialog<MarksForm>, sent: ExamRecord, notice: Notice)

  /**
   * `handleSubmit`: the record is always sent; `saved` is whether the back end
   * accepted it. Only on success does the dialog close and the form clear.
   */
  function SubmitMarks(d: Dialog<MarksForm>, marks: real, nowMs: nat, saved: bool): (s: MarksSubmission)
    ensures s.sent == BuildExamRecord(d.form, marks, nowMs)
    ensures saved ==> !s.dialog.open && s.dialog.form == EmptyMarksForm && s.notice == SuccessToast
    ensures !saved ==> s.dialog == d && s.notice == ErrorToast
  {
    var record := BuildExamRecord(d.form, marks, nowMs);
    if saved then MarksSubmission(Dialog(false, EmptyMarksForm), record, SuccessToast)
    else MarksSubmission(d, record, ErrorToast)
  }
}

=== FILE: grouping.dfy ===
/**
 * Grouping a list by a key with `reduce` into an object of arrays, as the
 * classes page (by `className`) and the parents page (by `parentPhone`) do.
 * The object is modelled as a list of groups in the order their keys first
 * appear.
 */
module Grouping {
  import opened Seqs

  datatype Group<K, T> = Group(key: K, members: seq<T>)

  /** The elements whose key is `k`. */
  function HasKey<K(==), T>(key: T -> K, k: K): T -> bool {
    x => key(x) == k
  }

  /** The keys the groups are filed under. */
  function KeySet<K, T>(gs: seq<Group<K, T>>): set<K> {
    set i | 0 <= i < |gs| :: gs[i].key
  }

  /** The position of the group filed under `k`, or -1 when there is none (`acc[k]` is undefined). */
  function GroupIndex<K(==), T>(gs: seq<Group<K, T>>, k: K): (r: int)
    ensures -1 <= r < |gs|
    ensures r >= 0 ==> gs[r].key == k
    ensures r < 0 <==> k !in KeySet(gs)
    decreases |gs|
  {
    if |gs| == 0 then -1
    else if gs[|gs| - 1].key == k then |gs| - 1
    else
      var r := GroupIndex(gs[..|gs| - 1], k);
      assert KeySet(gs) == KeySet(gs[..|gs| - 1]) + {gs[|gs| - 1].key} by {
        assert forall i :: 0 <= i < |gs| - 1 ==> gs[..|gs| - 1][i] == gs[i];
      }
      r
  }

  /**
   * One step of the reduce: the element joins the group of its key, and a new
   * group is opened at the end when the key has not been seen.
   */
  function AddToGroups<K(==), T>(gs: seq<Group<K, T>>, x: T, key: T -> K): (r: seq<Group<K, T>>)
    ensures GroupIndex(gs, key(x)) < 0 ==> r == gs + [Group(key(x), [x])]
    ensures GroupIndex(gs, key(x)) >= 0 ==>
              var j := GroupIndex(gs, key(x));
              r == gs[j := Group(gs[j].key, gs[j].members + [x])]
  {
    var j := GroupIndex(gs, key(x));
    if j < 0 then gs + [Group(key(x), [x])]
    else gs[j := Group(gs[j].key, gs[j].members + [x])]
  }

  /** `xs.reduce(..., {})`: the elements visited in order, each filed under its key. */
  function GroupBy<K(==), T>(xs: seq<T>, key: T -> K): (gs: seq<Group<K, T>>)
    ensures |gs| <= |xs|
    ensures |gs| == 0 <==> |xs| == 0
    decreases |xs|
  {
    if |xs| == 0 then []
    else AddToGroups(GroupBy(xs[..|xs| - 1], key), xs[|xs| - 1], key)
  }

  /**
   * `gs` groups `xs` by `key`: one group per key, none empty, each holding
   * exactly the elements with its key in input order, and every element's key
   * has a group.
   */
  ghost predicate IsGrouping<K, T>(gs: seq<Group<K, T>>, xs: seq<T>, key: T -> K) {
    && (forall i, j :: 0 <= i < j < |gs| ==> gs[i].key != gs[j].key)
    && (forall i :: 0 <= i < |gs| ==> |gs[i].members| > 0)
    && (forall i :: 0 <= i < |gs| ==> gs[i].members == Filter(xs, HasKey(key, gs[i].key)))
    && (forall m :: 0 <= m < |xs| ==> key(xs[m]) in KeySet(gs))
  }

  /** The number of elements over all groups. */
  function MemberCount<K, T>(gs: seq<Group<K, T>>): nat
    decreases |gs|
  {
    if |gs| == 0 then 0 else MemberCount(gs[..|gs| - 1]) + |gs[|gs| - 1].members|
  }

  lemma {:induction false} MemberCountAppend<K, T>(gs: seq<Group<K, T>>, g: Group<K, T>)
    ensures MemberCount(gs + [g]) == MemberCount(gs) + |g.members|
  {
    assert (gs + [g])[..|gs|] == gs;
  }

  lemma {:induction false} MemberCountUpdate<K, T>(gs: seq<Group<K, T>>, j: int, g: Group<K, T>)
    requires 0 <= j < |gs|
    ensures MemberCount(gs[j := g]) == MemberCount(gs) - |gs[j].members| + |g.members|
    decreases |gs|
  {
    var last := |gs| - 1;
    if j == last {
      assert gs[j := g][..last] == gs[..last];
    } else {
      MemberCountUpdate(gs[..last], j, g);
      assert gs[j := g][..last] == gs[..last][j := g];
    }
  }

  /** Appending one element extends exactly the filter of its own key. */
  lemma FilterByKeyAppend<K, T>(xs: seq<T>, x: T, key: T -> K, k: K)
    ensures Filter(xs + [x], HasKey(key, k)) == Filter(xs, HasKey(key, k)) + (if key(x) == k then [x] else [])
  {
    FilterConcat(xs, [x], HasKey(key, k));
    assert [x][1..] == [];
  }

  /** An element with an unseen key opens a new group at the end, and the grouping property survives. */
  lemma NewGroupKeepsGrouping<K, T>(gs: seq<Group<K, T>>, xs: seq<T>, x: T, key: T -> K)
    requires IsGrouping(gs, xs, key)
    requires key(x) !in KeySet(gs)
    ensures IsGrouping(gs + [Group(key(x), [x])], xs + [x], key)
  {
    var r := gs + [Group(key(x), [x])];
    var ys := xs + [x];
    assert KeySet(r) == KeySet(gs) + {key(x)} by {
      assert forall i :: 0 <= i < |gs| ==> r[i] == gs[i];
      assert r[|gs|].key == key(x);
    }
    forall i, j | 0 <= i < j < |r|
      ensures r[i].key != r[j].key
    {
      if j == |gs| {
        assert r[i].key == gs[i].key;
      } else {
        assert r[i] == gs[i] && r[j] == gs[j];
      }
    }
    forall i | 0 <= i < |r|
      ensures r[i].members == Filter(ys, HasKey(key, r[i].key))
    {
      FilterByKeyAppend(xs, x, key, r[i].key);
      if i == |gs| {
        forall m | 0 <= m < |xs|
          ensures !HasKey(key, key(x))(xs[m])
        {
          assert key(xs[m]) in KeySet(gs);
        }
        FilterDropsAll(xs, HasKey(key, key(x)));
      } else {
        assert r[i] == gs[i] && gs[i].key in KeySet(gs);
      }
    }
    forall m | 0 <= m < |ys|
      ensures key(ys[m]) in KeySet(r)
    {
      if m < |xs| {
        assert ys[m] == xs[m];
      }
    }
  }

  /** An element with a known key joins the end of that key's group, and the grouping property survives. */
  lemma JoinGroupKeepsGrouping<K, T>(gs: seq<Group<K, T>>, xs: seq<T>, x: T, key: T -> K, j: int)
    requires IsGrouping(gs, xs, key)
    requires 0 <= j < |gs| && gs[j].key == key(x)
    ensures IsGrouping(gs[j := Group(gs[j].key, gs[j].members + [x])], xs + [x], key)
  {
    var r := gs[j := Group(gs[j].key, gs[j].members + [x])];
    var ys := xs + [x];
    assert forall i :: 0 <= i < |gs| ==> r[i].key == gs[i].key;
    assert KeySet(r) == KeySet(gs);
    forall i | 0 <= i < |r|
      ensures r[i].members == Filter(ys, HasKey(key, r[i].key))
    {
      FilterByKeyAppend(xs, x, key, r[i].key);
      if i != j {
        assert r[i] == gs[i];
        if i < j {
          assert gs[i].key != gs[j].key;
        } else {
          assert gs[j].key != gs[i].key;
        }
      }
    }
    forall m | 0 <= m < |ys|
      ensures key(ys[m]) in KeySet(r)
    {
      if m < |xs| {
        assert ys[m] == xs[m];
      } else {
        assert gs[j].key in KeySet(gs);
      }
    }
  }

  /** Filing one more element keeps the grouping property and adds one member. */
  lemma AddToGroupsKeepsGrouping<K, T>(gs: seq<Group<K, T>>, xs: seq<T>, x: T, key: T -> K)
    requires IsGrouping(gs, xs, key)
    ensures IsGrouping(AddToGroups(gs, x, key), xs + [x], key)
    ensures MemberCount(AddToGroups(gs, x, key)) == MemberCount(gs) + 1
  {
    var j := GroupIndex(gs, key(x));
    if j < 0 {
      NewGroupKeepsGrouping(gs, xs, x, key);
      MemberCountAppend(gs, Group(key(x), [x]));
    } else {
      JoinGroupKeepsGrouping(gs, xs, x, key, j);
      MemberCountUpdate(gs, j, Group(gs[j].key, gs[j].members + [x]));
    }
  }

  /** One step of the reduce: the grouping of `xs` files its last element into the grouping of the rest. */
  lemma GroupByStep<K, T>(xs: seq<T>, key: T -> K)
    requires |xs| > 0
    ensures GroupBy(xs, key) == AddToGroups(GroupBy(xs[..|xs| - 1], key), xs[|xs| - 1], key)
  {
  }

  /** `AddToGroupsKeepsGrouping`, stated for a list already known to be the extended input. */
  lemma AppendKeepsGrouping<K, T>(gs: seq<Group<K, T>>, init: seq<T>, x: T, key: T -> K, xs: seq<T>)
    requires IsGrouping(gs, init, key)
    requires xs == init + [x]
    ensures IsGrouping(AddToGroups(gs, x, key), xs, key)
    ensures MemberCount(AddToGroups(gs, x, key)) == MemberCount(gs) + 1
  {
    AddToGroupsKeepsGrouping(gs, init, x, key);
  }

  /** The reduce produces a grouping, and the group sizes add up to the number of elements. */
  lemma {:induction false} GroupByIsGrouping<K, T>(xs: seq<T>, key: T -> K)
    ensures IsGrouping(GroupBy(xs, key), xs, key)
    ensures MemberCount(GroupBy(xs, key)) == |xs|
    decreases |xs|
  {
    if |xs| > 0 {
      var init, x := xs[..|xs| - 1], xs[|xs| - 1];
      GroupByIsGrouping(init, key);
      assert init + [x] == xs;
      GroupByStep(xs, key);
      AppendKeepsGrouping(GroupBy(init, key), init, x, key, xs);
    } else {
      assert GroupBy(xs, key) == [];
    }
  }

  /** The groups' keys are exactly the keys the elements carry. */
  lemma GroupKeysAreElementKeys<K, T>(xs: seq<T>, key: T -> K)
    ensures KeySet(GroupBy(xs, key)) == set m | 0 <= m < |xs| :: key(xs[m])
  {
    var gs := GroupBy(xs, key);
    GroupByIsGrouping(xs, key);
    forall k | k in KeySet(gs)
      ensures exists m :: 0 <= m < |xs| && key(xs[m]) == k
    {
      var i :| 0 <= i < |gs| && gs[i].key == k;
      assert gs[i].members[0] in gs[i].members;
      FilterMember(xs, HasKey(key, k), gs[i].members[0]);
      var m :| 0 <= m < |xs| && xs[m] == gs[i].members[0];
    }
  }

  /** The group filed under a key holds exactly the elements with that key, and is never empty. */
  lemma GroupMembersByKey<K, T>(xs: seq<T>, key: T -> K, i: int)
    requires 0 <= i < |GroupBy(xs, key)|
    ensures GroupBy(xs, key)[i].members == Filter(xs, HasKey(key, GroupBy(xs, key)[i].key))
    ensures |GroupBy(xs, key)[i].members| > 0
  {
    GroupByIsGrouping(xs, key);
  }

  /** No two groups share a key. */
  lemma GroupKeysDistinct<K, T>(xs: seq<T>, key: T -> K)
    ensures forall i, j :: 0 <= i < j < |GroupBy(xs, key)| ==> GroupBy(xs, key)[i].key != GroupBy(xs, key)[j].key
  {
    GroupByIsGrouping(xs, key);
  }

  /** Every group is non-empty, and each member is an element of the input carrying the group's key. */
  lemma GroupMembersHaveKey<K, T>(xs: seq<T>, key: T -> K)
    ensures forall i :: 0 <= i < |GroupBy(xs, key)| ==> |GroupBy(xs, key)[i].members| > 0
    ensures forall i, x :: 0 <= i < |GroupBy(xs, key)| && x in GroupBy(xs, key)[i].members ==>
              x in xs && key(x) == GroupBy(xs, key)[i].key
  {
    var gs := GroupBy(xs, key);
    GroupByIsGrouping(xs, key);
    forall i, x | 0 <= i < |gs| && x in gs[i].members
      ensures x in xs && key(x) == gs[i].key
    {
      GroupMemberHasKey(gs, xs, key, i, x);
    }
  }

  /** A member of a group of a grouping is an input element carrying the group's key. */
  lemma GroupMemberHasKey<K, T>(gs: seq<Group<K, T>>, xs: seq<T>, key: T -> K, i: int, x: T)
    requires IsGrouping(gs, xs, key)
    requires 0 <= i < |gs| && x in gs[i].members
    ensures x in xs && key(x) == gs[i].key
  {
    FilterMember(xs, HasKey(key, gs[i].key), x);
  }

  function GroupKey<K, T>(g: Group<K, T>): K {
    g.key
  }

  /** There is one group per distinct key. */
  lemma GroupCount<K, T>(xs: seq<T>, key: T -> K)
    ensures |GroupBy(xs, key)| == |KeySet(GroupBy(xs, key))|
  {
    var gs := GroupBy(xs, key);
    GroupByIsGrouping(xs, key);
    var ks := Map(gs, GroupKey);
    assert ToSet(ks) == KeySet(gs) by {
      forall k | k in KeySet(gs)
        ensures k in ks
      {
        var i :| 0 <= i < |gs| && gs[i].key == k;
        assert ks[i] == k;
      }
    }
    ToSetCardinality(ks);
  }
}

=== FILE: parents.dfy ===
/**
 * The parents page (pages/classes/ParentsPage.tsx): one entry per parent
 * phone number, grouped from the student list, with a search box and export
 * rows.
 */
module Parents {
  import opened Domain
  import opened Seqs
  import opened Grouping
  import opened Text

  function PhoneOf(s: Student): string {
    s.parentPhone
  }

  /** An entry of the `parents` object. */
  datatype Parent = Parent(name: string, phone: string, students: seq<string>)

  /** The students sharing a phone number, in list order. */
  function PhoneGroups(students: seq<Student>): seq<Group<string, Student>> {
    GroupBy(students, PhoneOf)
  }

  /**
   * The entry of one phone group: created with the parent name of the first
   * student seen with that phone, then one student name pushed per student.
   */
  function ParentOf(g: Group<string, Student>): Parent
    requires |g.members| > 0
  {
    Parent(g.members[0].parentName, g.key, Map(g.members, FullName))
  }

  /** `Object.values(parents)`. */
  function ParentsList(students: seq<Student>): (ps: seq<Parent>)
    ensures |ps| == |PhoneGroups(students)|
    ensures forall i, j :: 0 <= i < j < |ps| ==> ps[i].phone != ps[j].phone
    ensures forall i :: 0 <= i < |ps| ==> |ps[i].students| > 0
  {
    var gs := PhoneGroups(students);
    GroupByIsGrouping(students, PhoneOf);
    seq(|gs|, i requires 0 <= i < |gs| => ParentOf(gs[i]))
  }

  /** Entry `i` is built from phone group `i`. */
  lemma ParentEntry(students: seq<Student>, i: int)
    requires 0 <= i < |ParentsList(students)|
    ensures |PhoneGroups(students)[i].members| > 0
    ensures ParentsList(students)[i] == ParentOf(PhoneGroups(students)[i])
  {
    GroupMembersByKey(students, PhoneOf, i);
  }

  /** Each entry lists, in list order, the names of exactly the students with its phone number. */
  lemma ParentLinksStudentsByPhone(students: seq<Student>, i: int)
    requires 0 <= i < |ParentsList(students)|
    ensures ParentsList(students)[i].students
              == Map(Filter(students, HasKey(PhoneOf, ParentsList(students)[i].phone)), FullName)
  {
    ParentEntry(students, i);
    GroupMembersByKey(students, PhoneOf, i);
  }

  /** Every student's parent phone has an entry, and every entry's phone is some student's. */
  lemma ParentPhonesAreStudentPhones(students: seq<Student>)
    ensures (set i | 0 <= i < |ParentsList(students)| :: ParentsList(students)[i].phone)
         == (set m | 0 <= m < |students| :: students[m].parentPhone)
  {
    GroupKeysAreElementKeys(students, PhoneOf);
    var ps := ParentsList(students);
    forall i | 0 <= i < |ps|
      ensures ps[i].phone == PhoneGroups(students)[i].key
    {
      ParentEntry(students, i);
    }
    assert (set i | 0 <= i < |ps| :: ps[i].phone) == KeySet(PhoneGroups(students));
  }

  /** An entry's name is the parent name on the first student with that phone. */
  lemma ParentNameFromFirstStudent(students: seq<Student>, i: int, m: int)
    requires 0 <= i < |ParentsList(students)|
    requires 0 <= m < |students| && students[m].parentPhone == ParentsList(students)[i].phone
    requires forall k :: 0 <= k < m ==> students[k].parentPhone != ParentsList(students)[i].phone
    ensures ParentsList(students)[i].name == students[m].parentName
  {
    var phone := ParentsList(students)[i].phone;
    ParentEntry(students, i);
    GroupMembersByKey(students, PhoneOf, i);
    assert PhoneOf(students[m]) == phone;
    assert HasKey(PhoneOf, phone)(students[m]);
    assert forall k :: 0 <= k < m ==> PhoneOf(students[k]) != phone;
    assert forall k :: 0 <= k < m ==> !HasKey(PhoneOf, phone)(students[k]);
    FilterHead(students, HasKey(PhoneOf, phone), m);
  }

  /** A student added later with a known phone does not rename that phone's parent. */
  lemma LaterStudentKeepsParentName(students: seq<Student>, s: Student, i: int, j: int)
    requires 0 <= i < |ParentsList(students)|
    requires 0 <= j < |ParentsList(students + [s])|
    requires ParentsList(students + [s])[j].phone == ParentsList(students)[i].phone
    ensures ParentsList(students + [s])[j].name == ParentsList(students)[i].name
  {
    var phone := ParentsList(students)[i].phone;
    ParentEntry(students, i);
    ParentEntry(students + [s], j);
    GroupMembersByKey(students, PhoneOf, i);
    GroupMembersByKey(students + [s], PhoneOf, j);
    FilterByKeyAppend(students, s, PhoneOf, phone);
  }

  /** The number of linked students over a list of entries. */
  function LinkedCount(ps: seq<Parent>): nat
    decreases |ps|
  {
    if |ps| == 0 then 0 else LinkedCount(ps[..|ps| - 1]) + |ps[|ps| - 1].students|
  }

  lemma {:induction false} LinkedCountIsMemberCount(ps: seq<Parent>, gs: seq<Group<string, Student>>)
    requires |ps| == |gs|
    requires forall i :: 0 <= i < |ps| ==> |ps[i].students| == |gs[i].members|
    ensures LinkedCount(ps) == MemberCount(gs)
    decreases |ps|
  {
    if |ps| > 0 {
      LinkedCountIsMemberCount(ps[..|ps| - 1], gs[..|gs| - 1]);
    }
  }

  /** Every student is linked to exactly one entry: the linked counts add up to the number of students. */
  lemma EveryStudentLinkedOnce(students: seq<Student>)
    ensures LinkedCount(ParentsList(students)) == |students|
  {
    GroupByIsGrouping(students, PhoneOf);
    LinkedCountIsMemberCount(ParentsList(students), PhoneGroups(students));
  }

  // ----- search and export -----

  /** The search box: the lowercased name contains the lowercased term, or the phone contains the term as typed. */
  function ParentMatches(term: string): Parent -> bool {
    (p: Parent) => Contains(Lower(p.name), Lower(term)) || Contains(p.phone, term)
  }

  /** `filteredParents`. */
  function FilteredParents(students: seq<Student>, term: string): (r: seq<Parent>)
    ensures forall i :: 0 <= i < |r| ==> Contains(Lower(r[i].name), Lower(term)) || Contains(r[i].phone, term)
    ensures IsSubsequence(r, ParentsList(students))
  {
    var r := Filter(ParentsList(students), ParentMatches(term));
    assert forall i :: 0 <= i < |r| ==> ParentMatches(term)(r[i]);
    FilterSubsequence(ParentsList(students), ParentMatches(term));
    r
  }

  /** An entry is listed exactly when its name or phone matches, in list order. */
  lemma FilteredParentsMatch(students: seq<Student>, term: string)
    ensures forall p :: p in FilteredParents(students, term) <==>
              p in ParentsList(students) && (Contains(Lower(p.name), Lower(term)) || Contains(p.phone, term))
    ensures IsSubsequence(FilteredParents(students, term), ParentsList(students))
  {
    FilterMembers(ParentsList(students), ParentMatches(term));
    FilterSubsequence(ParentsList(students), ParentMatches(term));
  }

  /** Name matching ignores case: typing the term in lower case finds the same names. */
  lemma NameSearchIgnoresCase(p: Parent, term: string)
    requires Contains(Lower(p.name), Lower(term))
    ensures ParentMatches(term)(p) && ParentMatches(Lower(term))(p)
  {
    LowerIdempotent(term);
  }

  /**
   * Phone matching uses the term as typed: a phone holding a capital letter is
   * found by that letter but not by its lower-case form.
   */
  lemma PhoneSearchIsCaseSensitive()
    ensures ParentMatches("0A")(Parent("", "0A", []))
    ensures !ParentMatches("0a")(Parent("", "0A", []))
  {
    assert OccursAt("0A", "0A", 0);
    assert !OccursAt("0A", "0a", 0) by {
      assert "0A"[1] != "0a"[1];
    }
  }

  /** An empty search box lists every parent. */
  lemma EmptySearchListsAllParents(students: seq<Student>)
    ensures FilteredParents(students, "") == ParentsList(students)
  {
    var ps := ParentsList(students);
    forall i | 0 <= i < |ps|
      ensures ParentMatches("")(ps[i])
    {
      ContainsEmpty(ps[i].phone);
    }
    FilterKeepsAll(ps, ParentMatches(""));
  }

  /** An export row: name, phone, the linked names joined with ", ", and the number of children. */
  datatype ParentRow = ParentRow(name: string, phone: string, linkedStudents: string, children: nat)

  function ParentRowOf(p: Parent): (row: ParentRow)
    ensures row.name == p.name && row.phone == p.phone
    ensures row.children == |p.students|
    ensures |p.students| == 1 ==> row.linkedStudents == p.students[0]
  {
    ParentRow(p.name, p.phone, Join(p.students, ", "), |p.students|)
  }

  /** Linking one more child extends the exported names by ", " and that child's name, and the count by one. */
  lemma LinkedStudentsGrow(p: Parent, child: string)
    requires |p.students| > 0
    ensures ParentRowOf(p.(students := p.students + [child])).linkedStudents
              == ParentRowOf(p).linkedStudents + ", " + child
    ensures ParentRowOf(p.(students := p.students + [child])).children == ParentRowOf(p).children + 1
  {
    JoinAppend(p.students, child, ", ");
  }

  function ParentRows(students: seq<Student>, term: string): (rows: seq<ParentRow>)
    ensures |rows| == |FilteredParents(students, term)|
    ensures forall i :: 0 <= i < |rows| ==> rows[i] == ParentRowOf(FilteredParents(students, term)[i])
  {
    Map(FilteredParents(students, term), ParentRowOf)
  }

  /** An exported row's child count is the number of students carrying that phone. */
  lemma ExportedChildrenCount(students: seq<Student>, i: int)
    requires 0 <= i < |ParentsList(students)|
    ensures ParentRowOf(ParentsList(students)[i]).children
              == |Filter(students, HasKey(PhoneOf, ParentsList(students)[i].phone))|
  {
    ParentLinksStudentsByPhone(students, i);
  }
}

=== FILE: recordforms.dfy ===
/**
 * The add/edit dialogs for students (components/admissions/StudentFormDialog.tsx)
 * and staff (components/staff/StaffFormDialog.tsx). Both hold the whole record
 * as form state, seeded once when the dialog component mounts: a copy of the
 * record being edited, or a blank record whose id is stamped with the mount
 * clock. Submitting calls update when a record was given and create otherwise.
 *
 * The admissions and staff pages mount their dialog once, without a record,
 * and only toggle `open`; the form state therefore survives a successful
 * create. `SubmitRecord` models that as written; `SubmitRecordResetting` is the
 * corrected version that starts a fresh blank record after a create.
 */
module RecordForms {
  import opened Wrappers
  import opened Domain
  import opened Dialogs

  // ----- shared dialog behaviour -----

  /** The dialog: `open`, the record it was mounted with (`student`/`staff` prop), the form state. */
  datatype RecordDialog<R> = RecordDialog(open: bool, editing: Option<R>, form: R)

  /** The back-end call `handleSubmit` makes. */
  datatype SaveCall<R> = Create(record: R) | Update(record: R)

  datatype RecordSubmission<R> = RecordSubmission(dialog: RecordDialog<R>, call: SaveCall<R>, notice: Notice)

  /** Mounting the dialog: the form starts as the given record, or as `blank`. */
  function MountRecordDialog<R>(open: bool, editing: Option<R>, blank: R): (d: RecordDialog<R>)
    ensures d.editing == editing
    ensures editing.Some? ==> d.form == editing.value
    ensures editing.None? ==> d.form == blank
  {
    RecordDialog(open, editing, if editing.Some? then editing.value else blank)
  }

  /**
   * `handleSubmit` as written: update when a record was given, create
   * otherwise, always with the form as it stands; only a successful save
   * closes the dialog, and the form is never reset.
   */
  function SubmitRecord<R>(d: RecordDialog<R>, saved: bool): (s: RecordSubmission<R>)
    ensures s.call.Update? <==> d.editing.Some?
    ensures s.call.record == d.form
    ensures s.dialog.form == d.form && s.dialog.editing == d.editing
    ensures saved ==> !s.dialog.open && s.notice == SuccessToast
    ensures !saved ==> s.dialog == d && s.notice == ErrorToast
  {
    var call := if d.editing.Some? then Update(d.form) else Create(d.form);
    if saved then RecordSubmission(d.(open := false), call, SuccessToast)
    else RecordSubmission(d, call, ErrorToast)
  }

  /** The page's "New Admission"/"Add Staff" button: the same dialog component is opened again. */
  function Reopen<R>(d: RecordDialog<R>): (e: RecordDialog<R>)
    ensures e.open && e.editing == d.editing && e.form == d.form
  {
    d.(open := true)
  }

  /**
   * As written, a second create in the same page visit sends the very record
   * the first create sent, system id included.
   */
  lemma SecondCreateResendsFirstRecord<R>(d: RecordDialog<R>)
    requires d.editing.None?
    ensures SubmitRecord(d, true).call.Create?
    ensures SubmitRecord(Reopen(SubmitRecord(d, true).dialog), true).call
              == SubmitRecord(d, true).call
  {
  }

  /**
   * The corrected `handleSubmit`: as `SubmitRecord`, except that a successful
   * create starts over from `freshBlank`, a blank record made at that moment.
   */
  function SubmitRecordResetting<R>(d: RecordDialog<R>, saved: bool, freshBlank: R): (s: RecordSubmission<R>)
    ensures s.call.Update? <==> d.editing.Some?
    ensures s.call.record == d.form
    ensures saved && d.editing.None? ==> s.dialog.form == freshBlank
    ensures !(saved && d.editing.None?) ==> s.dialog.form == d.form
    ensures saved ==> !s.dialog.open && s.notice == SuccessToast
    ensures !saved ==> s.dialog == d && s.notice == ErrorToast
  {
    var s := SubmitRecord(d, saved);
    if saved && d.editing.None? then s.(dialog := s.dialog.(form := freshBlank)) else s
  }

  /** An update, or a failed save, behaves exactly as written. */
  lemma ResettingAgreesExceptAfterCreate<R>(d: RecordDialog<R>, saved: bool, freshBlank: R)
    requires !(saved && d.editing.None?)
    ensures SubmitRecordResetting(d, saved, freshBlank) == SubmitRecord(d, saved)
  {
  }

  // ----- students -----

  /** The blank admission: empty text fields, status active, id "STU" and the mount clock. */
  function NewStudent(mountMs: nat): (s: Student)
    ensures s.status == AdmissionStatus.Active
    ensures IsIdFor(s.systemId, StudentIdPrefix, mountMs)
    ensures s.firstName == "" && s.lastName == "" && s.className == ""
    ensures s.parentName == "" && s.parentPhone == "" && s.photo.None?
  {
    Student(MakeId(StudentIdPrefix, mountMs), "", "", "", "", "", AdmissionStatus.Active, None)
  }

  /** The student dialog's title. */
  function StudentDialogTitle(d: RecordDialog<Student>): (title: string)
    ensures title == "Edit Student" <==> d.editing.Some?
    ensures title == "New Admission" <==> d.editing.None?
  {
    assert "Edit Student"[0] != "New Admission"[0];
    if d.editing.Some? then "Edit Student" else "New Admission"
  }

  /** The six inputs of the student form. */
  datatype StudentEdit =
    | FirstNameEdit(text: string)
    | LastNameEdit(text: string)
    | ClassNameEdit(text: string)
    | ParentNameEdit(text: string)
    | ParentPhoneEdit(text: string)
    | StudentPhotoEdit(photo: Option<PhotoRef>)

  /** `setFormData({ ...formData, field: value })` for one input. */
  function EditStudent(s: Student, e: StudentEdit): (t: Student)
    ensures t.systemId == s.systemId && t.status == s.status
    ensures e.FirstNameEdit? ==> t == s.(firstName := e.text)
    ensures e.LastNameEdit? ==> t == s.(lastName := e.text)
    ensures e.ClassNameEdit? ==> t == s.(className := e.text)
    ensures e.ParentNameEdit? ==> t == s.(parentName := e.text)
    ensures e.ParentPhoneEdit? ==> t == s.(parentPhone := e.text)
    ensures e.StudentPhotoEdit? ==> t == s.(photo := e.photo)
  {
    match e
    case FirstNameEdit(v) => s.(firstName := v)
    case LastNameEdit(v) => s.(lastName := v)
    case ClassNameEdit(v) => s.(className := v)
    case ParentNameEdit(v) => s.(parentName := v)
    case ParentPhoneEdit(v) => s.(parentPhone := v)
    case StudentPhotoEdit(p) => s.(photo := p)
  }

  /** The inputs a sequence of edits goes through, in order. */
  function EditStudentAll(s: Student, edits: seq<StudentEdit>): Student
    decreases |edits|
  {
    if |edits| == 0 then s else EditStudentAll(EditStudent(s, edits[0]), edits[1..])
  }

  /** No sequence of edits changes a student's id or status: an edit resends them as they were. */
  lemma {:induction false} EditsKeepIdAndStatus(s: Student, edits: seq<StudentEdit>)
    ensures EditStudentAll(s, edits).systemId == s.systemId
    ensures EditStudentAll(s, edits).status == s.status
    decreases |edits|
  {
    if |edits| > 0 {
      EditsKeepIdAndStatus(EditStudent(s, edits[0]), edits[1..]);
    }
  }

  /** The inputs of the student form. */
  datatype StudentInput = FirstNameInput | LastNameInput | ClassNameInput | ParentNameInput | ParentPhoneInput | PhotoInput

  function InputOf(e: StudentEdit): StudentInput {
    match e
    case FirstNameEdit(_) => FirstNameInput
    case LastNameEdit(_) => LastNameInput
    case ClassNameEdit(_) => ClassNameInput
    case ParentNameEdit(_) => ParentNameInput
    case ParentPhoneEdit(_) => ParentPhoneInput
    case StudentPhotoEdit(_) => PhotoInput
  }

  /** Two edits to different inputs can be made in either order. */
  lemma StudentEditsCommute(s: Student, e1: StudentEdit, e2: StudentEdit)
    requires InputOf(e1) != InputOf(e2)
    ensures EditStudent(EditStudent(s, e1), e2) == EditStudent(EditStudent(s, e2), e1)
  {
  }

  /** Typing into the same input twice keeps only the later text. */
  lemma LaterStudentEditWins(s: Student, e1: StudentEdit, e2: StudentEdit)
    requires InputOf(e1) == InputOf(e2)
    ensures EditStudent(EditStudent(s, e1), e2) == EditStudent(s, e2)
  {
  }

  /**
   * Editing an existing student without touching any input resends it
   * unchanged, through update.
   */
  lemma UntouchedEditResendsStudent(open: bool, s: Student, blank: Student, saved: bool)
    ensures SubmitRecord(MountRecordDialog(open, Some(s), blank), saved).call == Update(s)
  {
  }

  /**
   * As written, the admissions page's second "New Admission" sends the first
   * admission's system id again.
   */
  lemma SecondAdmissionReusesId(open: bool, mountMs: nat, edits: seq<StudentEdit>, moreEdits: seq<StudentEdit>)
    ensures var d := MountRecordDialog(open, None, NewStudent(mountMs));
            var first := SubmitRecord(d.(form := EditStudentAll(d.form, edits)), true);
            var again := Reopen(first.dialog);
            var second := SubmitRecord(again.(form := EditStudentAll(again.form, moreEdits)), true);
            first.call.Create? && second.call.Create? &&
            second.call.record.systemId == first.call.record.systemId
  {
    var d := MountRecordDialog(open, None, NewStudent(mountMs));
    var first := SubmitRecord(d.(form := EditStudentAll(d.form, edits)), true);
    EditsKeepIdAndStatus(d.form, edits);
    EditsKeepIdAndStatus(Reopen(first.dialog).form, moreEdits);
  }

  /**
   * Corrected: resetting to a blank admission made at a later clock reading
   * gives the second admission a different id.
   */
  lemma ResetAdmissionGetsFreshId(open: bool, mountMs: nat, resetMs: nat, edits: seq<StudentEdit>, moreEdits: seq<StudentEdit>)
    requires mountMs != resetMs
    ensures var d := MountRecordDialog(open, None, NewStudent(mountMs));
            var first := SubmitRecordResetting(d.(form := EditStudentAll(d.form, edits)), true, NewStudent(resetMs));
            var again := Reopen(first.dialog);
            var second := SubmitRecordResetting(again.(form := EditStudentAll(again.form, moreEdits)), true, NewStudent(resetMs));
            first.call.Create? && second.call.Create? &&
            second.call.record.systemId != first.call.record.systemId
  {
    var d := MountRecordDialog(open, None, NewStudent(mountMs));
    EditsKeepIdAndStatus(d.form, edits);
    EditsKeepIdAndStatus(NewStudent(resetMs), moreEdits);
    if MakeId(StudentIdPrefix, resetMs) == MakeId(StudentIdPrefix, mountMs) {
      MakeIdInjective(StudentIdPrefix, resetMs, mountMs);
    }
  }

  // ----- staff -----

  /** The blank staff record: empty name and position, status active, id "STF" and the mount clock. */
  function NewStaff(mountMs: nat): (s: Staff)
    ensures s.status == StaffStatus.Active
    ensures IsIdFor(s.systemId, StaffIdPrefix, mountMs)
    ensures s.name == "" && s.position == "" && s.photo.None?
  {
    Staff(MakeId(StaffIdPrefix, mountMs), "", "", StaffStatus.Active, None)
  }

  function StaffDialogTitle(d: RecordDialog<Staff>): (title: string)
    ensures title == "Edit Staff" <==> d.editing.Some?
    ensures title == "Add Staff" <==> d.editing.None?
  {
    assert "Edit Staff"[0] != "Add Staff"[0];
    if d.editing.Some? then "Edit Staff" else "Add Staff"
  }

  /** The three inputs of the staff form. */
  datatype StaffEdit = NameEdit(text: string) | PositionEdit(text: string) | StaffPhotoEdit(photo: Option<PhotoRef>)

  function EditStaff(s: Staff, e: StaffEdit): (t: Staff)
    ensures t.systemId == s.systemId && t.status == s.status
    ensures e.NameEdit? ==> t == s.(name := e.text)
    ensures e.PositionEdit? ==> t == s.(position := e.text)
    ensures e.StaffPhotoEdit? ==> t == s.(photo := e.photo)
  {
    match e
    case NameEdit(v) => s.(name := v)
    case PositionEdit(v) => s.(position := v)
    case StaffPhotoEdit(p) => s.(photo := p)
  }

  function EditStaffAll(s: Staff, edits: seq<StaffEdit>): Staff
    decreases |edits|
  {
    if |edits| == 0 then s else EditStaffAll(EditStaff(s, edits[0]), edits[1..])
  }

  lemma {:induction false} StaffEditsKeepIdAndStatus(s: Staff, edits: seq<StaffEdit>)
    ensures EditStaffAll(s, edits).systemId == s.systemId
    ensures EditStaffAll(s, edits).status == s.status
    decreases |edits|
  {
    if |edits| > 0 {
      StaffEditsKeepIdAndStatus(EditStaff(s, edits[0]), edits[1..]);
    }
  }

  /** As written, the staff page's second "Add Staff" sends the first member's system id again. */
  lemma SecondStaffCreateReusesId(open: bool, mountMs: nat, edits: seq<StaffEdit>, moreEdits: seq<StaffEdit>)
    ensures var d := MountRecordDialog(open, None, NewStaff(mountMs));
            var first := SubmitRecord(d.(form := EditStaffAll(d.form, edits)), true);
            var again := Reopen(first.dialog);
            var second := SubmitRecord(again.(form := EditStaffAll(again.form, moreEdits)), true);
            first.call.Create? && second.call.Create? &&
            second.call.record.systemId == first.call.record.systemId
  {
    var d := MountRecordDialog(open, None, NewStaff(mountMs));
    var first := SubmitRecord(d.(form := EditStaffAll(d.form, edits)), true);
    StaffEditsKeepIdAndStatus(d.form, edits);
    StaffEditsKeepIdAndStatus(Reopen(first.dialog).form, moreEdits);
  }

  /** Corrected: the reset staff form carries a fresh id. */
  lemma ResetStaffGetsFreshId(open: bool, mountMs: nat, resetMs: nat, edits: seq<StaffEdit>, moreEdits: seq<StaffEdit>)
    requires mountMs != resetMs
    ensures var d := MountRecordDialog(open, None, NewStaff(mountMs));
            var first := SubmitRecordResetting(d.(form := EditStaffAll(d.form, edits)), true, NewStaff(resetMs));
            var again := Reopen(first.dialog);
            var second := SubmitRecordResetting(again.(form := EditStaffAll(again.form, moreEdits)), true, NewStaff(resetMs));
            first.call.Create? && second.call.Create? &&
            second.call.record.systemId != first.call.record.systemId
  {
    var d := MountRecordDialog(open, None, NewStaff(mountMs));
    StaffEditsKeepIdAndStatus(d.form, edits);
    StaffEditsKeepIdAndStatus(NewStaff(resetMs), moreEdits);
    if MakeId(StaffIdPrefix, resetMs) == MakeId(StaffIdPrefix, mountMs) {
      MakeIdInjective(StaffIdPrefix, resetMs, mountMs);
    }
  }
}

=== FILE: reportcard.dfy ===
/**
 * The student report card (pages/exams/StudentReportCardPage.tsx): the
 * average of a student's exam marks and the header fields with their
 * fallbacks when the student record is absent.
 */
module ReportCard {
  import opened Wrappers
  import opened Domain
  import opened Seqs
  import Analytics

  /** `averageMarks`: the mean of the marks, or 0 without records. */
  function AverageMarks(records: seq<ExamRecord>): (avg: real)
    ensures |records| == 0 ==> avg == 0.0
    ensures |records| > 0 ==> avg * |records| as real == SumOf(records, Analytics.Marks)
  {
    if |records| > 0 then Analytics.Mean(SumOf(records, Analytics.Marks), |records|) else 0.0
  }

  /** The lowest mark of a non-empty list. */
  function MinMarks(records: seq<ExamRecord>): (lo: real)
    requires |records| > 0
    ensures forall i :: 0 <= i < |records| ==> lo <= records[i].marks
    ensures exists i :: 0 <= i < |records| && lo == records[i].marks
    decreases |records|
  {
    if |records| == 1 then records[0].marks
    else
      var rest := MinMarks(records[1..]);
      assert forall i :: 1 <= i < |records| ==> records[i] == records[1..][i - 1];
      if records[0].marks <= rest then records[0].marks else rest
  }

  /** The highest mark of a non-empty list. */
  function MaxMarks(records: seq<ExamRecord>): (hi: real)
    requires |records| > 0
    ensures forall i :: 0 <= i < |records| ==> records[i].marks <= hi
    ensures exists i :: 0 <= i < |records| && hi == records[i].marks
    decreases |records|
  {
    if |records| == 1 then records[0].marks
    else
      var rest := MaxMarks(records[1..]);
      assert forall i :: 1 <= i < |records| ==> records[i] == records[1..][i - 1];
      if records[0].marks >= rest then records[0].marks else rest
  }

  /** A report card with records shows an average between the lowest and the highest mark. */
  lemma AverageBetweenMinAndMax(records: seq<ExamRecord>)
    requires |records| > 0
    ensures MinMarks(records) <= AverageMarks(records) <= MaxMarks(records)
  {
    AverageWithin(records, MinMarks(records), MaxMarks(records));
  }

  /** Marks that all lie in [lo, hi] average to a value in [lo, hi]. */
  lemma AverageWithin(records: seq<ExamRecord>, lo: real, hi: real)
    requires |records| > 0
    requires forall i :: 0 <= i < |records| ==> lo <= records[i].marks <= hi
    ensures lo <= AverageMarks(records) <= hi
  {
    var total := SumOf(records, Analytics.Marks);
    assert lo <= Analytics.Mean(total, |records|) <= hi by {
      MarksSumBounds(records, lo, hi);
      Analytics.MeanBounds(total, |records|, lo, hi);
    }
  }

  lemma MarksSumBounds(records: seq<ExamRecord>, lo: real, hi: real)
    requires forall i :: 0 <= i < |records| ==> lo <= records[i].marks <= hi
    ensures lo * |records| as real <= SumOf(records, Analytics.Marks) <= hi * |records| as real
  {
    SumOfBounds(records, Analytics.Marks, lo, hi);
  }

  /** The average does not depend on the order the records arrive in. */
  lemma AverageIgnoresOrder(records: seq<ExamRecord>, reordered: seq<ExamRecord>)
    requires multiset(records) == multiset(reordered)
    ensures AverageMarks(records) == AverageMarks(reordered)
  {
    SumOfPermutation(records, reordered, Analytics.Marks);
    assert |records| == |multiset(records)| == |reordered|;
  }

  /** The "Student Name" field: the full name, or the id from the route when the student is absent. */
  function DisplayName(student: Option<Student>, studentId: string): (name: string)
    ensures student.Some? ==> name == FullName(student.value)
    ensures student.None? ==> name == studentId
  {
    match student
    case Some(s) => FullName(s)
    case None => studentId
  }

  /** The "Class" field: `student?.className || 'N/A'`, so an empty class name also shows "N/A". */
  function DisplayClass(student: Option<Student>): (c: string)
    ensures c != ""
    ensures student.Some? && student.value.className != "" ==> c == student.value.className
    ensures student.None? || student.value.className == "" ==> c == "N/A"
  {
    if student.Some? && student.value.className != "" then student.value.className else "N/A"
  }

  /** What the page renders. */
  datatype ReportCardView =
    | Loading
    | Card(name: string, studentId: string, className: string, average: real,
           rows: seq<ExamRecord>, showsNoRecords: bool)

  function ReportCardOf(recordsLoading: bool, studentLoading: bool, records: seq<ExamRecord>,
                        student: Option<Student>, studentId: string): (v: ReportCardView)
    ensures v.Loading? <==> recordsLoading || studentLoading
    ensures v.Card? ==> v.rows == records && (v.showsNoRecords <==> |records| == 0)
    ensures v.Card? && |records| == 0 ==> v.average == 0.0
    ensures v.Card? ==> v.studentId == studentId && v.className != ""
    ensures v.Card? ==> v.name == DisplayName(student, studentId)
    ensures v.Card? ==> v.className == DisplayClass(student)
    ensures v.Card? ==> v.average == AverageMarks(records)
  {
    if recordsLoading || studentLoading then Loading
    else Card(DisplayName(student, studentId), studentId, DisplayClass(student),
              AverageMarks(records), records, |records| == 0)
  }
}

=== FILE: seqs.dfy ===
/**
 * The array combinators the client applies to record lists (`filter`, `map`,
 * `reduce` to a sum, `new Set(...)`) and the facts about them that the page
 * models rely on.
 */
module Seqs {
  import opened Wrappers

  /** `xs` occurs in `ys` in the same order, possibly with gaps. */
  predicate IsSubsequence<T(==)>(xs: seq<T>, ys: seq<T>)
    decreases |ys|
  {
    || |xs| == 0
    || (&& |ys| > 0
        && (|| (xs[0] == ys[0] && IsSubsequence(xs[1..], ys[1..]))
            || IsSubsequence(xs, ys[1..])))
  }

  /** No two positions of `xs` hold elements with the same `key`. */
  ghost predicate DistinctBy<T, K>(xs: seq<T>, key: T -> K) {
    forall i, j :: 0 <= i < j < |xs| ==> key(xs[i]) != key(xs[j])
  }

  /** No element occurs twice in `xs`. */
  ghost predicate NoDuplicates<T>(xs: seq<T>) {
    forall i, j :: 0 <= i < j < |xs| ==> xs[i] != xs[j]
  }

  /** `Array.prototype.filter`: the elements satisfying `p`, in input order. */
  function Filter<T(==)>(xs: seq<T>, p: T -> bool): (r: seq<T>)
    ensures |r| <= |xs|
    ensures forall i :: 0 <= i < |r| ==> p(r[i])
  {
    if |xs| == 0 then []
    else
      var rest := Filter(xs[1..], p);
      if p(xs[0]) then [xs[0]] + rest else rest
  }

  /** `Array.prototype.map`. */
  function Map<T, U>(xs: seq<T>, f: T -> U): (r: seq<U>)
    ensures |r| == |xs|
    ensures forall i :: 0 <= i < |xs| ==> r[i] == f(xs[i])
  {
    seq(|xs|, i requires 0 <= i < |xs| => f(xs[i]))
  }

  /** Mapping after replacing one element replaces that element's image. */
  lemma MapUpdate<T, U>(xs: seq<T>, j: int, x: T, f: T -> U)
    requires 0 <= j < |xs|
    ensures Map(xs[j := x], f) == Map(xs, f)[j := f(x)]
  {
  }

  /** Mapping after appending one element appends that element's image. */
  lemma MapAppend<T, U>(xs: seq<T>, x: T, f: T -> U)
    ensures Map(xs + [x], f) == Map(xs, f) + [f(x)]
  {
  }

  /** The elements of `xs` as a set (`new Set(xs)`). */
  function ToSet<T>(xs: seq<T>): set<T> {
    set x | x in xs
  }

  /** `xs.reduce((sum, x) => sum + f(x), 0)`. */
  function SumOf<T>(xs: seq<T>, f: T -> real): real {
    if |xs| == 0 then 0.0 else f(xs[0]) + SumOf(xs[1..], f)
  }

  /** The filtered list holds exactly the elements of the input that pass `p`. */
  lemma FilterMember<T>(xs: seq<T>, p: T -> bool, x: T)
    requires x in Filter(xs, p)
    ensures x in xs && p(x)
  {
    FilterMembers(xs, p);
  }

  lemma {:induction false} FilterMembers<T>(xs: seq<T>, p: T -> bool)
    ensures forall x :: x in Filter(xs, p) <==> x in xs && p(x)
    decreases |xs|
  {
    if |xs| > 0 {
      FilterMembers(xs[1..], p);
      assert xs == [xs[0]] + xs[1..];
    }
  }

  /** A filter keeps the input order: its result is a subsequence of the input. */
  lemma {:induction false} FilterSubsequence<T>(xs: seq<T>, p: T -> bool)
    ensures IsSubsequence(Filter(xs, p), xs)
    decreases |xs|
  {
    if |xs| > 0 {
      FilterSubsequence(xs[1..], p);
    }
  }

  lemma {:induction false} FilterConcat<T>(xs: seq<T>, ys: seq<T>, p: T -> bool)
    ensures Filter(xs + ys, p) == Filter(xs, p) + Filter(ys, p)
    decreases |xs|
  {
    if |xs| == 0 {
      assert xs + ys == ys;
    } else {
      assert (xs + ys)[1..] == xs[1..] + ys;
      FilterConcat(xs[1..], ys, p);
    }
  }

  /** One step of a filter over a suffix: the element at `k` is kept or dropped, then the rest. */
  lemma FilterStep<T>(xs: seq<T>, k: int, p: T -> bool)
    requires 0 <= k < |xs|
    ensures Filter(xs[k..], p) == (if p(xs[k]) then [xs[k]] else []) + Filter(xs[k + 1..], p)
  {
    assert xs[k..][1..] == xs[k + 1..];
  }

  /** Inserting an element the predicate rejects anywhere does not change the filtered sequence. */
  lemma {:induction false} FilterInsertRejected<T>(xs: seq<T>, i: nat, e: T, p: T -> bool)
    requires i <= |xs|
    requires !p(e)
    ensures Filter(xs[..i] + [e] + xs[i..], p) == Filter(xs, p)
    decreases i
  {
    var ys := xs[..i] + [e] + xs[i..];
    if i == 0 {
      assert ys[1..] == xs;
    } else {
      var tail := xs[1..];
      FilterInsertRejected(tail, i - 1, e, p);
      assert ys[0] == xs[0];
      assert ys[1..] == tail[..i - 1] + [e] + tail[i - 1..];
    }
  }

  /** Filtering with a predicate no element meets gives the empty list. */
  lemma {:induction false} FilterDropsAll<T>(xs: seq<T>, p: T -> bool)
    requires forall i :: 0 <= i < |xs| ==> !p(xs[i])
    ensures Filter(xs, p) == []
    decreases |xs|
  {
    if |xs| > 0 {
      FilterDropsAll(xs[1..], p);
    }
  }

  lemma {:induction false} FilterIdempotent<T>(xs: seq<T>, p: T -> bool)
    ensures Filter(Filter(xs, p), p) == Filter(xs, p)
    decreases |xs|
  {
    if |xs| > 0 {
      FilterIdempotent(xs[1..], p);
      var head := if p(xs[0]) then [xs[0]] else [];
      FilterConcat(head, Filter(xs[1..], p), p);
      assert Filter(head, p) == head by {
        if p(xs[0]) {
          assert head[1..] == [];
        }
      }
    }
  }

  /** Filtering with a predicate every element meets is the identity. */
  lemma {:induction false} FilterKeepsAll<T>(xs: seq<T>, p: T -> bool)
    requires forall i :: 0 <= i < |xs| ==> p(xs[i])
    ensures Filter(xs, p) == xs
    decreases |xs|
  {
    if |xs| > 0 {
      FilterKeepsAll(xs[1..], p);
      assert [xs[0]] + xs[1..] == xs;
    }
  }

  /** A filter keeps the whole list exactly when every element passes. */
  lemma {:induction false} FilterFullLength<T>(xs: seq<T>, p: T -> bool)
    ensures |Filter(xs, p)| == |xs| <==> forall i :: 0 <= i < |xs| ==> p(xs[i])
    decreases |xs|
  {
    if |xs| > 0 {
      FilterFullLength(xs[1..], p);
      if forall i :: 0 <= i < |xs| ==> p(xs[i]) {
        FilterKeepsAll(xs, p);
      } else if p(xs[0]) {
        var i :| 0 <= i < |xs| && !p(xs[i]);
        assert !p(xs[1..][i - 1]);
      }
    }
  }

  /** The positions of `xs` whose element passes `p`. */
  function PassingPositions<T>(xs: seq<T>, p: T -> bool): set<int> {
    set i | 0 <= i < |xs| && p(xs[i])
  }

  /** A filter keeps one element for each position that passes. */
  lemma {:induction false} FilterLengthCountsPositions<T>(xs: seq<T>, p: T -> bool)
    ensures |Filter(xs, p)| == |PassingPositions(xs, p)|
    decreases |xs|
  {
    if |xs| > 0 {
      var init := xs[..|xs| - 1];
      FilterLengthCountsPositions(init, p);
      FilterSnocLength(xs, p);
      PassingPositionsSnoc(xs, p);
      assert |init| !in PassingPositions(init, p);
    }
  }

  /** The filter of a non-empty list is that of its prefix, one longer when the last element passes. */
  lemma FilterSnocLength<T>(xs: seq<T>, p: T -> bool)
    requires |xs| > 0
    ensures |Filter(xs, p)| == |Filter(xs[..|xs| - 1], p)| + (if p(xs[|xs| - 1]) then 1 else 0)
  {
    var init, x := xs[..|xs| - 1], xs[|xs| - 1];
    assert init + [x] == xs;
    FilterConcat(init, [x], p);
    assert [x][1..] == [];
  }

  /** The passing positions of a non-empty list are those of its prefix, plus the last one when it passes. */
  lemma PassingPositionsSnoc<T>(xs: seq<T>, p: T -> bool)
    requires |xs| > 0
    ensures PassingPositions(xs, p)
         == PassingPositions(xs[..|xs| - 1], p) + (if p(xs[|xs| - 1]) then {|xs| - 1} else {})
  {
    assert forall i :: 0 <= i < |xs| - 1 ==> xs[..|xs| - 1][i] == xs[i];
  }

  /** The first element that passes `p` heads the filtered list. */
  lemma {:induction false} FilterHead<T>(xs: seq<T>, p: T -> bool, i: int)
    requires 0 <= i < |xs| && p(xs[i])
    requires forall j :: 0 <= j < i ==> !p(xs[j])
    ensures |Filter(xs, p)| > 0 && Filter(xs, p)[0] == xs[i]
    decreases i
  {
    if i > 0 {
      FilterHead(xs[1..], p, i - 1);
    }
  }

  /** Two complementary filters split a list: lengths add up and no element is lost or duplicated. */
  lemma {:induction false} FilterPartition<T>(xs: seq<T>, p: T -> bool, q: T -> bool)
    requires forall x :: q(x) == !p(x)
    ensures |Filter(xs, p)| + |Filter(xs, q)| == |xs|
    ensures multiset(Filter(xs, p)) + multiset(Filter(xs, q)) == multiset(xs)
    decreases |xs|
  {
    if |xs| > 0 {
      FilterPartition(xs[1..], p, q);
      assert xs == [xs[0]] + xs[1..];
    }
  }

  lemma {:induction false} FilterKeepsDistinctBy<T, K>(xs: seq<T>, p: T -> bool, key: T -> K)
    requires DistinctBy(xs, key)
    ensures DistinctBy(Filter(xs, p), key)
    decreases |xs|
  {
    if |xs| > 0 {
      var rest := Filter(xs[1..], p);
      FilterKeepsDistinctBy(xs[1..], p, key);
      FilterMembers(xs[1..], p);
      if p(xs[0]) {
        var r := [xs[0]] + rest;
        forall i, j | 0 <= i < j < |r|
          ensures key(r[i]) != key(r[j])
        {
          if i == 0 {
            FilterMember(xs[1..], p, r[j]);
            var k :| 0 <= k < |xs[1..]| && xs[1..][k] == r[j];
            assert xs[k + 1] == r[j];
          } else {
            assert r[i] == rest[i - 1] && r[j] == rest[j - 1];
          }
        }
      }
    }
  }

  lemma {:induction false} SumOfConcat<T>(xs: seq<T>, ys: seq<T>, f: T -> real)
    ensures SumOf(xs + ys, f) == SumOf(xs, f) + SumOf(ys, f)
    decreases |xs|
  {
    if |xs| == 0 {
      assert xs + ys == ys;
    } else {
      assert (xs + ys)[1..] == xs[1..] + ys;
      SumOfConcat(xs[1..], ys, f);
    }
  }

  /** A sum does not depend on the order of its terms. */
  lemma {:induction false} SumOfPermutation<T>(xs: seq<T>, ys: seq<T>, f: T -> real)
    requires multiset(xs) == multiset(ys)
    ensures SumOf(xs, f) == SumOf(ys, f)
    decreases |xs|
  {
    if |xs| == 0 {
      assert |ys| == |multiset(ys)| == 0;
    } else {
      var x := xs[0];
      assert x in multiset(ys);
      var k :| 0 <= k < |ys| && ys[k] == x;
      var rest := ys[..k] + ys[k + 1..];
      RemoveAtMultiset(xs, ys, k);
      SumOfPermutation(xs[1..], rest, f);
      SumOfRemoveAt(ys, k, f);
    }
  }

  /** Taking the first element off one list and the same element off the other keeps their multisets equal. */
  lemma RemoveAtMultiset<T>(xs: seq<T>, ys: seq<T>, k: int)
    requires multiset(xs) == multiset(ys)
    requires 0 <= k < |ys| && 0 < |xs| && ys[k] == xs[0]
    ensures multiset(xs[1..]) == multiset(ys[..k] + ys[k + 1..])
  {
    var x := xs[0];
    assert ys == ys[..k] + [x] + ys[k + 1..];
    assert xs == [x] + xs[1..];
    assert multiset(ys) == multiset(ys[..k]) + multiset{x} + multiset(ys[k + 1..]);
    assert multiset(xs) == multiset{x} + multiset(xs[1..]);
    assert multiset(ys[..k] + ys[k + 1..]) == multiset(ys[..k]) + multiset(ys[k + 1..]);
    assert multiset(xs[1..]) == multiset(xs) - multiset{x};
    assert multiset(ys[..k] + ys[k + 1..]) == multiset(ys) - multiset{x};
  }

  /** The sum of a list is its k-th term plus the sum of the rest. */
  lemma SumOfRemoveAt<T>(ys: seq<T>, k: int, f: T -> real)
    requires 0 <= k < |ys|
    ensures SumOf(ys, f) == f(ys[k]) + SumOf(ys[..k] + ys[k + 1..], f)
  {
    var x := ys[k];
    assert ys == ys[..k] + [x] + ys[k + 1..];
    SumOfConcat(ys[..k] + [x], ys[k + 1..], f);
    SumOfConcat(ys[..k], [x], f);
    SumOfConcat(ys[..k], ys[k + 1..], f);
    assert SumOf([x], f) == f(x) by {
      assert [x][1..] == [];
    }
  }

  /** The sum over a list whose terms lie in [lo, hi] lies in [lo * n, hi * n]. */
  lemma {:induction false} SumOfBounds<T>(xs: seq<T>, f: T -> real, lo: real, hi: real)
    requires forall i :: 0 <= i < |xs| ==> lo <= f(xs[i]) <= hi
    ensures lo * |xs| as real <= SumOf(xs, f) <= hi * |xs| as real
    decreases |xs|
  {
    if |xs| > 0 {
      SumOfBounds(xs[1..], f, lo, hi);
      assert lo * |xs| as real == lo + lo * |xs[1..]| as real;
      assert hi * |xs| as real == hi + hi * |xs[1..]| as real;
    }
  }

  /** A list has at least as many positions as distinct elements, and exactly as many when it has no duplicates. */
  lemma {:induction false} ToSetCardinality<T>(xs: seq<T>)
    ensures |ToSet(xs)| <= |xs|
    ensures NoDuplicates(xs) ==> |ToSet(xs)| == |xs|
    decreases |xs|
  {
    if |xs| > 0 {
      var last := xs[|xs| - 1];
      var init := xs[..|xs| - 1];
      ToSetCardinality(init);
      assert ToSet(xs) == ToSet(init) + {last} by {
        assert xs == init + [last];
      }
      if NoDuplicates(xs) {
        assert NoDuplicates(init);
        forall k | 0 <= k < |init|
          ensures init[k] != last
        {
          assert init[k] == xs[k];
        }
      }
    }
  }

  /** `Array.prototype.find`: the first element satisfying `p`, if any. */
  function Find<T>(xs: seq<T>, p: T -> bool): (r: Option<T>)
    ensures r.None? <==> forall i :: 0 <= i < |xs| ==> !p(xs[i])
    ensures r.Some? ==> exists i :: 0 <= i < |xs| && xs[i] == r.value && p(xs[i]) &&
                                    forall j :: 0 <= j < i ==> !p(xs[j])
    decreases |xs|
  {
    if |xs| == 0 then None
    else if p(xs[0]) then Some(xs[0])
    else
      var r := Find(xs[1..], p);
      assert forall i :: 1 <= i < |xs| ==> xs[i] == xs[1..][i - 1];
      r
  }

  /** `Array.from(new Set(xs))`: each element once, in order of first occurrence. */
  function Distinct<T(==,!new)>(xs: seq<T>): (r: seq<T>)
    ensures NoDuplicates(r)
    ensures forall x :: x in r <==> x in xs
    decreases |xs|
  {
    if |xs| == 0 then []
    else
      var init := Distinct(xs[..|xs| - 1]);
      var last := xs[|xs| - 1];
      assert forall x :: x in xs <==> x in xs[..|xs| - 1] || x == last by {
        assert xs == xs[..|xs| - 1] + [last];
      }
      if last in init then init else init + [last]
  }

  /** The position of the first occurrence of `x` in `xs`. */
  function FirstIndex<T(==)>(xs: seq<T>, x: T): (k: int)
    requires x in xs
    ensures 0 <= k < |xs| && xs[k] == x
    ensures forall m :: 0 <= m < k ==> xs[m] != x
    decreases |xs|
  {
    if xs[0] == x then 0
    else
      var k := FirstIndex(xs[1..], x) + 1;
      assert forall m :: 1 <= m < |xs| ==> xs[m] == xs[1..][m - 1];
      k
  }

  /** Dropping the last element keeps the first occurrence of anything still present. */
  lemma FirstIndexOfPrefix<T>(xs: seq<T>, x: T)
    requires |xs| > 0 && x in xs[..|xs| - 1]
    ensures FirstIndex(xs, x) == FirstIndex(xs[..|xs| - 1], x)
  {
    var k := FirstIndex(xs[..|xs| - 1], x);
    var k' := FirstIndex(xs, x);
    assert xs[k] == xs[..|xs| - 1][k];
    assert k' <= k;
    assert xs[..|xs| - 1][k'] == xs[k'];
  }

  /** `Distinct` lists the elements in the order of their first occurrence. */
  lemma {:induction false} DistinctKeepsFirstOccurrenceOrder<T(!new)>(xs: seq<T>)
    ensures forall i, j :: 0 <= i < j < |Distinct(xs)| ==>
              FirstIndex(xs, Distinct(xs)[i]) < FirstIndex(xs, Distinct(xs)[j])
    decreases |xs|
  {
    if |xs| > 0 {
      var init := xs[..|xs| - 1];
      var last := xs[|xs| - 1];
      var d := Distinct(init);
      DistinctKeepsFirstOccurrenceOrder(init);
      assert xs == init + [last];
      assert forall x :: x in d ==> x in xs;
      forall i | 0 <= i < |d|
        ensures FirstIndex(xs, d[i]) == FirstIndex(init, d[i])
      {
        FirstIndexOfPrefix(xs, d[i]);
      }
      if last !in d {
        assert Distinct(xs) == d + [last];
        assert last !in init;
        assert FirstIndex(xs, last) == |xs| - 1;
      }
    }
  }

  /** There are as many distinct elements as elements of the set. */
  lemma DistinctCardinality<T(!new)>(xs: seq<T>)
    ensures |Distinct(xs)| == |ToSet(xs)|
  {
    ToSetCardinality(Distinct(xs));
    assert ToSet(Distinct(xs)) == ToSet(xs);
  }
}

=== FILE: sms.dfy ===
/**
 * The SMS page (pages/sms/SMSPage.tsx): the individual and bulk send handlers,
 * the bulk group options and the template picker. Sending is simulated: the
 * page only hands a log entry to `logSMS`.
 */
module Sms {
  import opened Wrappers
  import opened Domain
  import opened Dialogs
  import opened Seqs
  import opened Templates
  import Dashboard

  /** The page state: `message`, `selectedStudent`, `selectedGroup`, `selectedTemplate`. */
  datatype SmsForm = SmsForm(message: string, selectedStudent: string, selectedGroup: string, selectedTemplate: string)

  const InitialSmsForm := SmsForm("", "", "", "")

  /** What a send handler leaves behind: the new state, the log handed to `logSMS` if any, and the toast. */
  datatype SendOutcome = SendOutcome(form: SmsForm, sent: Option<SmsLog>, notice: Notice)

  const SentStatus := "Simulated - Sent"
  const SentToGroupStatus := "Simulated - Sent to Group"

  /** The log entry of a send at clock `nowMs`. */
  function SmsLogAt(receiver: string, message: string, status: string, nowMs: nat): (log: SmsLog)
    ensures log.receiver == receiver && log.message == message && log.deliveryStatus == status
    ensures IsIdFor(log.systemId, SmsIdPrefix, nowMs)
    ensures NanosToMillis(log.timestamp) == nowMs as real
  {
    NanosToMillisRoundTrip(nowMs);
    SmsLog(MakeId(SmsIdPrefix, nowMs), receiver, message, MillisToNanos(nowMs), status)
  }

  /** `s => s.systemId === id`. */
  function HasId(id: string): Student -> bool {
    (s: Student) => s.systemId == id
  }

  /**
   * `handleSendIndividual`: nothing is sent without a selected student and a
   * message, nor when the selected id is not in the list; otherwise the log goes
   * to the parent phone of the first student with that id, and message and
   * student selection are cleared only if logging succeeded (`saved`).
   */
  function SendIndividual(form: SmsForm, students: seq<Student>, nowMs: nat, saved: bool): (o: SendOutcome)
    ensures form.selectedStudent == "" || form.message == "" ==> o == SendOutcome(form, None, ErrorToast)
    ensures o.sent.Some? <==>
              form.selectedStudent != "" && form.message != "" &&
              exists i :: 0 <= i < |students| && students[i].systemId == form.selectedStudent
    ensures o.sent.None? ==> o.form == form
    ensures o.sent.Some? ==>
              && o.sent.value.message == form.message
              && o.sent.value.deliveryStatus == SentStatus
              && IsIdFor(o.sent.value.systemId, SmsIdPrefix, nowMs)
              && exists i :: && 0 <= i < |students|
                             && students[i].systemId == form.selectedStudent
                             && o.sent.value.receiver == students[i].parentPhone
                             && forall j :: 0 <= j < i ==> students[j].systemId != form.selectedStudent
    ensures o.sent.Some? && saved ==> o.form == form.(message := "", selectedStudent := "") && o.notice == SuccessToast
    ensures o.sent.Some? && !saved ==> o.form == form && o.notice == ErrorToast
  {
    if form.selectedStudent == "" || form.message == "" then SendOutcome(form, None, ErrorToast)
    else match Find(students, HasId(form.selectedStudent))
      case None => SendOutcome(form, None, Quiet)
      case Some(student) =>
        var log := SmsLogAt(student.parentPhone, form.message, SentStatus, nowMs);
        if saved then SendOutcome(form.(message := "", selectedStudent := ""), Some(log), SuccessToast)
        else SendOutcome(form, Some(log), ErrorToast)
  }

  /** A selected id that is not in the student list sends nothing and raises no toast. */
  lemma UnknownStudentSendsNothing(form: SmsForm, students: seq<Student>, nowMs: nat, saved: bool)
    requires form.selectedStudent != "" && form.message != ""
    requires forall i :: 0 <= i < |students| ==> students[i].systemId != form.selectedStudent
    ensures SendIndividual(form, students, nowMs, saved) == SendOutcome(form, None, Quiet)
  {
    assert Find(students, HasId(form.selectedStudent)).None?;
  }

  /**
   * `handleSendBulk`: nothing is sent without a group and a message; otherwise
   * the log goes to "Group: " and the group, and message and group are cleared
   * only if logging succeeded.
   */
  function SendBulk(form: SmsForm, nowMs: nat, saved: bool): (o: SendOutcome)
    ensures o.sent.Some? <==> form.selectedGroup != "" && form.message != ""
    ensures o.sent.None? ==> o == SendOutcome(form, None, ErrorToast)
    ensures o.sent.Some? ==>
              && o.sent.value.receiver == "Group: " + form.selectedGroup
              && o.sent.value.message == form.message
              && o.sent.value.deliveryStatus == SentToGroupStatus
              && IsIdFor(o.sent.value.systemId, SmsIdPrefix, nowMs)
    ensures o.sent.Some? && saved ==> o.form == form.(message := "", selectedGroup := "") && o.notice == SuccessToast
    ensures o.sent.Some? && !saved ==> o.form == form && o.notice == ErrorToast
  {
    if form.selectedGroup == "" || form.message == "" then SendOutcome(form, None, ErrorToast)
    else
      var log := SmsLogAt("Group: " + form.selectedGroup, form.message, SentToGroupStatus, nowMs);
      if saved then SendOutcome(form.(message := "", selectedGroup := ""), Some(log), SuccessToast)
      else SendOutcome(form, Some(log), ErrorToast)
  }

  /** The two send paths never produce the same log entry: their delivery statuses differ. */
  lemma SendPathsDistinguishable(form: SmsForm, students: seq<Student>, nowMs: nat, saved: bool)
    requires SendIndividual(form, students, nowMs, saved).sent.Some?
    requires SendBulk(form, nowMs, saved).sent.Some?
    ensures SendIndividual(form, students, nowMs, saved).sent.value != SendBulk(form, nowMs, saved).sent.value
  {
    assert |SentStatus| != |SentToGroupStatus|;
  }

  // ----- the template picker -----

  /** `handleTemplateSelect`: the raw template text, placeholders included, replaces the message. */
  function SelectTemplate(form: SmsForm, k: TemplateKey): (f: SmsForm)
    ensures f.message == TemplateText(k)
    ensures f.selectedTemplate == TemplateName(k)
    ensures f.selectedStudent == form.selectedStudent && f.selectedGroup == form.selectedGroup
  {
    form.(selectedTemplate := TemplateName(k), message := TemplateText(k))
  }

  /** A template picked and sent to a group goes out word for word, placeholders unfilled. */
  lemma PickedTemplateSentRaw(form: SmsForm, k: TemplateKey, nowMs: nat, saved: bool)
    requires form.selectedGroup != ""
    ensures SendBulk(SelectTemplate(form, k), nowMs, saved).sent.Some?
    ensures SendBulk(SelectTemplate(form, k), nowMs, saved).sent.value.message == TemplateText(k)
  {
    assert |TemplateText(k)| > 0;
  }

  // ----- the bulk group options -----

  /** The value of a class option. */
  function ClassOption(className: string): string {
    "Class: " + className
  }

  /** The group select: two fixed groups, then one option per distinct class in order of first appearance. */
  function GroupOptions(students: seq<Student>): (options: seq<string>)
    ensures |options| >= 2 && options[0] == "All Parents" && options[1] == "Outstanding Fees"
  {
    ["All Parents", "Outstanding Fees"] + Map(Distinct(Map(students, Dashboard.ClassOf)), ClassOption)
  }

  lemma ClassOptionInjective(a: string, b: string)
    requires ClassOption(a) == ClassOption(b)
    ensures a == b
  {
    assert a == ClassOption(a)[7..];
    assert b == ClassOption(b)[7..];
  }

  /** There is one class option per distinct class, so as many as the dashboard counts classes. */
  lemma GroupOptionsCount(students: seq<Student>)
    ensures |GroupOptions(students)| == 2 + |Dashboard.ClassNames(students)|
  {
    var names := Map(students, Dashboard.ClassOf);
    DistinctCardinality(names);
    assert ToSet(names) == Dashboard.ClassNames(students) by {
      forall c | c in Dashboard.ClassNames(students)
        ensures c in ToSet(names)
      {
        var m :| 0 <= m < |students| && students[m].className == c;
        assert names[m] == c;
      }
    }
  }

  /** Every student's class is offered, and every class option is some student's class. */
  lemma GroupOptionsCoverClasses(students: seq<Student>)
    ensures forall m :: 0 <= m < |students| ==> ClassOption(students[m].className) in GroupOptions(students)
    ensures forall i :: 2 <= i < |GroupOptions(students)| ==>
              exists m :: 0 <= m < |students| && GroupOptions(students)[i] == ClassOption(students[m].className)
  {
    var names := Map(students, Dashboard.ClassOf);
    var classes := Distinct(names);
    var options := GroupOptions(students);
    forall m | 0 <= m < |students|
      ensures ClassOption(students[m].className) in options
    {
      assert names[m] in classes;
      var k :| 0 <= k < |classes| && classes[k] == names[m];
      assert options[2 + k] == ClassOption(classes[k]);
    }
    forall i | 2 <= i < |options|
      ensures exists m :: 0 <= m < |students| && options[i] == ClassOption(students[m].className)
    {
      assert classes[i - 2] in names;
      var m :| 0 <= m < |names| && names[m] == classes[i - 2];
      assert options[i] == ClassOption(students[m].className);
    }
  }

  /**
   * The class options come in order of first appearance: the class of an
   * earlier option belongs to some student listed before every student of
   * the later option's class.
   */
  lemma ClassOptionsInFirstAppearanceOrder(students: seq<Student>, i: int, j: int)
    requires 2 <= i < j < |GroupOptions(students)|
    ensures exists m :: 0 <= m < |students| && ClassOption(students[m].className) == GroupOptions(students)[i]
              && forall k :: 0 <= k <= m ==> ClassOption(students[k].className) != GroupOptions(students)[j]
  {
    var names := Map(students, Dashboard.ClassOf);
    var classes := Distinct(names);
    var options := GroupOptions(students);
    DistinctKeepsFirstOccurrenceOrder(names);
    assert options[i] == ClassOption(classes[i - 2]) && options[j] == ClassOption(classes[j - 2]);
    assert classes[i - 2] in names && classes[j - 2] in names;
    var m := FirstIndex(names, classes[i - 2]);
    var n := FirstIndex(names, classes[j - 2]);
    assert m < n;
    forall k | 0 <= k <= m
      ensures ClassOption(students[k].className) != options[j]
    {
      assert students[k].className != classes[j - 2] by {
        assert names[k] == students[k].className;
      }
      if ClassOption(students[k].className) == options[j] {
        ClassOptionInjective(students[k].className, classes[j - 2]);
      }
    }
    assert ClassOption(students[m].className) == options[i] by {
      assert names[m] == students[m].className;
    }
  }

  /** No option appears twice. */
  lemma GroupOptionsDistinct(students: seq<Student>)
    ensures NoDuplicates(GroupOptions(students))
  {
    var classes := Distinct(Map(students, Dashboard.ClassOf));
    var options := GroupOptions(students);
    forall i, j | 0 <= i < j < |options|
      ensures options[i] != options[j]
    {
      if i >= 2 {
        if options[i] == options[j] {
          ClassOptionInjective(classes[i - 2], classes[j - 2]);
        }
      } else {
        assert options[i][0] != 'C';
        assert options[j][0] == 'C' || j == 1;
      }
    }
  }
}

=== FILE: templates.dfy ===
/**
 * The SMS templates and the placeholder substitution
 * (components/sms/SMSTemplates.ts).
 */
module Templates {
  import opened Text

  /** The opening every template shares. */
  const Greeting := "Dear Parent, "
  /** The signature every template ends with. */
  const Signature := " - Mark Finley APS"

  const FeePaymentBody := "we have received your payment of GH\U{20B5}"
  const FeePayment := Greeting + FeePaymentBody + "[AMOUNT]" + " for " + "[STUDENT_NAME]" + ". Thank you." + Signature
  const FeeReminder := Greeting + "this is a reminder that fees for [STUDENT_NAME] are outstanding. Please make payment at your earliest convenience." + Signature
  const ExamResult := Greeting + "exam results for [STUDENT_NAME] are now available. Please contact the school for details." + Signature
  const Announcement := Greeting + "[ANNOUNCEMENT_TEXT]." + Signature

  /** The keys of `SMS_TEMPLATES`. */
  datatype TemplateKey = FeePaymentKey | FeeReminderKey | ExamResultKey | AnnouncementKey

  function TemplateName(k: TemplateKey): string {
    match k
    case FeePaymentKey => "feePayment"
    case FeeReminderKey => "feeReminder"
    case ExamResultKey => "examResult"
    case AnnouncementKey => "announcement"
  }

  /** `SMS_TEMPLATES[key]`. */
  function TemplateText(k: TemplateKey): (t: string)
    ensures Greeting <= t
    ensures |t| >= |Greeting| + |Signature| && t[|t| - |Signature|..] == Signature
  {
    match k
    case FeePaymentKey => FeePayment
    case FeeReminderKey => FeeReminder
    case ExamResultKey => ExamResult
    case AnnouncementKey => Announcement
  }

  /** `[KEY]`. */
  function Placeholder(key: string): string {
    "[" + key + "]"
  }

  /** Replacement values may not hold `$`, which `String.prototype.replace` would expand. */
  ghost predicate DollarFree(replacements: seq<(string, string)>) {
    forall i :: 0 <= i < |replacements| ==> '$' !in replacements[i].1
  }

  /**
   * `insertTemplate`: the replacements are applied in entry order, each
   * replacing the first occurrence of its placeholder in the text produced so far.
   * The list stands for `Object.entries(replacements)`: its keys are distinct, and
   * it is in the order `Object.entries` gives (integer-like keys first, ascending,
   * then the others in insertion order); building that order is left to the caller.
   */
  function InsertTemplate(template: string, replacements: seq<(string, string)>): (r: string)
    requires DollarFree(replacements)
    ensures |replacements| == 0 ==> r == template
    decreases |replacements|
  {
    if |replacements| == 0 then template
    else
      var (key, value) := replacements[0];
      InsertTemplate(ReplaceFirst(template, Placeholder(key), value), replacements[1..])
  }

  /** Substitution is sequential: later entries see the text earlier entries produced. */
  lemma {:induction false} InsertTemplateSequential(template: string, first: seq<(string, string)>, later: seq<(string, string)>)
    requires DollarFree(first) && DollarFree(later)
    ensures DollarFree(first + later)
    ensures InsertTemplate(template, first + later) == InsertTemplate(InsertTemplate(template, first), later)
    decreases |first|
  {
    assert DollarFree(first + later) by {
      forall i | 0 <= i < |first + later|
        ensures '$' !in (first + later)[i].1
      {
        if i >= |first| {
          assert (first + later)[i] == later[i - |first|];
        }
      }
    }
    if |first| == 0 {
      assert first + later == later;
    } else {
      var (key, value) := first[0];
      assert (first + later)[1..] == first[1..] + later;
      InsertTemplateSequential(ReplaceFirst(template, Placeholder(key), value), first[1..], later);
    }
  }

  /** A key whose placeholder does not occur changes nothing. */
  lemma AbsentKeyChangesNothing(template: string, key: string, value: string)
    requires '$' !in value
    requires !Contains(template, Placeholder(key))
    ensures InsertTemplate(template, [(key, value)]) == template
  {
    assert [(key, value)][1..] == [];
  }

  /** One key replaces only the first occurrence of its placeholder. */
  lemma OneKeyReplacesFirstOccurrence(template: string, key: string, value: string)
    requires '$' !in value
    requires Contains(template, Placeholder(key))
    ensures exists i :: && OccursAt(template, Placeholder(key), i)
                        && (forall j :: 0 <= j < i ==> !OccursAt(template, Placeholder(key), j))
                        && InsertTemplate(template, [(key, value)])
                             == template[..i] + value + template[i + |Placeholder(key)|..]
  {
    InsertOne(template, key, value);
  }

  lemma InsertOne(template: string, key: string, value: string)
    requires '$' !in value
    ensures InsertTemplate(template, [(key, value)]) == ReplaceFirst(template, Placeholder(key), value)
  {
    assert [(key, value)][1..] == [];
  }

  /**
   * Filling the fee payment confirmation with an amount and a student name that
   * hold no `[` (nor `$`) produces the finished message, with no placeholder left.
   */
  lemma FeePaymentFilled(amount: string, name: string)
    requires '[' !in amount && '[' !in name
    requires '$' !in amount && '$' !in name
    ensures DollarFree([("AMOUNT", amount), ("STUDENT_NAME", name)])
    ensures InsertTemplate(FeePayment, [("AMOUNT", amount), ("STUDENT_NAME", name)])
              == Greeting + FeePaymentBody + amount + " for " + name + ". Thank you." + Signature
    ensures '[' !in InsertTemplate(FeePayment, [("AMOUNT", amount), ("STUDENT_NAME", name)])
  {
    var reps := [("AMOUNT", amount), ("STUDENT_NAME", name)];
    var step1 := ReplaceFirst(FeePayment, Placeholder("AMOUNT"), amount);
    assert reps[1..] == [("STUDENT_NAME", name)];
    assert InsertTemplate(FeePayment, reps) == InsertTemplate(step1, [("STUDENT_NAME", name)]);
    InsertOne(step1, "STUDENT_NAME", name);
    FillAmount(amount);
    FillName(amount, name);
    NoBracketLeft(amount, name);
  }

  lemma FillAmount(amount: string)
    requires '$' !in amount
    ensures ReplaceFirst(FeePayment, Placeholder("AMOUNT"), amount)
              == (Greeting + FeePaymentBody + amount + " for ") + Placeholder("STUDENT_NAME") + (". Thank you." + Signature)
  {
    var head := Greeting + FeePaymentBody;
    var rest := " for " + Placeholder("STUDENT_NAME") + (". Thank you." + Signature);
    FeePaymentParts();
    FeePaymentHeadFree();
    ReplaceFirstAfterFreePrefix(head, Placeholder("AMOUNT"), rest, amount);
  }

  lemma FeePaymentParts()
    ensures FeePayment == (Greeting + FeePaymentBody) + Placeholder("AMOUNT")
                          + (" for " + Placeholder("STUDENT_NAME") + (". Thank you." + Signature))
  {
  }

  lemma FeePaymentHeadFree()
    ensures '[' !in Greeting + FeePaymentBody
  {
  }

  lemma FillName(amount: string, name: string)
    requires '[' !in amount && '$' !in name
    ensures ReplaceFirst((Greeting + FeePaymentBody + amount + " for ") + Placeholder("STUDENT_NAME") + (". Thank you." + Signature),
                         Placeholder("STUDENT_NAME"), name)
              == Greeting + FeePaymentBody + amount + " for " + name + ". Thank you." + Signature
  {
    var head := Greeting + FeePaymentBody + amount + " for ";
    assert '[' !in head;
    ReplaceFirstAfterFreePrefix(head, Placeholder("STUDENT_NAME"), ". Thank you." + Signature, name);
  }

  lemma NoBracketLeft(amount: string, name: string)
    requires '[' !in amount && '[' !in name
    ensures '[' !in Greeting + FeePaymentBody + amount + " for " + name + ". Thank you." + Signature
  {
  }
}

=== FILE: text.dfy ===
/**
 * The string operations the pages use: `toLowerCase`, `includes`, and the
 * first-occurrence `String.prototype.replace(string, string)`.
 */
module Text {
  import opened Wrappers

  /** ASCII `toLowerCase` of one character. */
  function LowerChar(c: char): char {
    if 'A' <= c <= 'Z' then ((c as int) + 32) as char else c
  }

  /** ASCII `toLowerCase`. */
  function Lower(s: string): (r: string)
    ensures |r| == |s|
    ensures forall i :: 0 <= i < |s| ==> r[i] == LowerChar(s[i])
  {
    seq(|s|, i requires 0 <= i < |s| => LowerChar(s[i]))
  }

  /** `pat` occurs in `s` starting at position `i`. */
  predicate OccursAt(s: string, pat: string, i: int) {
    0 <= i && i + |pat| <= |s| && s[i..i + |pat|] == pat
  }

  /** `s.includes(t)`. */
  predicate Contains(s: string, t: string) {
    exists i :: 0 <= i <= |s| - |t| && OccursAt(s, t, i)
  }

  lemma ContainsEmpty(s: string)
    ensures Contains(s, "")
  {
    assert OccursAt(s, "", 0);
  }

  /** `s.indexOf(pat, from)`, with `None` for -1. */
  function IndexOfFrom(s: string, pat: string, from: nat): (r: Option<nat>)
    ensures r.Some? ==> from <= r.value && OccursAt(s, pat, r.value)
    ensures r.Some? ==> forall j :: from <= j < r.value ==> !OccursAt(s, pat, j)
    ensures r.None? ==> forall j :: from <= j ==> !OccursAt(s, pat, j)
    decreases |s| - from
  {
    if from + |pat| > |s| then None
    else if s[from..from + |pat|] == pat then Some(from)
    else IndexOfFrom(s, pat, from + 1)
  }

  /** `s.indexOf(pat)`: the first position where `pat` occurs. */
  function IndexOf(s: string, pat: string): (r: Option<nat>)
    ensures r.Some? ==> OccursAt(s, pat, r.value) && forall j :: 0 <= j < r.value ==> !OccursAt(s, pat, j)
    ensures r.None? <==> !Contains(s, pat)
  {
    IndexOfFrom(s, pat, 0)
  }

  /**
   * `s.replace(pat, v)` with a string pattern and a replacement that holds no `$`:
   * only the first occurrence of `pat` is replaced; without one, `s` is returned.
   */
  function ReplaceFirst(s: string, pat: string, v: string): (r: string)
    requires '$' !in v
    ensures !Contains(s, pat) ==> r == s
    ensures Contains(s, pat) ==>
      exists i :: && OccursAt(s, pat, i)
                  && (forall j :: 0 <= j < i ==> !OccursAt(s, pat, j))
                  && r == s[..i] + v + s[i + |pat|..]
  {
    match IndexOf(s, pat)
    case None => s
    case Some(i) => s[..i] + v + s[i + |pat|..]
  }

  /**
   * When the text before an occurrence of `pat` cannot hold `pat` (it lacks the
   * pattern's first character), that occurrence is the one replaced.
   */
  lemma ReplaceFirstAfterFreePrefix(a: string, pat: string, b: string, v: string)
    requires |pat| > 0 && pat[0] !in a
    requires '$' !in v
    ensures ReplaceFirst(a + pat + b, pat, v) == a + v + b
  {
    var s := a + pat + b;
    assert OccursAt(s, pat, |a|) by {
      assert s[|a|..|a| + |pat|] == pat;
    }
    var i := IndexOf(s, pat).value;
    assert i == |a|;
    assert s[..i] == a;
    assert s[i + |pat|..] == b;
  }

  /** Lowercasing twice is lowercasing once. */
  lemma LowerIdempotent(s: string)
    ensures Lower(Lower(s)) == Lower(s)
  {
  }

  /** `xs.join(sep)`. */
  function Join(xs: seq<string>, sep: string): (r: string)
    ensures |xs| == 0 ==> r == ""
    ensures |xs| == 1 ==> r == xs[0]
    decreases |xs|
  {
    if |xs| == 0 then ""
    else if |xs| == 1 then xs[0]
    else xs[0] + sep + Join(xs[1..], sep)
  }

  /** Joining one more string appends the separator and that string. */
  lemma {:induction false} JoinAppend(xs: seq<string>, x: string, sep: string)
    requires |xs| > 0
    ensures Join(xs + [x], sep) == Join(xs, sep) + sep + x
    decreases |xs|
  {
    var ys := xs + [x];
    if |xs| == 1 {
      assert ys[1..] == [x];
    } else {
      assert ys[1..] == xs[1..] + [x];
      JoinAppend(xs[1..], x, sep);
    }
  }
}

=== FILE: users.dfy ===
/**
 * The add-user dialog (components/admin/UserFormDialog.tsx): the profile it
 * builds for a principal, and the reset after a successful create.
 */
module Users {
  import opened Wrappers
  import opened Domain
  import opened Dialogs

  datatype UserForm = UserForm(principalId: string, fullName: string, appRole: AppRole)

  /** The form at mount and after every successful create: empty text, role accountant. */
  const EmptyUserForm := UserForm("", "", Accountant)

  /** The three inputs. */
  datatype UserEdit = PrincipalIdEdit(text: string) | FullNameEdit(text: string) | AppRoleEdit(role: AppRole)

  function EditUser(f: UserForm, e: UserEdit): (g: UserForm)
    ensures e.PrincipalIdEdit? ==> g == f.(principalId := e.text)
    ensures e.FullNameEdit? ==> g == f.(fullName := e.text)
    ensures e.AppRoleEdit? ==> g == f.(appRole := e.role)
  {
    match e
    case PrincipalIdEdit(v) => f.(principalId := v)
    case FullNameEdit(v) => f.(fullName := v)
    case AppRoleEdit(r) => f.(appRole := r)
  }

  /**
   * The profile `handleSubmit` sends: system id the principal text as typed,
   * system role `user`, active, no photo, `lastUpdated` the clock in nanoseconds.
   */
  function BuildProfile(f: UserForm, nowMs: nat): (p: UserProfile)
    ensures p.systemId == f.principalId && p.fullName == f.fullName && p.appRole == f.appRole
    ensures p.role == UserRole.User && p.active && p.photo.None?
    ensures NanosToMillis(p.lastUpdated) == nowMs as real
  {
    NanosToMillisRoundTrip(nowMs);
    UserProfile(f.principalId, f.fullName, UserRole.User, f.appRole, true, MillisToNanos(nowMs), None)
  }

  datatype UserSubmission = UserSubmission(dialog: Dialog<UserForm>, sent: Option<(Principal, UserProfile)>, notice: Notice)

  /**
   * `handleSubmit`. `parsed` is what `Principal.fromText` makes of the principal
   * text (`None` when it throws), `saved` whether `createUser` succeeded.
   */
  function SubmitUser(d: Dialog<UserForm>, parsed: Option<Principal>, nowMs: nat, saved: bool): (s: UserSubmission)
    ensures s.sent.Some? <==> parsed.Some?
    ensures parsed.None? ==> s.dialog == d && s.notice == ErrorToast
    ensures s.sent.Some? ==> s.sent.value.0 == parsed.value && s.sent.value.1 == BuildProfile(d.form, nowMs)
    ensures parsed.Some? && saved ==> s.dialog == Dialog(false, EmptyUserForm) && s.notice == SuccessToast
    ensures parsed.Some? && !saved ==> s.dialog == d && s.notice == ErrorToast
  {
    match parsed
    case None => UserSubmission(d, None, ErrorToast)
    case Some(userId) =>
      var sent := Some((userId, BuildProfile(d.form, nowMs)));
      if saved then UserSubmission(Dialog(false, EmptyUserForm), sent, SuccessToast)
      else UserSubmission(d, sent, ErrorToast)
  }

  /** No profile created through the dialog is an admin or inactive, whatever was typed. */
  lemma CreatedUsersAreActiveUsers(d: Dialog<UserForm>, parsed: Option<Principal>, nowMs: nat, saved: bool)
    requires SubmitUser(d, parsed, nowMs, saved).sent.Some?
    ensures SubmitUser(d, parsed, nowMs, saved).sent.value.1.role != UserRole.Admin
    ensures SubmitUser(d, parsed, nowMs, saved).sent.value.1.active
  {
  }

  /**
   * After a successful create the dialog can be reopened for the next user:
   * the form is back to its mount state, so the next profile starts from
   * accountant unless the role is picked again.
   */
  lemma CreateResetsForNextUser(d: Dialog<UserForm>, p: Principal, nowMs: nat)
    ensures SubmitUser(d, Some(p), nowMs, true).dialog.form == EmptyUserForm
    ensures SubmitUser(Dialog(true, SubmitUser(d, Some(p), nowMs, true).dialog.form), Some(p), nowMs, true)
              .sent.value.1.appRole == Accountant
  {
  }
}

=== FILE: wrappers.dfy ===
/** Optional values: the TypeScript `T | null` results and `?:` fields of the client. */
module Wrappers {

  /** `None` stands for `null`/`undefined`, `Some(v)` for a present value. */
  datatype Option<+T> = None | Some(value: T) {

    /** The value, or `default` when absent (the `x ?? default` idiom). */
    function GetOr(default: T): T {
      match this
      case Some(v) => v
      case None => default
    }
  }
}
